=== FILE: README.md ===
# PlagAI Scanner: the result format and its helpers, in Dafny

PlagAI Scanner sends a text to a language model with a prompt that fixes
the shape of the reply. The reply must hold four bracket-delimited blocks:

- plagiarism score, assessment and analysis;
- plagiarised segments;
- AI-generation score, assessment and analysis;
- humanising suggestions.

The browser decodes the reply into two result records, and the results
screen renders them. This project models that path as pure functions over
`seq<char>`:

- **Decoder** (`Response`). It isolates each block with
  `split(END)[0].split(START)[1] || ''`. It reads `<label>: <digits>` and
  `<label>: <rest of line>`, splits the analysis on `---`, and splits the
  lists on `|||`, trimming each item and dropping the empty ones. Every
  missing piece falls back to the fixed default.
- **Encoder side** (`Format`, `LabelTable`, `Locale`, `LocaleFacts`). This
  covers the prompt template `createPrompt` and the per-locale label table
  that feeds both the prompt and the parser through the `ai` record.
  `RoundTrip` proves that a reply written in the template's shape decodes
  to the values written into it, for every locale.
- **Service** (`Service`). This covers the empty-key guard of
  `validateApiKey`, the system instruction, the request contents, and the
  classification of failures in `runAnalysis`, with the network as a
  parameter.
- **File parsing** (`FileParser`). This covers the choice of extractor by
  extension and the page and paragraph joins of the PDF and ODT extractors.
  What the decoders deliver is taken as input.
- **Checker screen** (`WordCount`, `Checker`). This covers:
  - `countWords` and the submission guard;
  - the mapping of file and analysis errors to messages;
  - the score colour bands;
  - the substitution of the assessment sentinel.
- **Renderers** (`RegexSplit`, `Markdown`, `Highlight`). `RegexSplit`
  models `String.prototype.split` with a capturing regular expression.
  `Markdown` models the bold renderer. `Highlight` models the
  case-insensitive highlighter over the decoded segments.

The model follows JavaScript's own behaviour where it matters:

- `trim` and `\s` use the full JavaScript white-space set.
- The regular-expression `.` refuses line terminators.
- `replace` with a string pattern changes the first occurrence only and
  expands `$`-patterns in the replacement.
- `slice` takes negative bounds.
- `split` with a capture returns the matches between the gaps.
- Sorting is stable.

## Model

| member | source | states |
|---|---|---|
| Response.Section | services/geminiService.ts:76 | A block never contains its START marker, and it is empty when START does not occur before the first END marker |
| Response.SectionAt | services/geminiService.ts:76 | With the first START at `i` inside the text before the first END, the block is the text after that START, up to the next START or the first END (or the end of the text when END is missing). It sits in the reply at `i + |START|` and holds no END |
| Response.SectionLacksEnd | services/geminiService.ts:88 | No block ever contains its END marker, whatever the reply |
| Response.DecodeWithoutBlocks | services/geminiService.ts:72-121 | A reply without any START marker decodes to the defaults: score 0, the sentinel assessment, the whole (empty) section as analysis, no segments, no suggestions |
| Response.EmptySection | services/geminiService.ts:93-96 | On an empty block the score is 0, the assessment is `error.assessmentFailed`, the analysis is empty and the list is empty |
| Response.ScoreOf | services/geminiService.ts:83-93 | With no `<key>: <digit>` anywhere the score is 0. Otherwise it is the value of the maximal digit run after the leftmost such occurrence (not clamped) |
| Decimal.DigitRunOf | services/geminiService.ts:83 | The `\d+` run read after the label stops at the first non-digit, so `45abc` yields `45` |
| Decimal.ValueOfDecimal | services/geminiService.ts:93 | `parseInt(…, 10)` of a number written in decimal gives the number back |
| Response.AssessmentOf | services/geminiService.ts:84-94 | Without `<key>: ` the assessment is exactly the sentinel `error.assessmentFailed`. It never contains a line terminator |
| Response.AssessmentAt | services/geminiService.ts:84-94 | With the first `<key>: ` at `i`, the assessment is the rest of that line, trimmed |
| Response.AnalysisOf | services/geminiService.ts:85-95 | Without `---` the analysis is the whole block, untrimmed. With `---` it is trimmed and holds no `---` |
| Response.AnalysisAt | services/geminiService.ts:85-95 | With the first `---` at `i`, the analysis is the trimmed text from there to the second `---` or the end of the block |
| Response.AnalysisBySplit | services/geminiService.ts:85-95 | The analysis is `parts[1].trim()` of `split('---')` when there are two or more parts, otherwise the block |
| Response.ListOf | services/geminiService.ts:89-90 | Without `<key>: ` the list is empty. Every item is non-empty and trimmed |
| Response.ListAt | services/geminiService.ts:89-90 | With the first `<key>: ` at `i`, the list is the rest of that line split on `|||`, each piece trimmed, empty pieces dropped |
| Response.ListPlain | services/geminiService.ts:90 | No item holds a line terminator or `|||` |
| Response.CleanAppend | services/geminiService.ts:90 | Trimming and dropping empties distributes over concatenation, so the items keep their order |
| Response.CleanOfClean | services/geminiService.ts:90 | A list whose items are already non-empty and trimmed passes through unchanged |
| RoundTrip.PlagiarismFromSections | services/geminiService.ts:76-97 | Whenever the plagiarism block is a scored block written with the locale's labels and values the format can carry, and the segments block is a list line, the plagiarism record decodes to exactly those values |
| RoundTrip.AiFromSections | services/geminiService.ts:100-121 | Whenever the AI block is a scored block and the suggestions block a list line, the AI record decodes to those values. An empty suggestion line gives no `suggestions` at all, and a non-empty one gives exactly its items |
| Response.Decode | services/geminiService.ts:72-121 | A present suggestion list is never empty. The assessments lie on one line. Every segment is non-empty and trimmed |
| RoundTrip.DecodeEncode | lib/translations.ts:30-76 | For distinguishable labels, a reply in the template's shape decodes to the report it carries. The conditions: scores are written in decimal; no value and no free text around the blocks contains `[`; assessments and analyses are trimmed and hold no `---`; assessments lie on one line; list items are non-empty, trimmed, on one line, hold no `|||` and do not end in `|`; a present suggestion list is non-empty |
| RoundTrip.LocaleRoundTrip | lib/translations.ts:358-362 | The round trip holds with every locale's `ai` labels, which are both written by the prompt and read by the parser |
| RoundTrip.SkeletonSections | services/geminiService.ts:76-112 | In a reply in the template's shape, each of the four blocks isolates exactly the body written between its markers |
| RoundTrip.ScoredFromBlock | lib/translations.ts:30-33 | A scored block's score, assessment and analysis read back as written when the two labels are apart |
| RoundTrip.ListFromBlock | lib/translations.ts:47-48 | A list line reads back as exactly the items written, when each item is non-empty, trimmed, on one line, and holds no `[` or `|||` and does not end in `|` |
| RoundTrip.ItemsOfJoin | services/geminiService.ts:90 | Splitting items joined by `|||` gives the items back, when each item is non-empty, trimmed, on one line, and holds no `[` or `|||` and does not end in `|` |
| RoundTrip.TrailingBarItemAltered | services/geminiService.ts:90 | An item ending in `|` does not survive: the items `a|` and `b` are joined as `a||||b`, which reads back as `a` and `|b` |
| Format.MarkersDistinct | lib/translations.ts:30-76 | The eight markers are pairwise different |
| Format.MarkersWellFormed | lib/translations.ts:30-76 | Every marker is one `[`…`]` bracket on one line, with no bracket inside |
| Format.SkeletonPlacesLabels | lib/translations.ts:30-75 | Each START marker is followed by its block's `<label>: ` lines: score and assessment on consecutive lines followed by `---`, or the list label |
| LocaleFacts.LabelsDistinguishable | lib/translations.ts:84-100 | In every locale the six labels are plain and pairwise distinct, and the two labels of a block are not substrings of one another |
| LocaleFacts.PromptPlacesLabels | lib/translations.ts:30-75 | Every locale's prompt holds each START marker followed by its block's label lines |
| LocaleFacts.PromptNamesLanguage | lib/translations.ts:14 | Every locale's prompt contains that locale's language name |
| LabelTable.EnLabelsDistinguishable | lib/translations.ts:92-93 | The English labels contain no line terminator, regular-expression metacharacter, colon or `---`, and are pairwise distinct and apart |
| Service.ValidateApiKey | services/geminiService.ts:4-15 | An empty key is refused without a probe. Any other key is probed as it is |
| Service.KeyAccepted | services/geminiService.ts:4-15 | A key is accepted exactly when it is non-empty and the probe succeeds |
| Service.SystemInstruction | services/geminiService.ts:48-57 | The instruction is trimmed. It is the three upper-cased `# LABEL` headers with persona, context and memory in that order. Only trailing white space is lost: the memory's own, or the last header's line feed when the memory is blank |
| Service.ClassifyFailure | services/geminiService.ts:125-131 | A failure maps to `error.invalidApiKey` exactly when it is an Error whose message contains one of the two key phrases. Every other failure maps to `error.apiFail` |
| Service.MissingTextIsApiFail | services/geminiService.ts:72-76 | A reply without a text part makes `split` throw a `TypeError`, which mentions no API key and so is rethrown as `error.apiFail` |
| Analysis.FailuresClassified | services/geminiService.ts:59-131 | The service fails exactly when the call fails or the reply has no text. It reports a rejected key only when the call itself failed with an Error that names one |
| Analysis.RunAnalysisRoundTrip | services/geminiService.ts:59-121 | A reply written in the template's shape with a locale's labels comes back from the service as exactly the report it carries |
| Analysis.RequestCarriesInstructions | services/geminiService.ts:62 | Whatever the user's text, the request contents hold each block marker followed by the locale's label lines, and the language name. The user's text follows unchanged after the prompt's line break |
| FileParser.LastPiece | services/fileParser.ts:54 | The last piece of `split('.')` is the text after the last `.` |
| FileParser.Extension | services/fileParser.ts:54 | The extension is the lower-cased text after the last `.`, and it holds no `.` |
| FileParser.ExtensionEdges | services/fileParser.ts:54 | A name without `.` is its own extension (lower-cased). A name ending in `.` has the empty extension |
| FileParser.Dispatch | services/fileParser.ts:56-67 | `pdf`, `docx` and `odt` select their extractors and `doc` fails with `error.unsupportedDoc`, each exactly. Any other extension fails with `error.unsupportedFileType:` followed by the extension |
| FileParser.DispatchIgnoresCase | services/fileParser.ts:54-64 | Dispatch compares the text after the last `.` with the extension names ignoring case |
| FileParser.PdfText | services/fileParser.ts:22-28 | No pages give the empty text. Otherwise each page's items are joined by spaces, and every page line ends in a line feed |
| FileParser.PdfLinesArePages | services/fileParser.ts:22-28 | When items hold no line feed, the text without its final line feed splits on line feeds into exactly the page lines |
| FileParser.OdtText | services/fileParser.ts:40-50 | A missing `content.xml` fails. Otherwise the result is the paragraphs joined by line feeds, with the white space at both ends trimmed |
| FileParser.ParseFile | services/fileParser.ts:53-67 | A refused extension fails with its message before the file is read. A supported one fails with the rejection of its reader or decoder, if there is one. Otherwise DOCX gives the decoder's text. PDF gives the empty text for no pages, and otherwise the page lines (each page's items joined by spaces) joined by line feeds with a final line feed. ODT fails with the null-dereference error when the archive has no `content.xml`, and otherwise gives the paragraphs joined by line feeds, trimmed. A success always comes from a supported, undamaged file |
| WordCount.CountWords | components/PlagiarismChecker.tsx:14-17 | The count is the number of maximal runs of non-white-space characters |
| WordCount.TrimCounted | components/PlagiarismChecker.tsx:16 | On a trimmed text, the non-empty pieces of `split(/\s+/)` are exactly the runs |
| WordCount.NoWords | components/PlagiarismChecker.tsx:14-17 | The count is 0 exactly when the text is empty or white space only |
| WordCount.CountIgnoresPadding | components/PlagiarismChecker.tsx:14-17 | White space added before or after a text does not change its count |
| WordCount.CountIgnoresSpacing | components/PlagiarismChecker.tsx:14-17 | Replacing one non-empty white-space gap with another does not change the count |
| Checker.Guard | components/PlagiarismChecker.tsx:139-148 | Blank text is refused as `textRequired`, and this check comes first. Typed text over 1500 words is refused as too long. Everything else proceeds |
| Checker.DisabledMatchesGuard | components/PlagiarismChecker.tsx:353 | The button is disabled exactly while loading or when the handler would refuse the text |
| Checker.FilesExempt | components/PlagiarismChecker.tsx:145 | Text that came from a file is never refused for its length |
| Checker.WordLimitMessage | components/PlagiarismChecker.tsx:146 | The word-limit message is the locale's text with `1500` in place of `{maxWords}` |
| Checker.LocaleFits | lib/translations.ts:249-261 | In every locale's error table, `{ext}` and `{maxWords}` follow a lead without `{`. The assessment text holds no `$`. The invalid-key and API-failure texts are non-empty and different |
| Checker.HandleFile | components/PlagiarismChecker.tsx:92-127 | A failed extraction shows the message lines 107-118 build from the error and clears the name and the text. A successful one keeps the name and shows the text |
| Checker.HandleRefusedFile | components/PlagiarismChecker.tsx:108-110 | A file refused for its type is reported, in every locale, as the lead text followed by the refused extension up to its first `:`, provided that part holds no `$` |
| Checker.FailureBlocksSubmit | components/PlagiarismChecker.tsx:119-120 | After a failed extraction a submission is refused as `textRequired` |
| Checker.RefusedTypeShown | components/PlagiarismChecker.tsx:108-110 | The unsupported-type message shows the extension only up to its first `:`, and `$`-patterns in it are expanded |
| Checker.FileTypePlainExtension | components/PlagiarismChecker.tsx:108-110 | For an extension without `:` or `$`, the message shows the lead followed by the extension |
| Checker.DollarExtensionMangled | components/PlagiarismChecker.tsx:108-110 | `a.$&` is reported as `.{ext}`: the placeholder comes back instead of the extension |
| Checker.ColonExtensionCut | components/PlagiarismChecker.tsx:108-110 | `a.b:c` is reported as `.b` |
| Checker.RefusedTypeShownFixed | components/PlagiarismChecker.tsx:108-110 | The corrected mapping shows the lead followed by the whole extension |
| Checker.FileTypeRoundTrip | components/PlagiarismChecker.tsx:108-110 | For every refused file and locale, the corrected message names exactly the extension the parser refused |
| Checker.ServiceErrorsShownRaw | components/PlagiarismChecker.tsx:163-169 | Both failures the service throws are shown as raw keys (`error.invalidApiKey`, `error.apiFail`) |
| Checker.ServiceErrorsLocalized | components/PlagiarismChecker.tsx:163-169 | With the corrected lookup, the invalid-key text is shown exactly for an invalid key and the API-failure text exactly for other failures |
| Checker.FixedAgreesElsewhere | components/PlagiarismChecker.tsx:163-171 | The corrected lookup behaves as written for every table key and every message without the `error.` prefix |
| Checker.Entry | components/PlagiarismChecker.tsx:164-165 | Exactly the table's keys have an entry |
| Checker.Submit | components/PlagiarismChecker.tsx:139-176 | A submission is refused exactly when the guard refuses it. It is analysed exactly when the guard passes and the reply has text, giving the decoded report. A failure shows the raw key the service threw, `error.invalidApiKey` or `error.apiFail`, matching how the call failed |
| Checker.SubmitFixed | components/PlagiarismChecker.tsx:139-176 | With the corrected lookup, a failure shows the locale's invalid-key text exactly for a rejected key and its API-failure text exactly for every other failure. Refusals and analyses are as in Checker.Submit |
| Checker.FixedSubmitDiffers | components/PlagiarismChecker.tsx:163-169 | When the locale's texts differ from the raw keys, the corrected screen differs from the written one on every failed analysis and agrees with it everywhere else |
| Checker.BandMonotone | components/PlagiarismChecker.tsx:559-569 | A higher score never falls in a lower band |
| Checker.ColoursAgree | components/PlagiarismChecker.tsx:440-444 | The PDF colour, the stroke class and the text class each differ between two scores exactly when their bands (above 60, above 30, otherwise) differ |
| Checker.KindOnlyInLowBand | components/PlagiarismChecker.tsx:559-569 | The plagiarism and AI circles are coloured alike exactly outside the low band |
| Checker.SentinelReplaced | components/PlagiarismChecker.tsx:665 | The first sentinel in an assessment is replaced literally by the locale's text. An assessment without the sentinel is shown as it is |
| Checker.MissingAssessmentShown | components/PlagiarismChecker.tsx:730 | When the label is missing from the block, the screen shows the locale's "could not determine" text |
| RegexSplit.SplitCharacterized | components/PlagiarismChecker.tsx:630 | The parts of a split are exactly the tiling of the text: gaps in which no match starts, alternating with the leftmost matches |
| RegexSplit.SplitConcat | components/PlagiarismChecker.tsx:630 | The parts concatenate back to the text |
| RegexSplit.SplitParts | components/PlagiarismChecker.tsx:630 | Every odd part is the match found at its offset. No match starts inside an even part |
| Markdown.BoldCharacterized | components/PlagiarismChecker.tsx:604 | The lazy pattern matches at `q` up to `e` exactly when the text there is `**`, one line of text, and the first `**` after the opening one |
| Markdown.BoldSpansRendered | components/PlagiarismChecker.tsx:604-609 | Every odd part is a bold span at its offset and is shown in bold without its delimiters |
| Markdown.GapsRendered | components/PlagiarismChecker.tsx:604-611 | No bold span opens inside an even part. Unless it starts and ends with `**` itself, an even part is shown as it is |
| Markdown.PartsCover | components/PlagiarismChecker.tsx:604 | The parts reassemble the text, and there is an odd number of them |
| Markdown.NoDelimiterPlain | components/PlagiarismChecker.tsx:604-611 | A text without `**` is shown as one plain part |
| Markdown.LineBreakStillBold | components/PlagiarismChecker.tsx:608-609 | `**a\nb**` is not a match, yet it is shown in bold, because boldness is decided by the part's shape |
| Markdown.SliceInner | components/PlagiarismChecker.tsx:609 | `slice(2, -2)` drops two characters from each end, and gives the empty string below four characters |
| Highlight.PatternAlternatives | components/PlagiarismChecker.tsx:622-627 | Escaping each segment and joining with `|` gives a pattern whose alternatives are exactly the segments, literally and in order |
| Highlight.SortSorted | components/PlagiarismChecker.tsx:626 | The sort permutes the segments into longest-first order |
| Highlight.SortStable | components/PlagiarismChecker.tsx:626 | Segments of equal length keep their original order |
| Highlight.CaseFoldAgree | components/PlagiarismChecker.tsx:628-635 | Comparing by `toUpperCase` (the `i` flag) and by `toLowerCase` (`isMatch`) agree character by character |
| Highlight.MatchesAtSame | components/PlagiarismChecker.tsx:635 | A segment matches at `q` under the `i` flag exactly when the text there equals it, compared by `toLowerCase` |
| Highlight.LongestAlternative | components/PlagiarismChecker.tsx:626-628 | At each position the alternative taken is a segment no shorter than any segment matching there, and nothing is taken only when no segment matches |
| Highlight.HighlightKeepsText | components/PlagiarismChecker.tsx:617-646 | The text shown is the submitted text, with or without segments |
| Highlight.HitsMarked | components/PlagiarismChecker.tsx:630-639 | Every odd part is marked, and no segment matching at its place is longer |
| Highlight.GapsFree | components/PlagiarismChecker.tsx:628-630 | No segment matches, ignoring case, starting inside an even part |
| Highlight.GapsUnmarked | components/PlagiarismChecker.tsx:635-642 | No even part equals a segment, ignoring case, so it is shown unmarked |
| Highlight.MarksAreMatches | components/PlagiarismChecker.tsx:634-642 | A part is marked exactly when it is a match of the pattern, that is an odd part |
| Text.Split | services/geminiService.ts:85 | `split` with a non-empty separator gives pieces that join back to the text, none of which contains the separator |
| Text.Trim | services/geminiService.ts:94 | `trim` gives the text minus white space at both ends: a trimmed slice of it |

## Left out

- The network is not modelled. The `GoogleGenAI` client, `generateContent` and the search tool are replaced by a parameter: the reply text (or its absence) or the caught failure.
- The grounding sources (services/geminiService.ts:73) are dropped. Neither the reply parameter nor the screen's `Analysed` outcome carries the source list that the results screen stores and lists.
- The document decoders are not modelled. pdfjs, mammoth, JSZip, `DOMParser` and `FileReader` become inputs: a rejection by any of them, the item strings of each page, the DOCX text, and the ODT paragraphs or their absence.
- React state, effects and asynchronous sequencing are not modelled. The handlers are functions from the current state and the awaited outcome to the next state or message.
- The PDF export layout, the score circle geometry, the sampling parameters, and the screens outside the checker are not modelled: they hold no logic over the result format.
- The copies of the bold renderer in `HelpSystem` and `LegalModal` are left out. They are identical to the one modelled.
- Locale.PromptGaps: the prompt's instruction prose is shortened to fixed constants, and so are the analysis placeholders inside the blocks: the numbered step lists of the plagiarism and AI analyses become one line each. Only the markers, the label lines and the language name, which the parser and the properties depend on, are written out in full.
- Text.Lower: `toLowerCase`/`toUpperCase` are modelled for ASCII and Latin-1 letters only (without `µ`, `ß` and `ÿ`, whose upper-case forms lie outside that range). Characters outside Latin-1, such as U+039C or the Kelvin sign U+212A, which JavaScript folds onto Latin-1 letters, map to themselves. Other characters map to themselves.
- Service.SystemInstruction: the upper-cased headers use the same Latin-1 case mapping.
- Highlight.CaseFoldAgree, Highlight.MatchesAtSame, Highlight.HitsMarked, Highlight.GapsUnmarked, Highlight.MarksAreMatches: these hold for Latin-1 text and segments only. Beyond Latin-1 the `i` flag and `toLowerCase` can disagree. For a segment `µ` and the text `Μ` (U+039C), the pattern matches but the part is left unmarked. For a segment `k` and the text U+212A, nothing matches but a gap is marked.
- RoundTrip.DecodeEncode: list items that end in `|` are not carried. The separator `|||` after such an item is read three bars early, so the item loses its last `|` and the next item gains one (RoundTrip.TrailingBarItemAltered). Items containing `|||` or a line break cannot be carried either. Values containing `[` are excluded too, although the parser would keep a `[` that starts no marker: the proof isolates the blocks by ruling out every bracket outside the markers.
- Response.ScoreOf: scores are unbounded naturals. `parseInt` losing precision on digit runs longer than about 15 digits is not modelled.
- Checker.Entry: only the table's own keys are entries. A message such as `constructor`, which JavaScript also finds on the object's prototype, is not modelled.
- Checker.Submit: the check `!analysisResponse.plagiarismResult || !analysisResponse.aiResult` is left out, because the decoder always returns both records.
- Highlight.Highlight: requires every segment to be non-empty. Decoded segments always are, because empty list items are dropped. An empty alternative would make the pattern match the empty string, and `split`'s behaviour on empty matches is not modelled.
- RegexSplit.Split: it models splitting with a pattern that never matches the empty string and whose whole pattern is one capturing group. Both patterns used satisfy this.

## Findings

| source | as written | input that shows it | evidently intended | confidence | as-written member | corrected member |
|---|---|---|---|---|---|---|
| components/PlagiarismChecker.tsx:108-110 | The extension is cut at its first `:`, and `replace('{ext}', ext)` expands `$`-patterns in it | a file named `a.$&` is reported as `.{ext}`; a file named `a.b:c` is reported as `.b` | show the refused extension as the parser named it | not executed; low impact, since such names are rare | Checker.ColonExtensionCut | Checker.RefusedTypeShownFixed |
| components/PlagiarismChecker.tsx:163-169 | The service throws `error.invalidApiKey` and `error.apiFail`, but the errors table has the keys `invalidApiKey` and `apiFail`, so the lookup fails and the raw key is shown | an invalid key shows `error.invalidApiKey`; any other failed call shows `error.apiFail` | show the localized invalid-key or API-failure text | not executed; high, since every failed analysis goes this way | Checker.ServiceErrorsShownRaw | Checker.SubmitFixed |

=== FILE: analysis.dfy ===
/**
 * The analysis request and its reply, end to end: the request built from
 * a locale's prompt keeps every instruction the parser depends on, and a
 * reply written as the prompt asks comes back from `runAnalysis` as the
 * report it carries.
 */
module Analysis {
  import opened Wrappers
  import opened Text
  import opened Format
  import opened Response
  import opened Locale
  import opened LocaleFacts
  import opened Service
  import opened RoundTrip

  /**
   * Whatever the user's text, the request contents carry the locale's
   * whole prompt first: each block marker followed by the label lines the
   * parser searches for, and the language to answer in. The text follows
   * the prompt's line break unchanged.
   */
  lemma RequestCarriesInstructions(c: LocaleConfig, text: string)
    ensures var req := Contents(MakeAi(c).prompt, text); var k := MakeAi(c).labels;
      && Contains(req, PlagiarismStart + ScoredHead(k.scoreKey, k.assessmentKey, ScorePlaceholder, AssessmentPlaceholder))
      && Contains(req, SegmentsStart + ListHead(k.plagiarizedSegmentsKey))
      && Contains(req, AiStart + ScoredHead(k.aiScoreKey, k.aiAssessmentKey, ScorePlaceholder, AssessmentPlaceholder))
      && Contains(req, SuggestionsStart + ListHead(k.humanizingSuggestionsKey))
      && Contains(req, c.lang)
      && req[|MakeAi(c).prompt| + 1..] == text
  {
    var prompt := MakeAi(c).prompt;
    var k := MakeAi(c).labels;
    var tail := "\n" + text;
    assert Contents(prompt, text) == prompt + tail;
    PromptPlacesLabels(c);
    PromptNamesLanguage(c);
    ContainsInPrefix(prompt, tail, PlagiarismStart + ScoredHead(k.scoreKey, k.assessmentKey, ScorePlaceholder, AssessmentPlaceholder));
    ContainsInPrefix(prompt, tail, SegmentsStart + ListHead(k.plagiarizedSegmentsKey));
    ContainsInPrefix(prompt, tail, AiStart + ScoredHead(k.aiScoreKey, k.aiAssessmentKey, ScorePlaceholder, AssessmentPlaceholder));
    ContainsInPrefix(prompt, tail, SuggestionsStart + ListHead(k.humanizingSuggestionsKey));
    ContainsInPrefix(prompt, tail, c.lang);
  }

  /**
   * A reply written in the template's shape with a locale's labels, and
   * carrying a report the format can hold, comes back from the service as
   * exactly that report.
   */
  lemma RunAnalysisRoundTrip(l: Language, r: Report, g: Gaps)
    requires Encodable(r) && Quiet(g)
    ensures RunAnalysis(Success(Some(Encode(Ai(l).labels, r, g))), Ai(l).labels) == Success(r)
  {
    LocaleRoundTrip(l, r, g);
  }

  /**
   * The service fails exactly when the call fails or the reply has no
   * text, and then only with one of its two keys; a rejected key is
   * reported as such only when the call itself failed.
   */
  lemma FailuresClassified(reply: Result<Option<string>, Caught>, k: Labels)
    ensures RunAnalysis(reply, k).Failure? <==> reply.Failure? || reply.value.None?
    ensures RunAnalysis(reply, k) == Failure(InvalidKeyError) ==>
      reply.Failure? && reply.error.ErrorObject?
      && (Contains(reply.error.message, KeyNotValid) || Contains(reply.error.message, KeyIsInvalid))
  {
    if reply.Success? && reply.value.None? {
      MissingTextIsApiFail();
    }
  }
}

=== FILE: checker.dfy ===
/**
 * The decisions the checker screen makes around the analysis: whether a
 * submission may go ahead, which message an error shows, which colour a
 * score is drawn in, and how the parser's assessment sentinel is shown.
 * React state, effects and the asynchronous sequencing of the handlers are
 * not modelled; each handler is a function from what it reads to what it
 * sets.
 */
module Checker {
  import opened Wrappers
  import opened Text
  import opened WordCount
  import opened Format
  import opened Response
  import opened Service
  import opened FileParser
  import opened Locale

  /** The longest typed text that may be submitted, in words. */
  const MaxWords: nat := 1500
  /** `MAX_WORDS.toString()`. */
  const MaxWordsText: string := "1500"

  /** One locale's `errors` table. */
  datatype ErrorTexts = ErrorTexts(
    apiKeyRequired: string, invalidApiKeyConnection: string,
    unsupportedDoc: string, unsupportedFileType: string, processingFile: string,
    textRequired: string, wordLimitExceeded: string, assessmentFailed: string,
    invalidApiKey: string, apiFail: string, unknown: string)

  /** The placeholders the screen fills in. */
  const ExtHole: string := "{ext}"
  const MaxWordsHole: string := "{maxWords}"

  /**
   * The text of each table entry around its placeholder. The two long
   * leads are written as two literals joined together; each is one string
   * of the table.
   */
  const PtFileTypeLead: string := "Tipo de arquivo não suportado: ."
  const EnFileTypeLead: string := "Unsupported file type: ."
  const EsFileTypeLead: string := "Tipo de archivo no compatible: ."
  const PtWordLimitLead: string := "O texto inserido " + "manualmente excede o limite de "
  const PtWordLimitTail: string := " palavras."
  const EnWordLimitLead: string := "Manually entered text exceeds the "
  const EnWordLimitTail: string := " word limit."
  const EsWordLimitLead: string := "El texto ingresado " + "manualmente excede el límite de "
  const EsWordLimitTail: string := " palabras."

  // The `errors` table of the Pt locale.
  const PtApiKeyRequired: string := "Por favor, insira uma chave de API."
  const PtInvalidApiKeyConnection: string := "A chave de API é inválida ou ocorreu um erro. Verifique a chave e sua conexão."
  const PtUnsupportedDoc: string := "Arquivos .doc não são suportados. Por favor, salve como .docx ou .pdf."
  const PtProcessingFile: string := "Ocorreu um erro ao processar o arquivo."
  const PtTextRequired: string := "Por favor, insira o texto a ser verificado."
  const PtAssessmentFailed: string := "Não foi possível determinar a avaliação."
  const PtInvalidApiKey: string := "A chave de API fornecida é inválida ou expirou. Por favor, verifique sua chave e tente novamente."
  const PtApiFail: string := "Falha ao obter resposta da API. A resposta pode estar mal formatada ou a API indisponível. Tente novamente."
  const PtUnknown: string := "Ocorreu um erro desconhecido."
  const PtErrors: ErrorTexts := ErrorTexts(
    PtApiKeyRequired,
    PtInvalidApiKeyConnection,
    PtUnsupportedDoc,
    PtFileTypeLead + ExtHole,
    PtProcessingFile,
    PtTextRequired,
    PtWordLimitLead + MaxWordsHole + PtWordLimitTail,
    PtAssessmentFailed,
    PtInvalidApiKey,
    PtApiFail,
    PtUnknown)

  // The `errors` table of the En locale.
  const EnApiKeyRequired: string := "Please enter an API key."
  const EnInvalidApiKeyConnection: string := "The API key is invalid or an error occurred. Check the key and your connection."
  const EnUnsupportedDoc: string := ".doc files are not supported. Please save as .docx or .pdf."
  const EnProcessingFile: string := "An error occurred while processing the file."
  const EnTextRequired: string := "Please enter the text to be checked."
  const EnAssessmentFailed: string := "Could not determine the assessment."
  const EnInvalidApiKey: string := "The provided API key is invalid or has expired. Please check your key and try again."
  const EnApiFail: string := "Failed to get a response from the API. The response may be malformed or the API is unavailable. Please try again."
  const EnUnknown: string := "An unknown error occurred."
  const EnErrors: ErrorTexts := ErrorTexts(
    EnApiKeyRequired,
    EnInvalidApiKeyConnection,
    EnUnsupportedDoc,
    EnFileTypeLead + ExtHole,
    EnProcessingFile,
    EnTextRequired,
    EnWordLimitLead + MaxWordsHole + EnWordLimitTail,
    EnAssessmentFailed,
    EnInvalidApiKey,
    EnApiFail,
    EnUnknown)

  // The `errors` table of the Es locale.
  const EsApiKeyRequired: string := "Por favor, ingrese una clave de API."
  const EsInvalidApiKeyConnection: string := "La clave de API no es válida o se ha producido un error. Verifique la clave y su conexión."
  const EsUnsupportedDoc: string := "Los archivos .doc no son compatibles. Por favor, guarde como .docx o .pdf."
  const EsProcessingFile: string := "Ocurrió un error al procesar el archivo."
  const EsTextRequired: string := "Por favor, ingrese el texto a verificar."
  const EsAssessmentFailed: string := "No se pudo determinar la evaluación."
  const EsInvalidApiKey: string := "La clave de API proporcionada no es válida o ha caducado. Por favor, verifique su clave e inténtelo de nuevo."
  const EsApiFail: string := "No se pudo obtener una respuesta de la API. La respuesta puede estar mal formada o la API no disponible. Inténtelo de nuevo."
  const EsUnknown: string := "Ocurrió un error desconocido."
  const EsErrors: ErrorTexts := ErrorTexts(
    EsApiKeyRequired,
    EsInvalidApiKeyConnection,
    EsUnsupportedDoc,
    EsFileTypeLead + ExtHole,
    EsProcessingFile,
    EsTextRequired,
    EsWordLimitLead + MaxWordsHole + EsWordLimitTail,
    EsAssessmentFailed,
    EsInvalidApiKey,
    EsApiFail,
    EsUnknown)

  function Errors(l: Language): ErrorTexts {
    match l
    case Pt => PtErrors
    case En => EnErrors
    case Es => EsErrors
  }

  function FileTypeLead(l: Language): string {
    match l
    case Pt => PtFileTypeLead
    case En => EnFileTypeLead
    case Es => EsFileTypeLead
  }

  function WordLimitLead(l: Language): string {
    match l
    case Pt => PtWordLimitLead
    case En => EnWordLimitLead
    case Es => EsWordLimitLead
  }

  function WordLimitTail(l: Language): string {
    match l
    case Pt => PtWordLimitTail
    case En => EnWordLimitTail
    case Es => EsWordLimitTail
  }

  /**
   * What the screen relies on in an `errors` table: the file-type text is a
   * lead without `{` followed by `{ext}`, the word-limit text has one
   * `{maxWords}` after a lead without `{`, the assessment text holds no `$`
   * (so `replace` inserts it as it is), and the invalid-key and API-failure
   * texts are non-empty and different.
   */
  predicate Fits(t: ErrorTexts, fileLead: string, limitLead: string, limitTail: string) {
    && t.unsupportedFileType == fileLead + ExtHole && '{' !in fileLead
    && t.wordLimitExceeded == limitLead + MaxWordsHole + limitTail && '{' !in limitLead
    && '$' !in t.assessmentFailed
    && t.invalidApiKey != [] && t.apiFail != [] && t.invalidApiKey != t.apiFail
  }

  /** No lead before a placeholder holds a `{`. */
  lemma FileLeadsPlain()
    ensures '{' !in PtFileTypeLead && '{' !in EnFileTypeLead && '{' !in EsFileTypeLead
  {
  }

  lemma LimitLeadsPlain()
    ensures '{' !in PtWordLimitLead && '{' !in EnWordLimitLead && '{' !in EsWordLimitLead
  {
    assert '{' !in "O texto inserido " && '{' !in "manualmente excede o limite de ";
    assert '{' !in "El texto ingresado " && '{' !in "manualmente excede el límite de ";
  }

  /** No localized assessment text holds a `$`. */
  lemma AssessmentTextsPlain()
    ensures '$' !in PtAssessmentFailed && '$' !in EnAssessmentFailed && '$' !in EsAssessmentFailed
  {
    PtAssessmentPlain();
    EnAssessmentPlain();
    EsAssessmentPlain();
  }

  lemma PtAssessmentPlain()
    ensures '$' !in PtAssessmentFailed
  {
  }

  lemma EnAssessmentPlain()
    ensures '$' !in EnAssessmentFailed
  {
  }

  lemma EsAssessmentPlain()
    ensures '$' !in EsAssessmentFailed
  {
  }

  /** The invalid-key and API-failure texts differ in length in every locale. */
  lemma FailureTextsDiffer()
    ensures |PtInvalidApiKey| != |PtApiFail| && |EnInvalidApiKey| != |EnApiFail| && |EsInvalidApiKey| != |EsApiFail|
  {
  }

  lemma PtFits()
    ensures Fits(PtErrors, PtFileTypeLead, PtWordLimitLead, PtWordLimitTail)
  {
    FileLeadsPlain();
    LimitLeadsPlain();
    AssessmentTextsPlain();
    FailureTextsDiffer();
  }

  lemma EnFits()
    ensures Fits(EnErrors, EnFileTypeLead, EnWordLimitLead, EnWordLimitTail)
  {
    FileLeadsPlain();
    LimitLeadsPlain();
    AssessmentTextsPlain();
    FailureTextsDiffer();
  }

  lemma EsFits()
    ensures Fits(EsErrors, EsFileTypeLead, EsWordLimitLead, EsWordLimitTail)
  {
    FileLeadsPlain();
    LimitLeadsPlain();
    AssessmentTextsPlain();
    FailureTextsDiffer();
  }

  /** Every locale's table fits what the screen relies on. */
  lemma LocaleFits(l: Language)
    ensures Fits(Errors(l), FileTypeLead(l), WordLimitLead(l), WordLimitTail(l))
  {
    match l
    case Pt => PtFits();
    case En => EnFits();
    case Es => EsFits();
  }

  // ---------------------------------------------------------------
  // Submission guard
  // ---------------------------------------------------------------

  /** `!fileName`: no file name, or an empty one. */
  predicate Typed(fileName: Option<string>) {
    fileName.None? || fileName.value == []
  }

  datatype Verdict = TextRequired | TooManyWords | Proceed

  /**
   * The two early returns of `handleCheckPlagiarism`: blank text first, then
   * typed text over the word limit. `wordCount` is the count of the current
   * text, as the effect that keeps it up to date leaves it.
   */
  function Guard(inputText: string, fileName: Option<string>): (v: Verdict)
    ensures v == TextRequired <==> AllWhitespace(inputText)
    ensures v == TooManyWords <==> !AllWhitespace(inputText) && Typed(fileName) && Runs(inputText, false) > MaxWords
  {
    TrimBlank(inputText);
    if Trim(inputText) == [] then TextRequired
    else if Typed(fileName) && CountWords(inputText) > MaxWords then TooManyWords
    else Proceed
  }

  /** The `disabled` expression of the analyse button. */
  function Disabled(isLoading: bool, inputText: string, fileName: Option<string>): bool {
    isLoading || Trim(inputText) == [] || (Typed(fileName) && CountWords(inputText) > MaxWords)
  }

  /** The button is disabled exactly while loading or when the handler would refuse the text. */
  lemma DisabledMatchesGuard(isLoading: bool, inputText: string, fileName: Option<string>)
    ensures Disabled(isLoading, inputText, fileName) <==> isLoading || Guard(inputText, fileName) != Proceed
  {
  }

  /** Text taken from a file is never refused for its length. */
  lemma FilesExempt(inputText: string, name: string)
    requires name != []
    ensures Guard(inputText, Some(name)) != TooManyWords
  {
  }

  /** The message a refused submission shows. */
  function GuardMessage(t: ErrorTexts, v: Verdict): string
    requires v != Proceed
  {
    if v == TextRequired then t.textRequired
    else ReplaceFirst(t.wordLimitExceeded, MaxWordsHole, MaxWordsText)
  }

  /** The word-limit message names the limit in place of its placeholder. */
  lemma WordLimitMessage(t: ErrorTexts, lead: string, tail: string)
    requires t.wordLimitExceeded == lead + MaxWordsHole + tail && '{' !in lead
    ensures GuardMessage(t, TooManyWords) == lead + MaxWordsText + tail
  {
    ReplaceAfterLead(lead, MaxWordsHole, tail, MaxWordsText);
    ExpandPlain(MaxWordsText, MaxWordsHole, lead, tail);
  }

  /** `(lead + hole + tail).replace(hole, value)` when `hole` cannot start inside `lead`. */
  lemma ReplaceAfterLead(lead: string, hole: string, tail: string, value: string)
    requires hole != [] && hole[0] !in lead
    ensures ReplaceFirst(lead + hole + tail, hole, value) == lead + Expand(value, hole, lead, tail) + tail
    ensures FillHole(lead + hole + tail, hole, value) == lead + value + tail
  {
    var u := lead + hole + tail;
    FindAfterLead(lead, hole, tail);
    FindIsFirst(u, hole, |lead|);
    FindUnique(u, hole);
    assert u[..|lead|] == lead;
    assert u[|lead| + |hole|..] == tail;
  }

  // ---------------------------------------------------------------
  // File errors
  // ---------------------------------------------------------------

  /** `s.replace(hole, value)` meant literally: the first hole becomes `value`, character for character. */
  function FillHole(s: string, hole: string, value: string): (r: string)
    ensures Absent(s, hole) ==> r == s
    ensures forall i | IsFirst(s, hole, i) :: r == s[..i] + value + s[i + |hole|..]
  {
    FindUnique(s, hole);
    match Find(s, hole)
    case None => FindAbsent(s, hole); s
    case Some(i) => s[..i] + value + s[i + |hole|..]
  }

  /**
   * The catch block of `handleFileChange`, as written: the text after the
   * first `:` goes through `replace`, so `$` patterns in it are expanded
   * and a second `:` cuts it short.
   */
  function FileErrorMessage(t: ErrorTexts, e: Caught): string {
    match e
    case OtherValue => t.processingFile
    case ErrorObject(m) =>
      if StartsWith(m, UnsupportedTypePrefix) then
        var pieces := Split(m, ":");
        var ext := if |pieces| > 1 then pieces[1] else "";
        ReplaceFirst(t.unsupportedFileType, ExtHole, ext)
      else if m == UnsupportedDoc then t.unsupportedDoc
      else t.processingFile
  }

  /** The file-error message with the extension inserted as it is. */
  function FileErrorMessageFixed(t: ErrorTexts, e: Caught): string {
    match e
    case OtherValue => t.processingFile
    case ErrorObject(m) =>
      if StartsWith(m, UnsupportedTypePrefix) then
        FillHole(t.unsupportedFileType, ExtHole, m[|UnsupportedTypePrefix|..])
      else if m == UnsupportedDoc then t.unsupportedDoc
      else t.processingFile
  }

  /** `message.split(':')[1]` of an unsupported-type message: the extension up to its own first `:`. */
  lemma ShownExtension(ext: string)
    ensures var pieces := Split(UnsupportedTypePrefix + ext, ":");
      |pieces| > 1 && pieces[1] == Before(ext, ":")
  {
    var m := UnsupportedTypePrefix + ext;
    var n := |UnsupportedTypePrefix| - 1;
    assert ':' !in UnsupportedTypePrefix[..n];
    assert m[..n] == UnsupportedTypePrefix[..n];
    assert Occurs(m, ":", n);
    forall j | 0 <= j < n ensures !Occurs(m, ":", j) {
      CharOfOccurrence(m, ":", j, 0);
      assert m[j] == UnsupportedTypePrefix[..n][j];
    }
    SplitSecond(m, ":");
    assert m[n + 1..] == ext;
  }

  /** An unsupported-type message is recognised by its prefix and carries the extension after it. */
  lemma TypeMessageParts(ext: string)
    ensures StartsWith(UnsupportedTypePrefix + ext, UnsupportedTypePrefix)
    ensures (UnsupportedTypePrefix + ext)[|UnsupportedTypePrefix|..] == ext
  {
    assert (UnsupportedTypePrefix + ext)[..|UnsupportedTypePrefix|] == UnsupportedTypePrefix;
  }

  /** What the intended mapping shows for a refused file type: the locale's text, then the extension. */
  lemma RefusedTypeShownFixed(t: ErrorTexts, lead: string, ext: string)
    requires t.unsupportedFileType == lead + ExtHole && '{' !in lead
    ensures FileErrorMessageFixed(t, ErrorObject(UnsupportedTypePrefix + ext)) == lead + ext
  {
    TypeMessageParts(ext);
    ReplaceAfterLead(lead, ExtHole, [], ext);
    assert lead + ExtHole + [] == t.unsupportedFileType;
    assert lead + ext + [] == lead + ext;
  }

  /** What the mapping as written shows: the extension cut at `:` and read as a replacement pattern. */
  lemma RefusedTypeShown(t: ErrorTexts, lead: string, ext: string)
    requires t.unsupportedFileType == lead + ExtHole && '{' !in lead
    ensures FileErrorMessage(t, ErrorObject(UnsupportedTypePrefix + ext))
      == lead + Expand(Before(ext, ":"), ExtHole, lead, [])
  {
    TypeMessageParts(ext);
    ShownExtension(ext);
    ReplaceAfterLead(lead, ExtHole, [], Before(ext, ":"));
    assert lead + ExtHole + [] == t.unsupportedFileType;
  }

  /**
   * A refused file type round-trips through the message: the screen shows
   * the locale's text followed by exactly the extension `parseFile` found.
   */
  lemma FileTypeRoundTrip(l: Language, name: string)
    requires Dispatch(name).Failure? && Dispatch(name).error != UnsupportedDoc
    ensures FileErrorMessageFixed(Errors(l), ErrorObject(Dispatch(name).error)) == FileTypeLead(l) + Extension(name)
  {
    LocaleFits(l);
    RefusedTypeShownFixed(Errors(l), FileTypeLead(l), Extension(name));
  }

  /** The message as written agrees with the intended one when the extension has neither `:` nor `$`. */
  lemma FileTypePlainExtension(l: Language, name: string)
    requires Dispatch(name).Failure? && Dispatch(name).error != UnsupportedDoc
    requires ':' !in Extension(name) && '$' !in Extension(name)
    ensures FileErrorMessage(Errors(l), ErrorObject(Dispatch(name).error)) == FileTypeLead(l) + Extension(name)
  {
    var ext := Extension(name);
    LocaleFits(l);
    RefusedTypeShown(Errors(l), FileTypeLead(l), ext);
    AbsentWithoutFirstChar(ext, ":");
    ExpandPlain(ext, ExtHole, FileTypeLead(l), []);
  }

  /** A file `a.$&` is reported with the placeholder itself in place of its extension. */
  lemma DollarExtensionMangled()
    ensures Extension("a.$&") == "$&"
    ensures FileErrorMessage(EnErrors, ErrorObject(UnsupportedTypePrefix + "$&")) == EnFileTypeLead + ExtHole
  {
    LastDotUnique("a.$&", 2);
    assert "a.$&"[2..] == "$&";
    assert LowerString("$&") == "$&";
    EnFits();
    RefusedTypeShown(EnErrors, EnFileTypeLead, "$&");
    AbsentWithoutFirstChar("$&", ":");
    assert Expand("$&", ExtHole, EnFileTypeLead, []) == ExtHole + Expand([], ExtHole, EnFileTypeLead, []);
  }

  /** A file `a.b:c` is reported as being of type `.b`. */
  lemma ColonExtensionCut()
    ensures Extension("a.b:c") == "b:c"
    ensures FileErrorMessage(EnErrors, ErrorObject(UnsupportedTypePrefix + "b:c")) == EnFileTypeLead + "b"
  {
    LastDotUnique("a.b:c", 2);
    assert "a.b:c"[2..] == "b:c";
    assert LowerString("b:c") == "b:c";
    EnFits();
    RefusedTypeShown(EnErrors, EnFileTypeLead, "b:c");
    assert Occurs("b:c", ":", 1);
    BeforeAt("b:c", ":", 1);
    ExpandPlain("b", ExtHole, EnFileTypeLead, []);
  }

  /** What `handleFileChange` leaves behind. */
  datatype FileState = FileState(inputText: string, fileName: Option<string>, error: Option<string>)

  /**
   * `handleFileChange` once `parseFile` has settled: the text and the file
   * name on success; on any failure, the as-written message and both
   * cleared.
   */
  function HandleFile(t: ErrorTexts, name: string, parsed: Result<string, Caught>): (s: FileState)
    ensures parsed.Failure? <==> s.error.Some?
    ensures parsed.Failure? ==> s.inputText == [] && s.fileName.None? && s.error == Some(FileErrorMessage(t, parsed.error))
    ensures parsed.Success? ==> s.inputText == parsed.value && s.fileName == Some(name)
  {
    match parsed
    case Success(text) => FileState(text, Some(name), None)
    case Failure(e) => FileState([], None, Some(FileErrorMessage(t, e)))
  }

  /**
   * A file refused for its type is reported by the extension the parser
   * named, cut at its first `:`, whenever that holds no `$`.
   */
  lemma HandleRefusedFile(l: Language, name: string)
    requires Dispatch(name).Failure? && Dispatch(name).error != UnsupportedDoc
    requires '$' !in Before(Extension(name), ":")
    ensures HandleFile(Errors(l), name, Failure(ErrorObject(Dispatch(name).error))).error
      == Some(FileTypeLead(l) + Before(Extension(name), ":"))
  {
    LocaleFits(l);
    RefusedTypeShown(Errors(l), FileTypeLead(l), Extension(name));
    ExpandPlain(Before(Extension(name), ":"), ExtHole, FileTypeLead(l), []);
  }

  /** After a refused file the guard asks for text, so nothing is sent. */
  lemma FailureBlocksSubmit(t: ErrorTexts, name: string, e: Caught)
    ensures Guard(HandleFile(t, name, Failure(e)).inputText, HandleFile(t, name, Failure(e)).fileName) == TextRequired
  {
  }

  // ---------------------------------------------------------------
  // Analysis errors
  // ---------------------------------------------------------------

  /** The property names of an `errors` table. */
  const TableKeys: seq<string> := [
    "error.apiKeyRequired", "error.invalidApiKeyConnection", "unsupportedDoc",
    "unsupportedFileType", "processingFile", "textRequired", "wordLimitExceeded",
    "assessmentFailed", "invalidApiKey", "apiFail", "unknown"]

  /** `t_err[key]`: the entry under a property name, if the table has one. */
  function Entry(t: ErrorTexts, key: string): (r: Option<string>)
    ensures r.Some? <==> key in TableKeys
  {
    if key == "error.apiKeyRequired" then Some(t.apiKeyRequired)
    else if key == "error.invalidApiKeyConnection" then Some(t.invalidApiKeyConnection)
    else if key == "unsupportedDoc" then Some(t.unsupportedDoc)
    else if key == "unsupportedFileType" then Some(t.unsupportedFileType)
    else if key == "processingFile" then Some(t.processingFile)
    else if key == "textRequired" then Some(t.textRequired)
    else if key == "wordLimitExceeded" then Some(t.wordLimitExceeded)
    else if key == "assessmentFailed" then Some(t.assessmentFailed)
    else if key == "invalidApiKey" then Some(t.invalidApiKey)
    else if key == "apiFail" then Some(t.apiFail)
    else if key == "unknown" then Some(t.unknown)
    else None
  }

  /**
   * The catch block of `handleCheckPlagiarism`, as written: an `Error`
   * whose message names a non-empty table entry shows that entry,
   * any other `Error` its raw message, anything else `unknown`.
   */
  function AnalysisErrorMessage(t: ErrorTexts, e: Caught): string {
    match e
    case OtherValue => t.unknown
    case ErrorObject(m) =>
      match Entry(t, m)
      case Some(text) => if text != [] then text else m
      case None => m
  }

  /** The service's `error.`-prefixed keys are not table keys: both are shown raw. */
  lemma ServiceErrorsShownRaw(t: ErrorTexts, e: Caught)
    ensures AnalysisErrorMessage(t, ErrorObject(ClassifyFailure(e))) == ClassifyFailure(e)
  {
    ServiceKeysLookup(t);
  }

  /**
   * The analysis-error message with the service's keys read as table keys:
   * a message that is not a key itself is looked up again without its
   * `error.` prefix.
   */
  function AnalysisErrorMessageFixed(t: ErrorTexts, e: Caught): string {
    match e
    case OtherValue => t.unknown
    case ErrorObject(m) =>
      var key := if Entry(t, m).None? && StartsWith(m, ErrorPrefix) then m[|ErrorPrefix|..] else m;
      match Entry(t, key)
      case Some(text) => if text != [] then text else m
      case None => m
  }

  /** The service's keys are not table keys; without their prefix they are. */
  lemma ServiceKeysLookup(t: ErrorTexts)
    ensures Entry(t, InvalidKeyError) == None && Entry(t, ApiFailError) == None
    ensures StartsWith(InvalidKeyError, ErrorPrefix) && InvalidKeyError[|ErrorPrefix|..] == "invalidApiKey"
    ensures StartsWith(ApiFailError, ErrorPrefix) && ApiFailError[|ErrorPrefix|..] == "apiFail"
  {
    assert InvalidKeyError[..|ErrorPrefix|] == ErrorPrefix;
    assert ApiFailError[..|ErrorPrefix|] == ErrorPrefix;
  }

  /** Every failure of the service call shows the locale's invalid-key or API-failure text. */
  lemma ServiceErrorsLocalized(t: ErrorTexts, e: Caught)
    requires t.invalidApiKey != [] && t.apiFail != [] && t.invalidApiKey != t.apiFail
    ensures var shown := AnalysisErrorMessageFixed(t, ErrorObject(ClassifyFailure(e)));
      && (shown == t.invalidApiKey <==> ClassifyFailure(e) == InvalidKeyError)
      && (shown == t.apiFail <==> ClassifyFailure(e) == ApiFailError)
  {
    ServiceKeysLookup(t);
  }

  /** On messages that are table keys, and on raw messages without the prefix, nothing changes. */
  lemma FixedAgreesElsewhere(t: ErrorTexts, m: string)
    requires m in TableKeys || !StartsWith(m, ErrorPrefix)
    ensures AnalysisErrorMessageFixed(t, ErrorObject(m)) == AnalysisErrorMessage(t, ErrorObject(m))
  {
  }

  // ---------------------------------------------------------------
  // The submission
  // ---------------------------------------------------------------

  datatype Outcome = Rejected(message: string) | Analysed(report: Report) | Failed(message: string)

  /** The message the service call fails with, when it fails. */
  predicate FailedWith(reply: Result<Option<string>, Caught>, key: string) {
    if reply.Failure? then ClassifyFailure(reply.error) == key else reply.value.None? && key == ApiFailError
  }

  /**
   * `handleCheckPlagiarism` end to end, with the locale's errors table `t`
   * and labels `k`: the guard, then the service call with the reply it
   * receives. Both result records always exist, so the check for a
   * missing one never fires. A failure is shown through the catch block
   * as written, which finds no entry for the service's keys.
   */
  function Submit(t: ErrorTexts, k: Labels, inputText: string, fileName: Option<string>, reply: Result<Option<string>, Caught>): (o: Outcome)
    ensures o.Rejected? <==> Guard(inputText, fileName) != Proceed
    ensures o.Rejected? && AllWhitespace(inputText) ==> o.message == t.textRequired
    ensures o.Analysed? <==> Guard(inputText, fileName) == Proceed && reply.Success? && reply.value.Some?
    ensures o.Analysed? ==> o.report == Decode(reply.value.value, k)
    ensures o.Failed? ==> o.message == InvalidKeyError || o.message == ApiFailError
    ensures o.Failed? ==> FailedWith(reply, o.message)
  {
    var v := Guard(inputText, fileName);
    if v != Proceed then Rejected(GuardMessage(t, v))
    else
      match RunAnalysis(reply, k)
      case Success(report) => Analysed(report)
      case Failure(key) =>
        ServiceKeysLookup(t);
        Failed(AnalysisErrorMessage(t, ErrorObject(key)))
  }

  /**
   * `handleCheckPlagiarism` with the corrected lookup: a failure shows the
   * locale's text for its classification. Every locale's table meets the
   * requirement (`LocaleFits`).
   */
  function SubmitFixed(t: ErrorTexts, k: Labels, inputText: string, fileName: Option<string>, reply: Result<Option<string>, Caught>): (o: Outcome)
    requires t.invalidApiKey != [] && t.apiFail != [] && t.invalidApiKey != t.apiFail
    ensures o.Rejected? <==> Guard(inputText, fileName) != Proceed
    ensures o.Rejected? && AllWhitespace(inputText) ==> o.message == t.textRequired
    ensures o.Analysed? <==> Guard(inputText, fileName) == Proceed && reply.Success? && reply.value.Some?
    ensures o.Analysed? ==> o.report == Decode(reply.value.value, k)
    ensures o.Failed? ==> (o.message == t.invalidApiKey <==> FailedWith(reply, InvalidKeyError))
    ensures o.Failed? ==> (o.message == t.apiFail <==> FailedWith(reply, ApiFailError))
  {
    var v := Guard(inputText, fileName);
    if v != Proceed then Rejected(GuardMessage(t, v))
    else
      match RunAnalysis(reply, k)
      case Success(report) => Analysed(report)
      case Failure(key) =>
        ServiceKeysLookup(t);
        Failed(AnalysisErrorMessageFixed(t, ErrorObject(key)))
  }

  /** The corrected screen differs from the written one on every failed analysis, and only there. */
  lemma FixedSubmitDiffers(t: ErrorTexts, k: Labels, inputText: string, fileName: Option<string>, reply: Result<Option<string>, Caught>)
    requires t.invalidApiKey != [] && t.apiFail != [] && t.invalidApiKey != t.apiFail
    requires t.invalidApiKey != InvalidKeyError && t.apiFail != ApiFailError
    ensures Submit(t, k, inputText, fileName, reply).Failed? <==> SubmitFixed(t, k, inputText, fileName, reply).Failed?
    ensures Submit(t, k, inputText, fileName, reply).Failed? ==>
      Submit(t, k, inputText, fileName, reply) != SubmitFixed(t, k, inputText, fileName, reply)
    ensures !Submit(t, k, inputText, fileName, reply).Failed? ==>
      Submit(t, k, inputText, fileName, reply) == SubmitFixed(t, k, inputText, fileName, reply)
  {
    var o := Submit(t, k, inputText, fileName, reply);
    var f := SubmitFixed(t, k, inputText, fileName, reply);
    if o.Failed? {
      assert f.Failed?;
      if o.message == InvalidKeyError {
        assert f.message == t.invalidApiKey;
      } else {
        assert f.message == t.apiFail;
      }
    }
  }

  // ---------------------------------------------------------------
  // Score colours
  // ---------------------------------------------------------------

  datatype Rgb = Rgb(red: int, green: int, blue: int)

  /** `getScoreColor` of the PDF export. */
  function PdfScoreColor(s: int): Rgb {
    if s > 60 then Rgb(239, 68, 68)
    else if s > 30 then Rgb(250, 204, 21)
    else Rgb(34, 197, 94)
  }

  datatype ScoreKind = PlagiarismScore | AiScore

  /** `getColor` of the score circle. */
  function StrokeClass(s: int, kind: ScoreKind): string {
    if s > 60 then "stroke-red-500"
    else if s > 30 then "stroke-yellow-500"
    else if kind == PlagiarismScore then "stroke-green-500" else "stroke-cyan-500"
  }

  /** `getTextColor` of the score circle. */
  function TextClass(s: int, kind: ScoreKind): string {
    if s > 60 then "text-red-400"
    else if s > 30 then "text-yellow-400"
    else if kind == PlagiarismScore then "text-green-400" else "text-cyan-400"
  }

  /** The three bands the colours stand for, from least to most severe. */
  datatype Band = Low | Middle | High

  function Rank(b: Band): nat {
    match b
    case Low => 0
    case Middle => 1
    case High => 2
  }

  /** The band of a score: above 60 high, above 30 middle, otherwise low. */
  function BandOf(s: int): Band {
    if s > 60 then High else if s > 30 then Middle else Low
  }

  /** A higher score never falls in a lower band. */
  lemma BandMonotone(s: int, u: int)
    requires s <= u
    ensures Rank(BandOf(s)) <= Rank(BandOf(u))
  {
  }

  /**
   * The PDF export and both circle colours agree: each tells the bands
   * apart and nothing else, so two scores share a colour in one exactly
   * when they share it in the others.
   */
  lemma ColoursAgree(s: int, u: int, kind: ScoreKind)
    ensures PdfScoreColor(s) == PdfScoreColor(u) <==> BandOf(s) == BandOf(u)
    ensures StrokeClass(s, kind) == StrokeClass(u, kind) <==> BandOf(s) == BandOf(u)
    ensures TextClass(s, kind) == TextClass(u, kind) <==> BandOf(s) == BandOf(u)
  {
  }

  /** Only the low band depends on which score is drawn: green for plagiarism, cyan for AI. */
  lemma KindOnlyInLowBand(s: int)
    ensures StrokeClass(s, PlagiarismScore) == StrokeClass(s, AiScore) <==> BandOf(s) != Low
    ensures TextClass(s, PlagiarismScore) == TextClass(s, AiScore) <==> BandOf(s) != Low
  {
  }

  // ---------------------------------------------------------------
  // Assessment sentinel
  // ---------------------------------------------------------------

  /** `assessment.replace('error.assessmentFailed', t.errors.assessmentFailed)`. */
  function ShowAssessment(t: ErrorTexts, assessment: string): string {
    ReplaceFirst(assessment, AssessmentFailed, t.assessmentFailed)
  }

  /**
   * The first sentinel in an assessment is replaced by the locale's text,
   * literally; an assessment without it is shown as it is.
   */
  lemma SentinelReplaced(t: ErrorTexts, a: string)
    requires '$' !in t.assessmentFailed
    ensures Absent(a, AssessmentFailed) ==> ShowAssessment(t, a) == a
    ensures forall i | IsFirst(a, AssessmentFailed, i) ::
      ShowAssessment(t, a) == a[..i] + t.assessmentFailed + a[i + |AssessmentFailed|..]
  {
    ReplaceFirstPlain(a, AssessmentFailed, t.assessmentFailed);
  }

  /** A section without an assessment line shows exactly the locale's text. */
  lemma MissingAssessmentShown(t: ErrorTexts, section: string, key: string)
    requires '$' !in t.assessmentFailed && Absent(section, key + ": ")
    ensures ShowAssessment(t, AssessmentOf(section, key)) == t.assessmentFailed
  {
    SentinelReplaced(t, AssessmentFailed);
    assert IsFirst(AssessmentFailed, AssessmentFailed, 0);
  }
}

=== FILE: decimal.dfy ===
/**
 * Decimal digit runs: what the regular expression `(\d+)` captures and what
 * `parseInt(run, 10)` makes of it. Values are unbounded naturals.
 */
module Decimal {
  predicate IsDigit(c: char) {
    '0' <= c <= '9'
  }

  predicate AllDigits(s: string) {
    forall i | 0 <= i < |s| :: IsDigit(s[i])
  }

  function DigitValue(c: char): (d: nat)
    requires IsDigit(c)
    ensures d < 10
  {
    c as int - '0' as int
  }

  function DigitChar(d: nat): (c: char)
    requires d < 10
    ensures IsDigit(c) && DigitValue(c) == d
  {
    ('0' as int + d) as char
  }

  /** `parseInt(ds, 10)` for a string of decimal digits (leading zeros allowed). */
  function Value(ds: string): nat
    requires AllDigits(ds)
  {
    if |ds| == 0 then 0 else Value(ds[..|ds| - 1]) * 10 + DigitValue(ds[|ds| - 1])
  }

  /** The decimal notation of `n`, without leading zeros. */
  function ToDecimal(n: nat): (ds: string)
    ensures |ds| >= 1 && AllDigits(ds)
    ensures |ds| > 1 ==> ds[0] != '0'
  {
    if n < 10 then [DigitChar(n)] else ToDecimal(n / 10) + [DigitChar(n % 10)]
  }

  /** Reading back the decimal notation of a number gives the number. */
  lemma {:induction false} ValueOfDecimal(n: nat)
    ensures Value(ToDecimal(n)) == n
  {
    var ds := ToDecimal(n);
    if n >= 10 {
      ValueOfDecimal(n / 10);
      assert ds[..|ds| - 1] == ToDecimal(n / 10);
    }
  }

  /** The maximal run of digits at the start of `s`: what a greedy `\d+` consumes. */
  function DigitRun(s: string): (r: string)
    ensures r <= s && AllDigits(r)
    ensures r == s || !IsDigit(s[|r|])
  {
    if |s| > 0 && IsDigit(s[0]) then [s[0]] + DigitRun(s[1..]) else []
  }

  lemma DigitAt(s: string, k: int)
    ensures AllDigits(s) && 0 <= k < |s| ==> IsDigit(s[k])
  {
  }

  /** The run stops exactly where the digits stop. */
  lemma DigitRunOf(ds: string, t: string)
    requires AllDigits(ds)
    requires t == [] || !IsDigit(t[0])
    ensures DigitRun(ds + t) == ds
  {
    var r := DigitRun(ds + t);
    DigitAt(ds, |r|);
    DigitAt(r, |ds|);
    assert |r| == |ds|;
    assert (ds + t)[..|ds|] == ds;
  }
}

=== FILE: fileparser.dfy ===
/**
 * `parseFile`: the choice of extractor by file-name extension, and the
 * assembly of the extracted text. The document decoders themselves are
 * not modelled; what they deliver (the item strings of each PDF page, the
 * raw text of a DOCX, the paragraphs of an ODT's `content.xml`) is input.
 */
module FileParser {
  import opened Wrappers
  import opened Text

  /**
   * Where the text after the last `.` starts: the end of the name when it
   * ends in `.`, 0 when it holds no `.`.
   */
  function LastDotEnd(s: string): (k: nat)
    ensures k <= |s| && '.' !in s[k..] && (k == 0 || s[k - 1] == '.')
    decreases |s|
  {
    if s == [] || s[|s| - 1] == '.' then |s|
    else
      var k := LastDotEnd(s[..|s| - 1]);
      assert s[k..] == s[..|s| - 1][k..] + [s[|s| - 1]];
      k
  }

  /** Only one place can be the start of the text after the last `.`. */
  lemma LastDotUnique(s: string, k: nat)
    requires k <= |s| && '.' !in s[k..] && (k == 0 || s[k - 1] == '.')
    ensures k == LastDotEnd(s)
  {
  }

  /** The last piece of `split('.')` is the text after the last `.`. */
  lemma {:induction false} LastPiece(s: string)
    ensures Split(s, ".")[|Split(s, ".")| - 1] == s[LastDotEnd(s)..]
    decreases |s|
  {
    var found := Find(s, ".");
    if found.None? {
      NoDot(s);
    } else {
      var i := found.value;
      SplitAtFirstDot(s, i);
      LastPiece(s[i + 1..]);
      LastPieceAfter(s, i, Split(s, "."), Split(s[i + 1..], "."));
    }
  }

  /** Splitting at the first `.`. */
  lemma SplitAtFirstDot(s: string, i: nat)
    requires Find(s, ".") == Some(i)
    ensures i < |s| && s[i] == '.'
    ensures Split(s, ".") == [s[..i]] + Split(s[i + 1..], ".")
  {
    assert s[i..i + 1] == ".";
  }

  /** The last piece of `split('.')` after the first `.` is the last piece of the whole. */
  lemma LastPieceAfter(s: string, i: nat, pieces: seq<string>, tail: seq<string>)
    requires i < |s| && s[i] == '.' && tail != []
    requires pieces == [s[..i]] + tail
    requires tail[|tail| - 1] == s[i + 1..][LastDotEnd(s[i + 1..])..]
    ensures pieces[|pieces| - 1] == s[LastDotEnd(s)..]
  {
    assert pieces[|pieces| - 1] == tail[|tail| - 1];
    LaterDot(s, i, LastDotEnd(s[i + 1..]));
  }

  /** Without a `.`, the text after the last `.` is the whole name. */
  lemma NoDot(s: string)
    requires Absent(s, ".")
    ensures LastDotEnd(s) == 0
  {
    forall i | 0 <= i < |s| ensures s[i] != '.' {
      assert !Occurs(s, ".", i);
      assert s[i..i + 1] == [s[i]];
    }
    LastDotUnique(s, 0);
  }

  /** The text after the last `.` of what follows a `.` is the text after the last `.` of the whole. */
  lemma LaterDot(s: string, i: nat, k: nat)
    requires i < |s| && s[i] == '.' && k == LastDotEnd(s[i + 1..])
    ensures s[i + 1 + k..] == s[i + 1..][k..] && i + 1 + k == LastDotEnd(s)
  {
    var rest := s[i + 1..];
    assert s[i + 1 + k..] == rest[k..];
    if k > 0 {
      assert s[i + k] == rest[k - 1];
    }
    LastDotUnique(s, i + 1 + k);
  }

  /** `file.name.split('.').pop()?.toLowerCase()`. */
  function Extension(name: string): (ext: string)
    ensures ext == LowerString(name[LastDotEnd(name)..])
    ensures '.' !in ext
  {
    var pieces := Split(name, ".");
    LastPiece(name);
    LowerKeepsDot(name[LastDotEnd(name)..]);
    LowerString(pieces[|pieces| - 1])
  }

  /** Lower-casing neither creates nor removes a `.`. */
  lemma LowerKeepsDot(s: string)
    ensures '.' in LowerString(s) <==> '.' in s
  {
    var r := LowerString(s);
    if '.' in r {
      var i :| 0 <= i < |r| && r[i] == '.';
      assert s[i] == '.';
    }
    if '.' in s {
      var i :| 0 <= i < |s| && s[i] == '.';
      assert r[i] == '.';
    }
  }

  /** A name without `.` gives the whole name, lower-cased; a name ending in `.` gives nothing. */
  lemma ExtensionEdges(name: string)
    ensures '.' !in name ==> Extension(name) == LowerString(name)
    ensures name != [] && name[|name| - 1] == '.' ==> Extension(name) == []
  {
    if '.' !in name {
      LastDotUnique(name, 0);
    }
  }

  datatype Format = Pdf | Docx | Odt

  const UnsupportedDoc: string := "error.unsupportedDoc"
  const UnsupportedTypePrefix: string := "error.unsupportedFileType:"

  /**
   * The `switch` on the extension: the three supported formats, a
   * dedicated error for legacy `.doc`, and an error naming any other
   * extension.
   */
  function Dispatch(name: string): (r: Result<Format, string>)
    ensures r == Success(Pdf) <==> Extension(name) == "pdf"
    ensures r == Success(Docx) <==> Extension(name) == "docx"
    ensures r == Success(Odt) <==> Extension(name) == "odt"
    ensures r == Failure(UnsupportedDoc) <==> Extension(name) == "doc"
    ensures r.Failure? && r.error != UnsupportedDoc ==> r.error == UnsupportedTypePrefix + Extension(name)
  {
    var ext := Extension(name);
    if ext == "pdf" then Success(Pdf)
    else if ext == "docx" then Success(Docx)
    else if ext == "odt" then Success(Odt)
    else if ext == "doc" then Failure(UnsupportedDoc)
    else
      assert |UnsupportedTypePrefix + ext| > |UnsupportedDoc|;
      Failure(UnsupportedTypePrefix + ext)
  }

  /** The extension is matched ignoring case: `A.PDF` goes to the PDF extractor. */
  lemma DispatchIgnoresCase(name: string)
    ensures Dispatch(name) == Success(Pdf) <==> SameIgnoringCase(name[LastDotEnd(name)..], "pdf")
    ensures Dispatch(name) == Success(Docx) <==> SameIgnoringCase(name[LastDotEnd(name)..], "docx")
    ensures Dispatch(name) == Success(Odt) <==> SameIgnoringCase(name[LastDotEnd(name)..], "odt")
    ensures Dispatch(name) == Failure(UnsupportedDoc) <==> SameIgnoringCase(name[LastDotEnd(name)..], "doc")
  {
    assert LowerString("pdf") == "pdf";
    assert LowerString("docx") == "docx";
    assert LowerString("odt") == "odt";
    assert LowerString("doc") == "doc";
  }

  /** The text of one PDF page: its item strings joined by single spaces. */
  function PageLine(items: seq<string>): string {
    Join(items, " ")
  }

  function PageLines(pages: seq<seq<string>>): (r: seq<string>)
    ensures |r| == |pages| && forall i | 0 <= i < |pages| :: r[i] == PageLine(pages[i])
  {
    seq(|pages|, i requires 0 <= i < |pages| => PageLine(pages[i]))
  }

  /** The loop of `parsePdf`: each page's line, followed by a line break. */
  method PdfText(pages: seq<seq<string>>) returns (text: string)
    ensures pages == [] ==> text == []
    ensures pages != [] ==> text == Join(PageLines(pages), "\n") + "\n"
  {
    text := "";
    var i := 0;
    while i < |pages|
      invariant 0 <= i <= |pages|
      invariant i == 0 ==> text == []
      invariant i > 0 ==> text == Join(PageLines(pages[..i]), "\n") + "\n"
    {
      var line := PageLine(pages[i]);
      if i > 0 {
        JoinSnoc(PageLines(pages[..i]), line, "\n");
        assert PageLines(pages[..i + 1]) == PageLines(pages[..i]) + [line];
      } else {
        assert PageLines(pages[..1]) == [line];
      }
      text := text + line + "\n";
      i := i + 1;
    }
    assert pages[..i] == pages;
  }

  /** With items on one line each, the lines of the PDF text are the pages, in order. */
  lemma {:induction false} PdfLinesArePages(pages: seq<seq<string>>, text: string)
    requires pages != [] && text == Join(PageLines(pages), "\n") + "\n"
    requires forall p, j | 0 <= p < |pages| && 0 <= j < |pages[p]| :: '\n' !in pages[p][j]
    ensures Split(text[..|text| - 1], "\n") == PageLines(pages)
  {
    var lines := PageLines(pages);
    forall p | 0 <= p < |lines| ensures '\n' !in lines[p] && Absent(lines[p], "\n") {
      JoinAvoids(pages[p], " ", '\n');
      AbsentWithoutFirstChar(lines[p], "\n");
    }
    assert text[..|text| - 1] == Join(lines, "\n");
    SplitJoin(lines, "\n", '\n');
  }

  /** The message `zip.file('content.xml').async(...)` throws when the archive has no such entry. */
  const MissingContent: Caught := ErrorObject("Cannot read properties of null (reading 'async')")

  /**
   * The loop of `parseOdt` over the paragraphs of `content.xml` (`None`
   * when the archive has no such entry): each paragraph and a line
   * break, the whole trimmed.
   */
  method OdtText(paragraphs: Option<seq<string>>) returns (r: Result<string, Caught>)
    ensures paragraphs.None? <==> r.Failure?
    ensures r.Failure? ==> r.error == MissingContent
    ensures r.Success? ==> r.value == Trim(Join(paragraphs.value, "\n")) && Trimmed(r.value)
  {
    if paragraphs.None? {
      return Failure(MissingContent);
    }
    var ps := paragraphs.value;
    var text := "";
    var i := 0;
    while i < |ps|
      invariant 0 <= i <= |ps|
      invariant i == 0 ==> text == []
      invariant i > 0 ==> text == Join(ps[..i], "\n") + "\n"
    {
      if i > 0 {
        JoinSnoc(ps[..i], ps[i], "\n");
        assert ps[..i + 1] == ps[..i] + [ps[i]];
      } else {
        assert ps[..1] == [ps[0]];
      }
      text := text + ps[i] + "\n";
      i := i + 1;
    }
    assert ps[..i] == ps;
    if i > 0 {
      TrimAppendBlank(Join(ps, "\n"), "\n");
    }
    return Success(Trim(text));
  }

  /**
   * What reading and decoding a file delivers, whichever format it turns
   * out to be: the rejection of `FileReader`, `getDocument`, mammoth or
   * `JSZip.loadAsync` when one of them rejects (a corrupt or mislabelled
   * file), otherwise what the decoder of each format extracts.
   */
  datatype Decoded = Decoded(
    rejection: Option<Caught>, pdfPages: seq<seq<string>>, docxText: string, odtParagraphs: Option<seq<string>>)

  /**
   * `parseFile`: the text of a supported file, or the error it throws. An
   * unsupported extension is refused before the file is read; a supported
   * one fails with the rejection of its reader or decoder, if any.
   */
  method ParseFile(name: string, d: Decoded) returns (r: Result<string, Caught>)
    ensures Dispatch(name).Failure? ==> r == Failure(ErrorObject(Dispatch(name).error))
    ensures Dispatch(name).Success? && d.rejection.Some? ==> r == Failure(d.rejection.value)
    ensures Dispatch(name) == Success(Docx) && d.rejection.None? ==> r == Success(d.docxText)
    ensures Dispatch(name) == Success(Pdf) && d.rejection.None? ==>
      r == Success(if d.pdfPages == [] then [] else Join(PageLines(d.pdfPages), "\n") + "\n")
    ensures Dispatch(name) == Success(Odt) && d.rejection.None? ==>
      r == (if d.odtParagraphs.None? then Failure(MissingContent) else Success(Trim(Join(d.odtParagraphs.value, "\n"))))
    ensures r.Success? ==> Dispatch(name).Success? && d.rejection.None?
  {
    match Dispatch(name)
    case Failure(message) =>
      r := Failure(ErrorObject(message));
    case Success(format) =>
      if d.rejection.Some? {
        r := Failure(d.rejection.value);
      } else if format == Pdf {
        var text := PdfText(d.pdfPages);
        r := Success(text);
      } else if format == Docx {
        r := Success(d.docxText);
      } else {
        r := OdtText(d.odtParagraphs);
      }
  }
}

=== FILE: format.dfy ===
/**
 * The micro-format shared by the prompt template and the response parser:
 * eight bracketed markers delimit four blocks, and inside a block each
 * field sits on a `<label>: ` line. A text in this format is modelled as a
 * sequence of pieces — free text and markers — so that a marker's position
 * in the flattened text can be read off the piece sequence.
 */
module Format {
  import opened Wrappers
  import opened Text

  const PlagiarismStart: string := "[PLAGIARISM_ANALYSIS_START]"
  const PlagiarismEnd: string := "[PLAGIARISM_ANALYSIS_END]"
  const SegmentsStart: string := "[PLAGIARIZED_SEGMENTS_START]"
  const SegmentsEnd: string := "[PLAGIARIZED_SEGMENTS_END]"
  const AiStart: string := "[AI_ANALYSIS_START]"
  const AiEnd: string := "[AI_ANALYSIS_END]"
  const SuggestionsStart: string := "[HUMANIZING_SUGGESTIONS_START]"
  const SuggestionsEnd: string := "[HUMANIZING_SUGGESTIONS_END]"

  /** The separator between the summary lines and the detailed analysis. */
  const Rule: string := "---"
  /** The separator between list items. */
  const ItemSeparator: string := "|||"

  /** The six labels of one locale, as spread into its `ai` record. */
  datatype Labels = Labels(
    scoreKey: string,
    assessmentKey: string,
    plagiarizedSegmentsKey: string,
    aiScoreKey: string,
    aiAssessmentKey: string,
    humanizingSuggestionsKey: string)

  /**
   * A marker is bracketed: `[` only in front, `]` only at the end, and no
   * line break, so no marker can start inside another or inside a line.
   */
  predicate Marker(m: string) {
    && |m| >= 2 && m[0] == '[' && m[|m| - 1] == ']'
    && (forall i | 1 <= i < |m| :: m[i] != '[')
    && (forall i | 0 <= i < |m| - 1 :: m[i] != ']')
    && '\n' !in m
  }

  lemma PlagiarismMarkers()
    ensures Marker(PlagiarismStart) && Marker(PlagiarismEnd)
  {
  }

  lemma SegmentsMarkers()
    ensures Marker(SegmentsStart) && Marker(SegmentsEnd)
  {
  }

  lemma AiMarkers()
    ensures Marker(AiStart) && Marker(AiEnd)
  {
  }

  lemma SuggestionsMarkers()
    ensures Marker(SuggestionsStart) && Marker(SuggestionsEnd)
  {
  }

  /** Each of the eight markers is well formed. */
  lemma MarkersWellFormed()
    ensures Marker(PlagiarismStart) && Marker(PlagiarismEnd)
    ensures Marker(SegmentsStart) && Marker(SegmentsEnd)
    ensures Marker(AiStart) && Marker(AiEnd)
    ensures Marker(SuggestionsStart) && Marker(SuggestionsEnd)
  {
    PlagiarismMarkers();
    SegmentsMarkers();
    AiMarkers();
    SuggestionsMarkers();
  }

  /** The eight markers are pairwise distinct. */
  lemma MarkersDistinct()
    ensures var ms := [PlagiarismStart, PlagiarismEnd, SegmentsStart, SegmentsEnd, AiStart, AiEnd, SuggestionsStart, SuggestionsEnd];
      forall j, k | 0 <= j < k < |ms| :: ms[j] != ms[k]
  {
  }

  /** The characters with a meaning in a JavaScript regular expression. */
  predicate IsRegexMeta(c: char) {
    || c == '.' || c == '*' || c == '+' || c == '?' || c == '^' || c == '$'
    || c == '{' || c == '}' || c == '(' || c == ')' || c == '|'
    || c == '[' || c == ']' || c == '\\'
  }

  /**
   * A label that a regular expression built from it matches literally and
   * that fits on one line: non-empty, without line terminators, regular
   * expression metacharacters or colons, and without a `---` rule.
   */
  predicate PlainLabel(x: string) {
    && x != []
    && (forall i | 0 <= i < |x| :: !IsLineTerminator(x[i]) && !IsRegexMeta(x[i]) && x[i] != ':')
    && (forall i | 0 <= i < |x| - 2 :: !(x[i] == '-' && x[i + 1] == '-' && x[i + 2] == '-'))
  }

  /** Neither string occurs inside the other. */
  predicate Apart(a: string, b: string) {
    Absent(a, b) && Absent(b, a)
  }

  /**
   * The conditions the parser relies on: six plain labels, pairwise
   * distinct, and the two labels that share a block each absent from the
   * other.
   */
  predicate Distinguishable(k: Labels) {
    && PlainLabel(k.scoreKey) && PlainLabel(k.assessmentKey) && PlainLabel(k.plagiarizedSegmentsKey)
    && PlainLabel(k.aiScoreKey) && PlainLabel(k.aiAssessmentKey) && PlainLabel(k.humanizingSuggestionsKey)
    && Apart(k.scoreKey, k.assessmentKey) && Apart(k.aiScoreKey, k.aiAssessmentKey)
    && var ls := [k.scoreKey, k.assessmentKey, k.plagiarizedSegmentsKey, k.aiScoreKey, k.aiAssessmentKey, k.humanizingSuggestionsKey];
       forall i, j | 0 <= i < j < |ls| :: ls[i] != ls[j]
  }

  /** A plain label holds no `---` rule. */
  lemma PlainLabelNoRule(x: string)
    requires PlainLabel(x)
    ensures Absent(x, Rule)
  {
    AbsentByLead(x, Rule);
  }

  /** The summary lines that open a scored block: score, assessment, and the `---` rule. */
  function ScoredHead(scoreKey: string, assessmentKey: string, score: string, assessment: string): string {
    "\n" + scoreKey + ": " + score + "\n" + assessmentKey + ": " + assessment + "\n" + Rule + "\n"
  }

  /** The body of a scored block: its summary lines, then the detailed analysis on lines of its own. */
  function ScoredBody(scoreKey: string, assessmentKey: string, score: string, assessment: string, analysis: string): string {
    ScoredHead(scoreKey, assessmentKey, score, assessment) + analysis + "\n"
  }

  /** The start of a list line. */
  function ListHead(key: string): string {
    "\n" + key + ": "
  }

  /** The body of a list block: one line holding the items joined by `|||`. */
  function ListBody(key: string, items: seq<string>): string {
    ListHead(key) + Join(items, ItemSeparator) + "\n"
  }

  /** The fillings of the eight fields, as text. */
  datatype Fields = Fields(
    score: string, assessment: string, analysis: string, segments: seq<string>,
    aiScore: string, aiAssessment: string, aiAnalysis: string, suggestions: seq<string>)

  /** The free text around and between the four blocks. */
  datatype Gaps = Gaps(lead: string, afterPlagiarism: string, afterSegments: string, afterAi: string, trail: string)

  datatype Piece = Free(text: string) | Mark(marker: string)

  function TextOf(p: Piece): string {
    match p
    case Free(t) => t
    case Mark(m) => m
  }

  function Flatten(ps: seq<Piece>): string {
    if ps == [] then "" else TextOf(ps[0]) + Flatten(ps[1..])
  }

  /** The four blocks in template order, with the given fillings and gaps. */
  function Skeleton(k: Labels, f: Fields, g: Gaps): (ps: seq<Piece>)
    ensures |ps| == 17
  {
    [ Free(g.lead),
      Mark(PlagiarismStart), Free(ScoredBody(k.scoreKey, k.assessmentKey, f.score, f.assessment, f.analysis)), Mark(PlagiarismEnd),
      Free(g.afterPlagiarism),
      Mark(SegmentsStart), Free(ListBody(k.plagiarizedSegmentsKey, f.segments)), Mark(SegmentsEnd),
      Free(g.afterSegments),
      Mark(AiStart), Free(ScoredBody(k.aiScoreKey, k.aiAssessmentKey, f.aiScore, f.aiAssessment, f.aiAnalysis)), Mark(AiEnd),
      Free(g.afterAi),
      Mark(SuggestionsStart), Free(ListBody(k.humanizingSuggestionsKey, f.suggestions)), Mark(SuggestionsEnd),
      Free(g.trail) ]
  }

  /**
   * The markers do not depend on what fills the template: any two skeletons
   * have the same eight markers at the same places, and free text
   * everywhere else.
   */
  lemma MarkersShared(k1: Labels, f1: Fields, g1: Gaps, k2: Labels, f2: Fields, g2: Gaps)
    ensures var ps1, ps2 := Skeleton(k1, f1, g1), Skeleton(k2, f2, g2);
      && (forall i | 0 <= i < 17 :: ps1[i].Mark? <==> ps2[i].Mark?)
      && (forall i | 0 <= i < 17 && ps1[i].Mark? :: ps1[i] == ps2[i])
      && ps1[1] == Mark(PlagiarismStart) && ps1[3] == Mark(PlagiarismEnd)
      && ps1[5] == Mark(SegmentsStart) && ps1[7] == Mark(SegmentsEnd)
      && ps1[9] == Mark(AiStart) && ps1[11] == Mark(AiEnd)
      && ps1[13] == Mark(SuggestionsStart) && ps1[15] == Mark(SuggestionsEnd)
  {
  }

  /** Flattening distributes over concatenation of piece sequences. */
  lemma {:induction false} FlattenAppend(a: seq<Piece>, b: seq<Piece>)
    ensures Flatten(a + b) == Flatten(a) + Flatten(b)
    decreases |a|
  {
    if a != [] {
      assert (a + b)[0] == a[0];
      assert (a + b)[1..] == a[1..] + b;
      FlattenAppend(a[1..], b);
      assert Flatten(a + b) == TextOf(a[0]) + Flatten(a[1..] + b);
    } else {
      assert a + b == b;
    }
  }

  /** The text of piece `k` sits in the flattened text right after the pieces before it. */
  lemma PieceAt(ps: seq<Piece>, k: nat)
    requires k < |ps|
    ensures Occurs(Flatten(ps), TextOf(ps[k]), |Flatten(ps[..k])|)
  {
    assert ps == ps[..k] + ([ps[k]] + ps[k + 1..]);
    FlattenAppend(ps[..k], [ps[k]] + ps[k + 1..]);
    FlattenAppend([ps[k]], ps[k + 1..]);
    assert Flatten([ps[k]]) == TextOf(ps[k]) + Flatten([]);
    OccursInPrefix(TextOf(ps[k]), Flatten(ps[k + 1..]), TextOf(ps[k]), 0);
    OccursInSuffix(Flatten(ps[..k]), TextOf(ps[k]) + Flatten(ps[k + 1..]), TextOf(ps[k]), 0);
  }

  /** The pieces before `k + 1` are the pieces before `k`, then piece `k`. */
  lemma FlattenPrefix(ps: seq<Piece>, k: nat)
    requires k < |ps|
    ensures Flatten(ps[..k + 1]) == Flatten(ps[..k]) + TextOf(ps[k])
  {
    assert ps[..k + 1] == ps[..k] + [ps[k]];
    FlattenAppend(ps[..k], [ps[k]]);
    assert Flatten([ps[k]]) == TextOf(ps[k]) + Flatten([]);
  }

  /** Two consecutive pieces appear together in the text. */
  lemma PiecesAt(ps: seq<Piece>, k: nat)
    requires k + 1 < |ps|
    ensures Occurs(Flatten(ps), TextOf(ps[k]) + TextOf(ps[k + 1]), |Flatten(ps[..k])|)
  {
    PieceAt(ps, k);
    PieceAt(ps, k + 1);
    FlattenPrefix(ps, k);
    OccursAdjacent(Flatten(ps), TextOf(ps[k]), TextOf(ps[k + 1]), |Flatten(ps[..k])|);
  }

  /** A scored block's marker is followed by its score line, assessment line and rule. */
  lemma ScoredBlockAt(ps: seq<Piece>, i: nat, m: string, sk: string, ak: string, score: string, assessment: string, analysis: string)
    requires i + 1 < |ps| && ps[i] == Mark(m) && ps[i + 1] == Free(ScoredBody(sk, ak, score, assessment, analysis))
    ensures Contains(Flatten(ps), m + ScoredHead(sk, ak, score, assessment))
  {
    PiecesAt(ps, i);
    var x := m + ScoredHead(sk, ak, score, assessment);
    assert TextOf(ps[i]) + TextOf(ps[i + 1]) == x + (analysis + "\n");
    OccursLeft(Flatten(ps), x, analysis + "\n", |Flatten(ps[..i])|);
  }

  lemma Regroup(a: string, b: string, c: string)
    ensures a + (b + c) == (a + b) + c
  {
  }

  /** A list block's marker is followed by its label line. */
  lemma ListBlockAt(ps: seq<Piece>, i: nat, m: string, key: string, items: seq<string>)
    requires i + 1 < |ps| && ps[i] == Mark(m) && ps[i + 1] == Free(ListBody(key, items))
    ensures Contains(Flatten(ps), m + ListHead(key))
  {
    PiecesAt(ps, i);
    var h := ListHead(key);
    var tail := Join(items, ItemSeparator) + "\n";
    assert ListBody(key, items) == h + tail;
    Regroup(m, h, tail);
    OccursLeft(Flatten(ps), m + h, tail, |Flatten(ps[..i])|);
  }

  /**
   * Wherever the template is filled in, each block's label lines follow its
   * start marker: the score and assessment lines and the `---` rule right
   * after a scored block's marker, the list line right after a list
   * block's marker.
   */
  lemma SkeletonPlacesLabels(k: Labels, f: Fields, g: Gaps)
    ensures Contains(Flatten(Skeleton(k, f, g)), PlagiarismStart + ScoredHead(k.scoreKey, k.assessmentKey, f.score, f.assessment))
    ensures Contains(Flatten(Skeleton(k, f, g)), SegmentsStart + ListHead(k.plagiarizedSegmentsKey))
    ensures Contains(Flatten(Skeleton(k, f, g)), AiStart + ScoredHead(k.aiScoreKey, k.aiAssessmentKey, f.aiScore, f.aiAssessment))
    ensures Contains(Flatten(Skeleton(k, f, g)), SuggestionsStart + ListHead(k.humanizingSuggestionsKey))
  {
    PlagiarismLabelsPlaced(k, f, g);
    AiLabelsPlaced(k, f, g);
  }

  lemma PlagiarismLabelsPlaced(k: Labels, f: Fields, g: Gaps)
    ensures Contains(Flatten(Skeleton(k, f, g)), PlagiarismStart + ScoredHead(k.scoreKey, k.assessmentKey, f.score, f.assessment))
    ensures Contains(Flatten(Skeleton(k, f, g)), SegmentsStart + ListHead(k.plagiarizedSegmentsKey))
  {
    var ps := Skeleton(k, f, g);
    ScoredBlockAt(ps, 1, PlagiarismStart, k.scoreKey, k.assessmentKey, f.score, f.assessment, f.analysis);
    ListBlockAt(ps, 5, SegmentsStart, k.plagiarizedSegmentsKey, f.segments);
  }

  lemma AiLabelsPlaced(k: Labels, f: Fields, g: Gaps)
    ensures Contains(Flatten(Skeleton(k, f, g)), AiStart + ScoredHead(k.aiScoreKey, k.aiAssessmentKey, f.aiScore, f.aiAssessment))
    ensures Contains(Flatten(Skeleton(k, f, g)), SuggestionsStart + ListHead(k.humanizingSuggestionsKey))
  {
    var ps := Skeleton(k, f, g);
    ScoredBlockAt(ps, 9, AiStart, k.aiScoreKey, k.aiAssessmentKey, f.aiScore, f.aiAssessment, f.aiAnalysis);
    ListBlockAt(ps, 13, SuggestionsStart, k.humanizingSuggestionsKey, f.suggestions);
  }

  /** Every marker piece is a marker and no free piece contains `[`. */
  predicate Delimited(ps: seq<Piece>) {
    forall k | 0 <= k < |ps| :: if ps[k].Mark? then Marker(ps[k].marker) else '[' !in ps[k].text
  }

  /** Two different markers cannot overlap the start of one another. */
  lemma MarkerNotInMarker(q: string, rest: string, m: string, j: int)
    requires Marker(q) && Marker(m) && q != m && 0 <= j < |q|
    ensures !Occurs(q + rest, m, j)
  {
    var u := q + rest;
    CharOfOccurrence(u, m, j, 0);
    CharOfOccurrence(u, m, j, |m| - 1);
    CharOfOccurrence(u, m, j, |q| - 1 - j);
    assert u[..|q|] == q;
  }

  /** No occurrence of a marker starts inside free text that lacks `[`. */
  lemma MarkerNotInFree(t: string, rest: string, m: string, j: int)
    requires Marker(m) && '[' !in t && 0 <= j < |t|
    ensures !Occurs(t + rest, m, j)
  {
    CharOfOccurrence(t + rest, m, j, 0);
    assert (t + rest)[j] == t[j];
  }

  /** Nothing in the first piece can start an occurrence of a marker it is not. */
  lemma NoMarkerInHead(ps: seq<Piece>, m: string)
    requires ps != [] && Delimited(ps) && Marker(m) && ps[0] != Mark(m)
    ensures forall j | 0 <= j < |TextOf(ps[0])| :: !Occurs(TextOf(ps[0]) + Flatten(ps[1..]), m, j)
  {
    forall j | 0 <= j < |TextOf(ps[0])| ensures !Occurs(TextOf(ps[0]) + Flatten(ps[1..]), m, j) {
      match ps[0]
      case Free(t) => MarkerNotInFree(t, Flatten(ps[1..]), m, j);
      case Mark(q) => MarkerNotInMarker(q, Flatten(ps[1..]), m, j);
    }
  }

  /** A marker that is not among the pieces occurs nowhere in their text. */
  lemma {:induction false} MarkerAbsent(ps: seq<Piece>, m: string)
    requires Delimited(ps) && Marker(m) && Mark(m) !in ps
    ensures Find(Flatten(ps), m) == None
    decreases |ps|
  {
    if ps != [] {
      assert ps[0] in ps;
      assert forall k | 0 <= k < |ps[1..]| :: ps[1..][k] == ps[k + 1];
      assert Mark(m) !in ps[1..];
      NoMarkerInHead(ps, m);
      MarkerAbsent(ps[1..], m);
      FindShift(TextOf(ps[0]), Flatten(ps[1..]), m);
    }
  }

  /** The first marker piece equal to `m` is the first occurrence of `m` in the text. */
  lemma {:induction false} MarkerFound(ps: seq<Piece>, m: string, k: nat)
    requires Delimited(ps) && Marker(m)
    requires k < |ps| && ps[k] == Mark(m) && Mark(m) !in ps[..k]
    ensures Find(Flatten(ps), m) == Some(|Flatten(ps[..k])|)
    decreases k
  {
    if k == 0 {
      assert Flatten(ps) == m + Flatten(ps[1..]);
      OccursInPrefix(m, Flatten(ps[1..]), m, 0);
      FindAtStart(Flatten(ps), m);
      assert ps[..0] == [];
    } else {
      assert ps[0] == ps[..k][0];
      assert ps[..k][0] in ps[..k];
      assert ps[1..][..k - 1] == ps[..k][1..];
      assert Mark(m) !in ps[1..][..k - 1];
      NoMarkerInHead(ps, m);
      MarkerFound(ps[1..], m, k - 1);
      FindShift(TextOf(ps[0]), Flatten(ps[1..]), m);
      assert Flatten(ps[..k]) == TextOf(ps[0]) + Flatten(ps[1..][..k - 1]);
    }
  }
}

=== FILE: highlight.dfy ===
/**
 * Highlighting the plagiarised segments in the submitted text. With no
 * segments the text is shown as it is. Otherwise the segments are sorted
 * longest first (a stable sort), each is escaped for use in a regular
 * expression, the escaped segments are joined with `|` into one
 * case-insensitive capturing pattern, the text is split with it, and a
 * part is marked when it equals some segment ignoring case.
 */
module Highlight {
  import opened Wrappers
  import opened Text
  import RegexSplit

  // ---------------------------------------------------------------------
  // Escaping and the alternation pattern

  /** The characters `escapeRegExp` puts a backslash before: `.*+?^${}()|[]\`. */
  predicate IsSyntaxChar(c: char) {
    || c == '.' || c == '*' || c == '+' || c == '?' || c == '^' || c == '$'
    || c == '{' || c == '}' || c == '(' || c == ')' || c == '|'
    || c == '[' || c == ']' || c == '\\'
  }

  /** One character as `escapeRegExp` writes it. */
  function EscapeChar(c: char): string {
    if IsSyntaxChar(c) then ['\\', c] else [c]
  }

  /** `str.replace(/[.*+?^${}()|[\]\\]/g, '\\$&')`. */
  function Escape(s: string): string {
    if s == [] then [] else EscapeChar(s[0]) + Escape(s[1..])
  }

  function EscapeAll(segs: seq<string>): (r: seq<string>)
    ensures |r| == |segs|
    ensures forall k | 0 <= k < |segs| :: r[k] == Escape(segs[k])
  {
    if segs == [] then [] else [Escape(segs[0])] + EscapeAll(segs[1..])
  }

  /** The source of the pattern inside the capturing group. */
  function Pattern(sorted: seq<string>): string {
    Join(EscapeAll(sorted), "|")
  }

  /**
   * Reads a pattern made of literal characters, escaped characters and
   * `|` back into its alternatives; any other unescaped syntax character,
   * or a dangling backslash, is not such a pattern.
   */
  function Alternatives(p: string): (r: Option<seq<string>>)
    ensures r.Some? ==> |r.value| >= 1
    decreases |p|
  {
    if p == [] then Some([[]])
    else if p[0] == '\\' then
      if |p| < 2 then None else Extend([p[1]], Alternatives(p[2..]))
    else if p[0] == '|' then
      match Alternatives(p[1..])
      case None => None
      case Some(alts) => Some([[]] + alts)
    else if IsSyntaxChar(p[0]) then None
    else Extend([p[0]], Alternatives(p[1..]))
  }

  /** Puts `s` in front of the first alternative. */
  function Extend(s: string, o: Option<seq<string>>): (r: Option<seq<string>>)
    requires o.Some? ==> |o.value| >= 1
    ensures r.Some? ==> |r.value| >= 1
  {
    match o
    case None => None
    case Some(alts) => Some([s + alts[0]] + alts[1..])
  }

  /** One escaped character reads back as itself. */
  lemma EscapeCharThen(c: char, tail: string)
    ensures Alternatives(EscapeChar(c) + tail) == Extend([c], Alternatives(tail))
  {
    if IsSyntaxChar(c) {
      assert (['\\', c] + tail)[2..] == tail;
    } else {
      assert ([c] + tail)[1..] == tail;
    }
  }

  lemma ExtendTwice(a: string, b: string, o: Option<seq<string>>)
    requires o.Some? ==> |o.value| >= 1
    ensures Extend(a, Extend(b, o)) == Extend(a + b, o)
  {
    match o
    case None =>
    case Some(alts) =>
      assert a + (b + alts[0]) == (a + b) + alts[0];
  }

  /** An escaped segment reads back as itself, in front of whatever follows. */
  lemma {:induction false} EscapeThen(seg: string, rest: string)
    ensures Alternatives(Escape(seg) + rest) == Extend(seg, Alternatives(rest))
    decreases |seg|
  {
    if seg == [] {
      assert Escape(seg) + rest == rest;
      match Alternatives(rest)
      case None =>
      case Some(alts) =>
        assert seg + alts[0] == alts[0];
        assert [alts[0]] + alts[1..] == alts;
    } else {
      var c := seg[0];
      var tail := Escape(seg[1..]) + rest;
      EscapeThen(seg[1..], rest);
      assert Escape(seg) + rest == EscapeChar(c) + tail;
      EscapeCharThen(c, tail);
      ExtendTwice([c], seg[1..], Alternatives(rest));
      assert [c] + seg[1..] == seg;
    }
  }

  lemma PatternCons(segs: seq<string>)
    requires |segs| >= 2
    ensures Pattern(segs) == Escape(segs[0]) + ("|" + Pattern(segs[1..]))
  {
    var es := EscapeAll(segs);
    assert es[1..] == EscapeAll(segs[1..]);
    assert Join(es, "|") == es[0] + "|" + Join(es[1..], "|");
  }

  /** The regular expression matches exactly the segments, literally and in sorted order. */
  lemma {:induction false} PatternAlternatives(segs: seq<string>)
    requires |segs| >= 1
    ensures Alternatives(Pattern(segs)) == Some(segs)
    decreases |segs|
  {
    if |segs| == 1 {
      var empty: string := [];
      var none: seq<string> := [empty];
      EscapeThen(segs[0], empty);
      assert Pattern(segs) == Escape(segs[0]) + empty;
      assert Alternatives(empty) == Some(none);
      assert segs[0] + empty == segs[0] && none[1..] == [];
      assert [segs[0] + none[0]] + none[1..] == segs;
      assert Extend(segs[0], Some(none)) == Some(segs);
    } else {
      PatternAlternatives(segs[1..]);
      var tail := Pattern(segs[1..]);
      PatternCons(segs);
      EscapeThen(segs[0], "|" + tail);
      assert ("|" + tail)[1..] == tail;
      assert Alternatives("|" + tail) == Some([[]] + segs[1..]);
      assert segs[0] + [] == segs[0];
      assert [segs[0]] + segs[1..] == segs;
    }
  }

  // ---------------------------------------------------------------------
  // Sorting longest first

  /** Longest first. */
  predicate Descending(xs: seq<string>) {
    forall i, j | 0 <= i < j < |xs| :: |xs[i]| >= |xs[j]|
  }

  /** Places `x` before the first element no longer than it. */
  function Insert(x: string, ys: seq<string>): (r: seq<string>)
    ensures |r| == |ys| + 1
  {
    if ys == [] || |x| >= |ys[0]| then [x] + ys
    else [ys[0]] + Insert(x, ys[1..])
  }

  /** Inserting adds exactly `x`, and keeps a longest-first list longest first. */
  lemma {:induction false} InsertSorted(x: string, ys: seq<string>)
    ensures multiset(Insert(x, ys)) == multiset(ys) + multiset{x}
    ensures Descending(ys) ==> Descending(Insert(x, ys))
    decreases |ys|
  {
    if !(ys == [] || |x| >= |ys[0]|) {
      var t := Insert(x, ys[1..]);
      InsertSorted(x, ys[1..]);
      assert ys == [ys[0]] + ys[1..];
      assert Insert(x, ys) == [ys[0]] + t;
      if Descending(ys) {
        forall j | 0 <= j < |t| ensures |t[j]| <= |ys[0]| {
          assert t[j] in multiset(t);
        }
      }
    }
  }

  /** `[...segments].sort((a, b) => b.length - a.length)`. */
  function SortByLength(xs: seq<string>): (r: seq<string>)
    ensures |r| == |xs|
  {
    if xs == [] then [] else Insert(xs[0], SortByLength(xs[1..]))
  }

  /** The sort permutes its input into longest-first order. */
  lemma {:induction false} SortSorted(xs: seq<string>)
    ensures multiset(SortByLength(xs)) == multiset(xs)
    ensures Descending(SortByLength(xs))
    decreases |xs|
  {
    if xs != [] {
      SortSorted(xs[1..]);
      InsertSorted(xs[0], SortByLength(xs[1..]));
      assert xs == [xs[0]] + xs[1..];
    }
  }

  /** The elements of length `n`, in order. */
  function OfLength(xs: seq<string>, n: nat): seq<string> {
    if xs == [] then [] else (if |xs[0]| == n then [xs[0]] else []) + OfLength(xs[1..], n)
  }

  lemma {:induction false} InsertOfLength(x: string, ys: seq<string>, n: nat)
    requires Descending(ys)
    ensures OfLength(Insert(x, ys), n) == (if |x| == n then [x] else []) + OfLength(ys, n)
    decreases |ys|
  {
    if !(ys == [] || |x| >= |ys[0]|) {
      var t := Insert(x, ys[1..]);
      assert Descending(ys[1..]);
      InsertOfLength(x, ys[1..], n);
      assert Insert(x, ys) == [ys[0]] + t;
      assert ([ys[0]] + t)[1..] == t;
    }
  }

  /** The sort is stable: segments of equal length keep their order. */
  lemma {:induction false} SortStable(xs: seq<string>, n: nat)
    ensures OfLength(SortByLength(xs), n) == OfLength(xs, n)
    decreases |xs|
  {
    if xs != [] {
      SortStable(xs[1..], n);
      SortSorted(xs[1..]);
      InsertOfLength(xs[0], SortByLength(xs[1..]), n);
    }
  }

  // ---------------------------------------------------------------------
  // Case-insensitive matching

  /** The `i` flag compares characters by `toUpperCase`; `isMatch` by `toLowerCase`. Both agree. */
  lemma CaseFoldAgree(a: char, b: char)
    ensures Upper(a) == Upper(b) <==> Lower(a) == Lower(b)
  {
    CasePairing(a);
    CasePairing(b);
  }

  /** `seg` matches the text at `q` under the `i` flag. */
  predicate MatchesAt(s: string, q: nat, seg: string) {
    q + |seg| <= |s| && forall k | 0 <= k < |seg| :: Upper(s[q + k]) == Upper(seg[k])
  }

  /** Matching at `q` is `toLowerCase` equality with the text there. */
  lemma MatchesAtSame(s: string, q: nat, seg: string)
    requires q + |seg| <= |s|
    ensures MatchesAt(s, q, seg) <==> SameIgnoringCase(s[q..q + |seg|], seg)
  {
    var w := s[q..q + |seg|];
    if MatchesAt(s, q, seg) {
      forall k | 0 <= k < |seg| ensures LowerString(w)[k] == LowerString(seg)[k] {
        CaseFoldAgree(w[k], seg[k]);
      }
    }
    if SameIgnoringCase(w, seg) {
      forall k | 0 <= k < |seg| ensures Upper(s[q + k]) == Upper(seg[k]) {
        assert LowerString(w)[k] == LowerString(seg)[k];
        CaseFoldAgree(w[k], seg[k]);
      }
    }
  }

  /** The alternative the regular expression takes at `q`: the first that matches. */
  function FirstMatch(s: string, q: nat, alts: seq<string>): (r: Option<nat>)
    ensures r.Some? ==> r.value < |alts| && MatchesAt(s, q, alts[r.value])
    ensures r.Some? ==> forall j | 0 <= j < r.value :: !MatchesAt(s, q, alts[j])
    ensures r.None? ==> forall j | 0 <= j < |alts| :: !MatchesAt(s, q, alts[j])
    decreases |alts|
  {
    if alts == [] then None
    else if MatchesAt(s, q, alts[0]) then Some(0)
    else match FirstMatch(s, q, alts[1..])
      case None => None
      case Some(i) => Some(i + 1)
  }

  /** The sticky match of the alternation at `q`, as the end of the match. */
  function AltAt(s: string, alts: seq<string>): nat -> Option<nat> {
    (q: nat) => match FirstMatch(s, q, alts)
      case None => None
      case Some(i) => Some(q + |alts[i]|)
  }

  predicate NonEmpty(segs: seq<string>) {
    forall k | 0 <= k < |segs| :: segs[k] != []
  }

  lemma AltIsMatcher(s: string, alts: seq<string>)
    requires NonEmpty(alts)
    ensures RegexSplit.IsMatcher(s, AltAt(s, alts))
  {
  }

  /**
   * Sorted longest first, the alternative taken is the longest segment
   * matching at `q`, and there is none exactly when no segment matches.
   */
  lemma LongestAlternative(s: string, q: nat, segments: seq<string>)
    ensures var sorted := SortByLength(segments);
      match FirstMatch(s, q, sorted)
      case Some(i) => sorted[i] in segments && forall seg | seg in segments && MatchesAt(s, q, seg) :: |seg| <= |sorted[i]|
      case None => forall seg | seg in segments :: !MatchesAt(s, q, seg)
  {
    var sorted := SortByLength(segments);
    SortedSame(segments);
    match FirstMatch(s, q, sorted)
    case Some(i) =>
      assert sorted[i] in segments;
      SortSorted(segments);
      FirstIsLongest(s, q, sorted, i);
      forall seg | seg in segments && MatchesAt(s, q, seg) ensures |seg| <= |sorted[i]| {
        var j :| 0 <= j < |sorted| && sorted[j] == seg;
      }
    case None =>
  }

  /** In a longest-first list, the first alternative that matches is a longest one that does. */
  lemma FirstIsLongest(s: string, q: nat, sorted: seq<string>, i: nat)
    requires Descending(sorted) && FirstMatch(s, q, sorted) == Some(i)
    ensures forall j | 0 <= j < |sorted| && MatchesAt(s, q, sorted[j]) :: |sorted[j]| <= |sorted[i]|
  {
    forall j | 0 <= j < |sorted| && MatchesAt(s, q, sorted[j]) ensures |sorted[j]| <= |sorted[i]| {
      assert i <= j;
    }
  }

  // ---------------------------------------------------------------------
  // The highlighted text

  datatype Span = Unmarked(text: string) | Marked(text: string)

  /** `sortedSegments.some(segment => part.toLowerCase() === segment.toLowerCase())`. */
  predicate IsSegment(part: string, segs: seq<string>) {
    exists j | 0 <= j < |segs| :: SameIgnoringCase(part, segs[j])
  }

  function MarkAll(parts: seq<string>, segs: seq<string>): (r: seq<Span>)
    ensures |r| == |parts|
    ensures forall k | 0 <= k < |parts| :: r[k].text == parts[k] && (r[k].Marked? <==> IsSegment(parts[k], segs))
  {
    if parts == [] then []
    else [if IsSegment(parts[0], segs) then Marked(parts[0]) else Unmarked(parts[0])] + MarkAll(parts[1..], segs)
  }

  /** Sorting keeps exactly the segments. */
  lemma SortedSame(segments: seq<string>)
    ensures forall seg :: seg in SortByLength(segments) <==> seg in segments
  {
    var sorted := SortByLength(segments);
    SortSorted(segments);
    forall seg ensures seg in sorted <==> seg in segments {
      SameElements(sorted, segments, seg);
    }
  }

  lemma SameElements(a: seq<string>, b: seq<string>, x: string)
    requires multiset(a) == multiset(b)
    ensures x in a <==> x in b
  {
    assert x in a <==> x in multiset(a);
    assert x in b <==> x in multiset(b);
  }

  lemma SortedNonEmpty(segments: seq<string>)
    requires NonEmpty(segments)
    ensures NonEmpty(SortByLength(segments))
  {
    var sorted := SortByLength(segments);
    SortSorted(segments);
    forall k | 0 <= k < |sorted| ensures sorted[k] != [] {
      SameElements(sorted, segments, sorted[k]);
    }
  }

  /** The split of the text by the sorted segments. */
  lemma SplitBySorted(text: string, segments: seq<string>)
    requires NonEmpty(segments)
    ensures NonEmpty(SortByLength(segments))
    ensures RegexSplit.IsMatcher(text, AltAt(text, SortByLength(segments)))
  {
    SortedNonEmpty(segments);
    AltIsMatcher(text, SortByLength(segments));
  }

  /** `text.split(new RegExp('(' + pattern + ')', 'gi'))`. */
  function Parts(text: string, segments: seq<string>): seq<string>
    requires NonEmpty(segments)
  {
    RegexSplit.Split(text, AltAt(text, SortByLength(segments)))
  }

  /** What `TextWithHighlights` shows. */
  function Highlight(text: string, segments: seq<string>): seq<Span>
    requires NonEmpty(segments)
  {
    if segments == [] then [Unmarked(text)]
    else MarkAll(Parts(text, segments), SortByLength(segments))
  }

  function Shown(spans: seq<Span>): string {
    if spans == [] then [] else spans[0].text + Shown(spans[1..])
  }

  lemma {:induction false} ShownParts(parts: seq<string>, segs: seq<string>)
    ensures Shown(MarkAll(parts, segs)) == RegexSplit.Concat(parts)
    decreases |parts|
  {
    if parts != [] {
      ShownParts(parts[1..], segs);
      assert MarkAll(parts, segs)[1..] == MarkAll(parts[1..], segs);
    }
  }

  /** Highlighting only decorates: the text shown is the submitted text. */
  lemma HighlightKeepsText(text: string, segments: seq<string>)
    requires NonEmpty(segments)
    ensures Shown(Highlight(text, segments)) == text
  {
    if segments != [] {
      var sorted := SortByLength(segments);
      SplitBySorted(text, segments);
      RegexSplit.SplitConcat(text, AltAt(text, sorted));
      ShownParts(Parts(text, segments), sorted);
    }
  }

  /** A part is a segment ignoring case exactly when some segment matches where it sits. */
  lemma IsSegmentAt(text: string, i: nat, part: string, sorted: seq<string>)
    requires NonEmpty(sorted) && i + |part| <= |text| && text[i..i + |part|] == part
    ensures IsSegment(part, sorted) <==> exists j | 0 <= j < |sorted| :: |sorted[j]| == |part| && MatchesAt(text, i, sorted[j])
  {
    forall j | 0 <= j < |sorted|
      ensures SameIgnoringCase(part, sorted[j]) <==> |sorted[j]| == |part| && MatchesAt(text, i, sorted[j])
    {
      if |sorted[j]| == |part| {
        MatchesAtSame(text, i, sorted[j]);
      }
    }
  }

  /** An odd part is marked, and it is the longest segment found where it sits. */
  lemma HitsMarked(text: string, segments: seq<string>, k: nat)
    requires NonEmpty(segments) && segments != [] && k < |Parts(text, segments)| && k % 2 == 1
    ensures var parts := Parts(text, segments); var i := RegexSplit.Offset(parts, k);
      && Highlight(text, segments)[k].Marked?
      && forall seg | seg in segments && MatchesAt(text, i, seg) :: |seg| <= |parts[k]|
  {
    var sorted := SortByLength(segments);
    var parts := Parts(text, segments);
    var m := AltAt(text, sorted);
    SplitBySorted(text, segments);
    RegexSplit.SplitParts(text, m, k);
    var i := RegexSplit.Offset(parts, k);
    IsSegmentAt(text, i, parts[k], sorted);
    LongestAlternative(text, i, segments);
    var f := FirstMatch(text, i, sorted).value;
    assert |sorted[f]| == |parts[k]|;
  }

  /** No segment occurs, ignoring case, starting inside an even part. */
  lemma GapsFree(text: string, segments: seq<string>, k: nat)
    requires NonEmpty(segments) && k < |Parts(text, segments)| && k % 2 == 0
    ensures var parts := Parts(text, segments); var i := RegexSplit.Offset(parts, k);
      forall q: nat, seg | i <= q < i + |parts[k]| && seg in segments :: !MatchesAt(text, q, seg)
  {
    var sorted := SortByLength(segments);
    var parts := Parts(text, segments);
    var m := AltAt(text, sorted);
    SplitBySorted(text, segments);
    RegexSplit.SplitParts(text, m, k);
    var i := RegexSplit.Offset(parts, k);
    forall q: nat, seg | i <= q < i + |parts[k]| && seg in segments ensures !MatchesAt(text, q, seg) {
      assert m(q).None?;
      LongestAlternative(text, q, segments);
    }
  }

  /** An even part is not marked: it is no segment, ignoring case. */
  lemma GapsUnmarked(text: string, segments: seq<string>, k: nat)
    requires NonEmpty(segments) && segments != [] && k < |Parts(text, segments)| && k % 2 == 0
    ensures Highlight(text, segments)[k].Unmarked?
  {
    var sorted := SortByLength(segments);
    var parts := Parts(text, segments);
    var m := AltAt(text, sorted);
    SplitBySorted(text, segments);
    RegexSplit.SplitParts(text, m, k);
    var i := RegexSplit.Offset(parts, k);
    IsSegmentAt(text, i, parts[k], sorted);
    SortedSame(segments);
    GapsFree(text, segments, k);
  }

  /** The marked parts are exactly the matches of the pattern: the odd parts. */
  lemma MarksAreMatches(text: string, segments: seq<string>, k: nat)
    requires NonEmpty(segments) && segments != [] && k < |Parts(text, segments)|
    ensures Highlight(text, segments)[k].Marked? <==> k % 2 == 1
  {
    if k % 2 == 1 {
      HitsMarked(text, segments, k);
    } else {
      GapsUnmarked(text, segments, k);
    }
  }
}

=== FILE: locale.dfy ===
/**
 * The label table of `translationsConfig`: each locale's language name and
 * six labels, and the facts about them that are checked character by
 * character on the literals.
 */
module LabelTable {
  import opened Text
  import opened Format

  const PtLang: string := "Português do Brasil"
  const PtScoreKey: string := "Pontuação de Plágio"
  const PtAssessmentKey: string := "Avaliação Geral"
  const PtSegmentsKey: string := "Segmentos Plagiados"
  const PtAiScoreKey: string := "Pontuação de Geração por IA"
  const PtAiAssessmentKey: string := "Avaliação de IA"
  const PtSuggestionsKey: string := "Sugestões para Humanizar"

  const EnLang: string := "English"
  const EnScoreKey: string := "Plagiarism Score"
  const EnAssessmentKey: string := "Overall Assessment"
  const EnSegmentsKey: string := "Plagiarized Segments"
  const EnAiScoreKey: string := "AI-Generated Score"
  const EnAiAssessmentKey: string := "AI Assessment"
  const EnSuggestionsKey: string := "Humanizing Suggestions"

  const EsLang: string := "Español"
  const EsScoreKey: string := "Puntuación de Plagio"
  const EsAssessmentKey: string := "Evaluación General"
  const EsSegmentsKey: string := "Segmentos Plagiados"
  const EsAiScoreKey: string := "Puntuación de Generación por IA"
  const EsAiAssessmentKey: string := "Evaluación de IA"
  const EsSuggestionsKey: string := "Sugerencias para Humanizar"

  lemma PtScoreKeyPlain()
    ensures PlainLabel(PtScoreKey)
  {
  }

  lemma PtAssessmentKeyPlain()
    ensures PlainLabel(PtAssessmentKey)
  {
  }

  lemma PtSegmentsKeyPlain()
    ensures PlainLabel(PtSegmentsKey)
  {
  }

  lemma PtAiScoreKeyPlain()
    ensures PlainLabel(PtAiScoreKey)
  {
  }

  lemma PtAiAssessmentKeyPlain()
    ensures PlainLabel(PtAiAssessmentKey)
  {
  }

  lemma PtSuggestionsKeyPlain()
    ensures PlainLabel(PtSuggestionsKey)
  {
  }

  lemma EnScoreKeyPlain()
    ensures PlainLabel(EnScoreKey)
  {
  }

  lemma EnAssessmentKeyPlain()
    ensures PlainLabel(EnAssessmentKey)
  {
  }

  lemma EnSegmentsKeyPlain()
    ensures PlainLabel(EnSegmentsKey)
  {
  }

  lemma EnAiScoreKeyPlain()
    ensures PlainLabel(EnAiScoreKey)
  {
  }

  lemma EnAiAssessmentKeyPlain()
    ensures PlainLabel(EnAiAssessmentKey)
  {
  }

  lemma EnSuggestionsKeyPlain()
    ensures PlainLabel(EnSuggestionsKey)
  {
  }

  lemma EsScoreKeyPlain()
    ensures PlainLabel(EsScoreKey)
  {
  }

  lemma EsAssessmentKeyPlain()
    ensures PlainLabel(EsAssessmentKey)
  {
  }

  lemma EsSegmentsKeyPlain()
    ensures PlainLabel(EsSegmentsKey)
  {
  }

  lemma EsAiScoreKeyPlain()
    ensures PlainLabel(EsAiScoreKey)
  {
  }

  lemma EsAiAssessmentKeyPlain()
    ensures PlainLabel(EsAiAssessmentKey)
  {
  }

  lemma EsSuggestionsKeyPlain()
    ensures PlainLabel(EsSuggestionsKey)
  {
  }

  lemma PtLabelsDistinguishable()
    ensures Distinguishable(Labels(PtScoreKey, PtAssessmentKey, PtSegmentsKey, PtAiScoreKey, PtAiAssessmentKey, PtSuggestionsKey))
  {
    PtScoreKeyPlain();
    PtAssessmentKeyPlain();
    PtSegmentsKeyPlain();
    PtAiScoreKeyPlain();
    PtAiAssessmentKeyPlain();
    PtSuggestionsKeyPlain();
    AbsentByLead(PtScoreKey, PtAssessmentKey);
    AbsentByLead(PtAssessmentKey, PtScoreKey);
    AbsentByLead(PtAiScoreKey, PtAiAssessmentKey);
    AbsentByLead(PtAiAssessmentKey, PtAiScoreKey);
  }

  lemma EnLabelsDistinguishable()
    ensures Distinguishable(Labels(EnScoreKey, EnAssessmentKey, EnSegmentsKey, EnAiScoreKey, EnAiAssessmentKey, EnSuggestionsKey))
  {
    EnScoreKeyPlain();
    EnAssessmentKeyPlain();
    EnSegmentsKeyPlain();
    EnAiScoreKeyPlain();
    EnAiAssessmentKeyPlain();
    EnSuggestionsKeyPlain();
    AbsentByLead(EnScoreKey, EnAssessmentKey);
    AbsentByLead(EnAssessmentKey, EnScoreKey);
    AbsentByLead(EnAiScoreKey, EnAiAssessmentKey);
    AbsentByLead(EnAiAssessmentKey, EnAiScoreKey);
  }

  lemma EsLabelsDistinguishable()
    ensures Distinguishable(Labels(EsScoreKey, EsAssessmentKey, EsSegmentsKey, EsAiScoreKey, EsAiAssessmentKey, EsSuggestionsKey))
  {
    EsScoreKeyPlain();
    EsAssessmentKeyPlain();
    EsSegmentsKeyPlain();
    EsAiScoreKeyPlain();
    EsAiAssessmentKeyPlain();
    EsSuggestionsKeyPlain();
    AbsentByLead(EsScoreKey, EsAssessmentKey);
    AbsentByLead(EsAssessmentKey, EsScoreKey);
    AbsentByLead(EsAiScoreKey, EsAiAssessmentKey);
    AbsentByLead(EsAiAssessmentKey, EsAiScoreKey);
  }
}

/**
 * The per-locale label tables and the prompt template that writes the
 * response format. One table feeds both the prompt and the parser: the
 * `ai` record of a locale carries the prompt built from its labels and the
 * same labels, spread.
 */
module Locale {
  import opened Text
  import opened Format
  import opened LabelTable

  datatype Language = Pt | En | Es

  datatype PlagiarismKeys = PlagiarismKeys(scoreKey: string, assessmentKey: string, plagiarizedSegmentsKey: string)

  datatype AiKeys = AiKeys(aiScoreKey: string, aiAssessmentKey: string, humanizingSuggestionsKey: string)

  /** One entry of the configuration table: the language's name and its labels. */
  datatype LocaleConfig = LocaleConfig(lang: string, plagiarismKeys: PlagiarismKeys, aiKeys: AiKeys)

  /** The `ai` record of a locale: its prompt, and its six labels. */
  datatype AiRecord = AiRecord(prompt: string, labels: Labels)

  const PtConfig: LocaleConfig := LocaleConfig(PtLang,
    PlagiarismKeys(PtScoreKey, PtAssessmentKey, PtSegmentsKey),
    AiKeys(PtAiScoreKey, PtAiAssessmentKey, PtSuggestionsKey))

  const EnConfig: LocaleConfig := LocaleConfig(EnLang,
    PlagiarismKeys(EnScoreKey, EnAssessmentKey, EnSegmentsKey),
    AiKeys(EnAiScoreKey, EnAiAssessmentKey, EnSuggestionsKey))

  const EsConfig: LocaleConfig := LocaleConfig(EsLang,
    PlagiarismKeys(EsScoreKey, EsAssessmentKey, EsSegmentsKey),
    AiKeys(EsAiScoreKey, EsAiAssessmentKey, EsSuggestionsKey))

  /** `translationsConfig[l]`. */
  function Config(l: Language): LocaleConfig {
    match l
    case Pt => PtConfig
    case En => EnConfig
    case Es => EsConfig
  }

  /** The object spread `{ ...plagiarismKeys, ...aiKeys }`. */
  function Spread(pk: PlagiarismKeys, ak: AiKeys): Labels {
    Labels(pk.scoreKey, pk.assessmentKey, pk.plagiarizedSegmentsKey, ak.aiScoreKey, ak.aiAssessmentKey, ak.humanizingSuggestionsKey)
  }

  const ScorePlaceholder: string := "[Um número de 0 a 100]"
  const AssessmentPlaceholder: string := "[Um resumo de uma frase]"
  const PlagiarismAnalysisPlaceholder: string := "Análise Detalhada:\n[Siga ESTRITAMENTE estas 4 etapas]"
  const AiAnalysisPlaceholder: string := "Análise Detalhada da IA:\n[Siga ESTRITAMENTE estas 3 etapas]"

  /** The placeholders the template puts where the model is to write each field. */
  function PromptFields(): Fields {
    Fields(
      ScorePlaceholder, AssessmentPlaceholder, PlagiarismAnalysisPlaceholder,
      ["[segmento 1 exato do texto do usuário]", "[outro segmento exato]", "[e assim por diante]"],
      ScorePlaceholder, AssessmentPlaceholder, AiAnalysisPlaceholder,
      ["[sugestão 1]", "[sugestão 2]", "[sugestão 3]"])
  }

  /** The opening line up to the language name, which the template interpolates. */
  const LanguageDirective: string := "\nVocê DEVE responder INTEIRAMENTE no idioma: "
  /** The rest of the introduction, down to the first block (the instructions themselves are not modelled). */
  const PlagiarismTask: string := ".\n\n--- INÍCIO DAS INSTRUÇÕES ---\n\n**TAREFA 1.A: ANÁLISE DE PLÁGIO (CRÍTICA)**\n    \n"
  const SegmentsTask: string := "\n\n**TAREFA 1.B: EXTRAÇÃO DE SEGMENTOS (OBRIGATÓRIO)**\n\n"
  const AiTask: string := "\n\n**TAREFA 2: ANÁLISE DE CONTEÚDO GERADO POR IA**\n\n"
  const SuggestionsTask: string := "\n\n**TAREFA 3: SUGESTÕES DE HUMANIZAÇÃO (Se Score de IA > 50)**\n\n"
  const Closing: string := "\n\n--- FIM DAS INSTRUÇÕES ---\n\nAgora, analise o seguinte texto:\n---\n"

  /** The text around the blocks; only the language name varies. */
  function PromptGaps(lang: string): Gaps {
    Gaps(LanguageDirective + lang + PlagiarismTask, SegmentsTask, AiTask, SuggestionsTask, Closing)
  }

  /** `createPrompt(lang, plagiarismKeys, aiKeys)`: the one template shared by every locale. */
  function CreatePrompt(lang: string, pk: PlagiarismKeys, ak: AiKeys): string {
    Flatten(Skeleton(Spread(pk, ak), PromptFields(), PromptGaps(lang)))
  }

  /** The `ai` record built from a configuration entry: `{ prompt: createPrompt(...), ...plagiarismKeys, ...aiKeys }`. */
  function MakeAi(c: LocaleConfig): AiRecord {
    AiRecord(CreatePrompt(c.lang, c.plagiarismKeys, c.aiKeys), Spread(c.plagiarismKeys, c.aiKeys))
  }

  /** `translations[l].ai`. */
  function Ai(l: Language): AiRecord {
    MakeAi(Config(l))
  }

  /** The pieces of the prompt written for a configuration entry. */
  function PromptPieces(c: LocaleConfig): seq<Piece> {
    Skeleton(Spread(c.plagiarismKeys, c.aiKeys), PromptFields(), PromptGaps(c.lang))
  }
}

/** What the locale tables and the prompt template guarantee. */
module LocaleFacts {
  import opened Text
  import opened Format
  import opened LabelTable
  import opened Locale

  /**
   * The six labels of an `ai` record are its configuration entry's labels,
   * and its prompt is written with exactly those labels. Every locale's
   * record, `Ai(l)`, is `MakeAi(Config(l))`.
   */
  lemma LabelCoupling(c: LocaleConfig)
    ensures MakeAi(c).labels.scoreKey == c.plagiarismKeys.scoreKey
    ensures MakeAi(c).labels.assessmentKey == c.plagiarismKeys.assessmentKey
    ensures MakeAi(c).labels.plagiarizedSegmentsKey == c.plagiarismKeys.plagiarizedSegmentsKey
    ensures MakeAi(c).labels.aiScoreKey == c.aiKeys.aiScoreKey
    ensures MakeAi(c).labels.aiAssessmentKey == c.aiKeys.aiAssessmentKey
    ensures MakeAi(c).labels.humanizingSuggestionsKey == c.aiKeys.humanizingSuggestionsKey
    ensures MakeAi(c).prompt == Flatten(PromptPieces(c))
  {
  }

  /**
   * Every locale's labels match literally, fit on one line, are pairwise
   * distinct, and neither label of a block occurs inside the other.
   */
  lemma LabelsDistinguishable(l: Language)
    ensures Distinguishable(Ai(l).labels)
  {
    match l
    case Pt => PtLabelsDistinguishable();
    case En => EnLabelsDistinguishable();
    case Es => EsLabelsDistinguishable();
  }

  /**
   * The prompt shows each block's start marker followed by the very lines,
   * with the very labels, that the parser looks for.
   */
  lemma PromptPlacesLabels(c: LocaleConfig)
    ensures var k := MakeAi(c).labels;
      && Contains(MakeAi(c).prompt, PlagiarismStart + ScoredHead(k.scoreKey, k.assessmentKey, ScorePlaceholder, AssessmentPlaceholder))
      && Contains(MakeAi(c).prompt, SegmentsStart + ListHead(k.plagiarizedSegmentsKey))
      && Contains(MakeAi(c).prompt, AiStart + ScoredHead(k.aiScoreKey, k.aiAssessmentKey, ScorePlaceholder, AssessmentPlaceholder))
      && Contains(MakeAi(c).prompt, SuggestionsStart + ListHead(k.humanizingSuggestionsKey))
  {
    SkeletonPlacesLabels(Spread(c.plagiarismKeys, c.aiKeys), PromptFields(), PromptGaps(c.lang));
  }

  /** Text that opens with a piece naming `name` contains `name`. */
  lemma LeadNames(ps: seq<Piece>, d: string, name: string, t: string)
    requires ps != [] && ps[0] == Free(d + name + t)
    ensures Contains(Flatten(ps), name)
  {
    var text, lead := Flatten(ps), d + name + t;
    PieceAt(ps, 0);
    assert ps[..0] == [];
    assert Occurs(name, name, 0);
    OccursInPrefix(name, t, name, 0);
    OccursInSuffix(d, name + t, name, 0);
    assert lead == d + (name + t);
    OccursInSlice(text, 0, |lead|, name, |d|);
    assert Occurs(text, name, |d|);
  }

  /** The prompt names the language the reply must be written in. */
  lemma PromptNamesLanguage(c: LocaleConfig)
    ensures Contains(MakeAi(c).prompt, c.lang)
  {
    LeadNames(PromptPieces(c), LanguageDirective, c.lang, PlagiarismTask);
  }
}

=== FILE: markdown.dfy ===
/**
 * The analysis text renderer: the text is split with `/(\*\*.*?\*\*)/g`
 * and every part that starts and ends with `**` is shown in bold with
 * two characters cut from each end (`slice(2, -2)`); every other part is
 * shown as it is.
 */
module Markdown {
  import opened Wrappers
  import opened Text
  import RegexSplit

  const Delimiter: string := "**"

  /**
   * The lazy `.*?\*\*` after an opening `**`: extend one character at a
   * time, trying the closing `**` first and refusing line terminators.
   * Gives the position just after the closing delimiter.
   */
  function CloseFrom(s: string, j: nat): Option<nat>
    decreases |s| - j
  {
    if j + 2 > |s| then None
    else if s[j] == '*' && s[j + 1] == '*' then Some(j + 2)
    else if IsLineTerminator(s[j]) then None
    else CloseFrom(s, j + 1)
  }

  /** The sticky match of `\*\*.*?\*\*` at position `q`, as the end of the match. */
  function BoldAt(s: string): nat -> Option<nat> {
    (q: nat) => if q + 2 <= |s| && s[q] == '*' && s[q + 1] == '*' then CloseFrom(s, q + 2) else None
  }

  /**
   * `s[q..e]` is what the pattern matches at `q`: `**`, then text on one
   * line, then the FIRST `**` after the opening one.
   */
  predicate IsBold(s: string, q: nat, e: nat) {
    && q + 4 <= e <= |s|
    && Occurs(s, Delimiter, q) && Occurs(s, Delimiter, e - 2)
    && NoLineTerminator(s[q + 2..e - 2])
    && forall j | q + 2 <= j < e - 2 :: !Occurs(s, Delimiter, j)
  }

  /** What the lazy scan from `j` finds, stated without the scan. */
  lemma {:induction false} CloseFromFinds(s: string, j: nat, e: nat)
    ensures CloseFrom(s, j) == Some(e) <==>
      && j + 2 <= e <= |s| && Occurs(s, Delimiter, e - 2)
      && (forall k | j <= k < e - 2 :: !Occurs(s, Delimiter, k) && !IsLineTerminator(s[k]))
    decreases |s| - j
  {
    if j + 2 <= |s| && !(s[j] == '*' && s[j + 1] == '*') {
      assert !Occurs(s, Delimiter, j);
      if !IsLineTerminator(s[j]) {
        CloseFromFinds(s, j + 1, e);
      }
    }
    if j + 2 <= |s| && s[j] == '*' && s[j + 1] == '*' {
      assert Occurs(s, Delimiter, j);
    }
  }

  /** The matcher finds exactly the bold spans. */
  lemma BoldCharacterized(s: string, q: nat, e: nat)
    ensures BoldAt(s)(q) == Some(e) <==> IsBold(s, q, e)
  {
    if q + 2 <= |s| && s[q] == '*' && s[q + 1] == '*' {
      CloseFromFinds(s, q + 2, e);
      assert Occurs(s, Delimiter, q);
      if IsBold(s, q, e) {
        forall k | q + 2 <= k < e - 2 ensures !IsLineTerminator(s[k]) {
          assert s[k] == s[q + 2..e - 2][k - (q + 2)];
        }
      }
      if BoldAt(s)(q) == Some(e) {
        var inner := s[q + 2..e - 2];
        forall k | 0 <= k < |inner| ensures !IsLineTerminator(inner[k]) {
          assert inner[k] == s[q + 2 + k];
        }
      }
    } else {
      assert !Occurs(s, Delimiter, q);
    }
  }

  /** The bold pattern never matches the empty string and stays inside the text. */
  lemma BoldIsMatcher(s: string)
    ensures RegexSplit.IsMatcher(s, BoldAt(s))
  {
    forall i: nat | i < |s| && BoldAt(s)(i).Some?
      ensures i < BoldAt(s)(i).value <= |s|
    {
      BoldCharacterized(s, i, BoldAt(s)(i).value);
    }
  }

  /** `text.split(/(\*\*.*?\*\*)/g)`. */
  function Parts(text: string): seq<string> {
    RegexSplit.Split(text, BoldAt(text))
  }

  /** `s.slice(start, end)`: negative bounds count from the end; crossed bounds give "". */
  function JsSlice(s: string, start: int, end: int): string {
    var from := if start < 0 then if |s| + start < 0 then 0 else |s| + start
                else if start > |s| then |s| else start;
    var to := if end < 0 then if |s| + end < 0 then 0 else |s| + end
              else if end > |s| then |s| else end;
    if from < to then s[from..to] else []
  }

  /** `slice(2, -2)` drops two characters from each end, and is empty below four characters. */
  lemma SliceInner(s: string)
    ensures |s| >= 4 ==> JsSlice(s, 2, -2) == s[2..|s| - 2]
    ensures |s| < 4 ==> JsSlice(s, 2, -2) == []
  {
  }

  datatype Node = Plain(text: string) | Strong(text: string)

  /** How one part is shown. */
  function RenderPart(part: string): Node {
    if StartsWith(part, Delimiter) && EndsWith(part, Delimiter) then Strong(JsSlice(part, 2, -2))
    else Plain(part)
  }

  function RenderAll(parts: seq<string>): (r: seq<Node>)
    ensures |r| == |parts|
    ensures forall k | 0 <= k < |parts| :: r[k] == RenderPart(parts[k])
  {
    if parts == [] then [] else [RenderPart(parts[0])] + RenderAll(parts[1..])
  }

  /** The rendered analysis text, one node per part. */
  function Render(text: string): seq<Node> {
    RenderAll(Parts(text))
  }

  /**
   * Each odd part is a bold span found where it sits in the text and is
   * shown in bold without its delimiters; the text inside is on one line
   * and holds no earlier closing `**`.
   */
  lemma BoldSpansRendered(text: string, k: nat)
    requires k < |Parts(text)| && k % 2 == 1
    ensures var part := Parts(text)[k];
      var i := RegexSplit.Offset(Parts(text), k);
      && IsBold(text, i, i + |part|) && text[i..i + |part|] == part
      && |part| >= 4 && part == Delimiter + part[2..|part| - 2] + Delimiter
      && NoLineTerminator(part[2..|part| - 2])
      && Render(text)[k] == Strong(part[2..|part| - 2])
  {
    var parts := Parts(text);
    var i := RegexSplit.Offset(parts, k);
    OddPartIsBold(text, k);
    BoldShape(text, i, parts[k]);
    assert Render(text)[k] == RenderPart(parts[k]);
  }

  /** An odd part is the bold span at its offset. */
  lemma OddPartIsBold(text: string, k: nat)
    requires k < |Parts(text)| && k % 2 == 1
    ensures var parts := Parts(text); var i := RegexSplit.Offset(parts, k);
      IsBold(text, i, i + |parts[k]|) && text[i..i + |parts[k]|] == parts[k]
  {
    var parts := Parts(text);
    BoldIsMatcher(text);
    RegexSplit.SplitParts(text, BoldAt(text), k);
    var i := RegexSplit.Offset(parts, k);
    BoldCharacterized(text, i, i + |parts[k]|);
  }

  /** A bold span is `**`, one line of text, `**`, and renders as that text in bold. */
  lemma BoldShape(text: string, i: nat, part: string)
    requires IsBold(text, i, i + |part|) && text[i..i + |part|] == part
    ensures |part| >= 4 && part == Delimiter + part[2..|part| - 2] + Delimiter
    ensures NoLineTerminator(part[2..|part| - 2])
    ensures RenderPart(part) == Strong(part[2..|part| - 2])
  {
    var e := i + |part|;
    var inner := part[2..|part| - 2];
    forall k | 0 <= k < |inner| ensures inner[k] == text[i + 2 + k] {
      assert inner[k] == part[k + 2];
    }
    assert inner == text[i + 2..e - 2];
    assert part[..2] == text[i..i + 2] == Delimiter;
    assert part[|part| - 2..] == text[e - 2..e] == Delimiter;
    assert part == part[..2] + inner + part[|part| - 2..];
    SliceInner(part);
  }

  /**
   * No bold span opens inside an even part; it is shown as it is unless
   * it happens to start and end with `**` itself.
   */
  lemma GapsRendered(text: string, k: nat)
    requires k < |Parts(text)| && k % 2 == 0
    ensures var part := Parts(text)[k];
      var i := RegexSplit.Offset(Parts(text), k);
      && i + |part| <= |text| && text[i..i + |part|] == part
      && (forall q, e | i <= q < i + |part| :: !IsBold(text, q, e))
      && (!(StartsWith(part, Delimiter) && EndsWith(part, Delimiter)) ==> Render(text)[k] == Plain(part))
  {
    var parts := Parts(text);
    BoldIsMatcher(text);
    RegexSplit.SplitParts(text, BoldAt(text), k);
    var i := RegexSplit.Offset(parts, k);
    forall q, e | i <= q < i + |parts[k]| ensures !IsBold(text, q, e) {
      BoldCharacterized(text, q, e);
    }
  }

  /** Rendering loses no text: the parts reassemble the analysis. */
  lemma PartsCover(text: string)
    ensures RegexSplit.Concat(Parts(text)) == text
    ensures |Parts(text)| % 2 == 1
  {
    BoldIsMatcher(text);
    RegexSplit.SplitConcat(text, BoldAt(text));
    RegexSplit.SplitTiles(text, BoldAt(text), 0, 0);
  }

  /** A text without `**` is one plain part. */
  lemma NoDelimiterPlain(text: string)
    requires Absent(text, Delimiter)
    ensures Render(text) == [Plain(text)]
  {
    BoldIsMatcher(text);
    forall q: nat | q < |text| ensures BoldAt(text)(q).None? {
      assert !Occurs(text, Delimiter, q);
      if BoldAt(text)(q).Some? {
        BoldCharacterized(text, q, BoldAt(text)(q).value);
      }
    }
    assert RegexSplit.Tiles(text, BoldAt(text), [text], 0);
    RegexSplit.SplitCharacterized(text, BoldAt(text), [text]);
    assert !StartsWith(text, Delimiter);
  }

  /**
   * The renderer decides boldness by the part's shape, not by whether the
   * pattern matched it: a `**` pair spanning a line break is not a match,
   * yet the whole text, being one part that starts and ends with `**`, is
   * still shown in bold.
   */
  lemma LineBreakStillBold()
    ensures Render("**a\nb**") == [Strong("a\nb")]
  {
    var s := "**a\nb**";
    assert NoLineTerminator("a") && IsLineTerminator(s[3]);
    forall q: nat, e | q < |s| ensures !IsBold(s, q, e) {
    }
    forall q: nat | q < |s| ensures BoldAt(s)(q).None? {
      if BoldAt(s)(q).Some? {
        BoldCharacterized(s, q, BoldAt(s)(q).value);
      }
    }
    assert RegexSplit.Tiles(s, BoldAt(s), [s], 0);
    RegexSplit.SplitCharacterized(s, BoldAt(s), [s]);
    SliceInner(s);
    assert s[2..|s| - 2] == "a\nb";
  }
}

=== FILE: regexsplit.dfy ===
/**
 * `String.prototype.split` with a regular expression whose whole pattern
 * is one capturing group, as in `text.split(/(…)/g)`. The algorithm scans
 * positions left to right, asking the pattern for a match that starts
 * exactly there (a sticky match); at a match it emits the text since the
 * last match, then the captured match, and resumes after it. The pattern
 * is abstracted as a matcher: for each position, where the match starting
 * there ends, if there is one. Both patterns this is used with never
 * match the empty string.
 */
module RegexSplit {
  import opened Wrappers

  /** A sticky matcher over `s`: matches are non-empty and end inside `s`. */
  predicate IsMatcher(s: string, m: nat -> Option<nat>) {
    forall i: nat | i < |s| :: m(i).Some? ==> i < m(i).value <= |s|
  }

  /** No match starts at a position in `[a, b)`. */
  predicate NoMatchIn(m: nat -> Option<nat>, a: nat, b: nat) {
    forall j: nat | a <= j < b :: m(j).None?
  }

  /**
   * The split loop with the last match ending at `p` and the scan at `q`.
   * A match that is empty or overruns the text is skipped; a matcher never
   * reports one (`IsMatcher`).
   */
  function SplitFrom(s: string, m: nat -> Option<nat>, p: nat, q: nat): seq<string>
    requires p <= q <= |s|
    decreases |s| - q
  {
    if q == |s| then [s[p..]]
    else
      match m(q)
      case Some(e) =>
        if q < e <= |s| then [s[p..q], s[q..e]] + SplitFrom(s, m, e, e)
        else SplitFrom(s, m, p, q + 1)
      case None => SplitFrom(s, m, p, q + 1)
  }

  /** `s.split(regex)`: gaps and captured matches, alternating. */
  function Split(s: string, m: nat -> Option<nat>): seq<string> {
    SplitFrom(s, m, 0, 0)
  }

  /**
   * `parts` tiles `s[p..]` as a leftmost, non-overlapping scan would: a gap
   * in which no match starts, the match that starts right after it, and
   * so on, ending with a gap that runs to the end of `s`.
   */
  predicate Tiles(s: string, m: nat -> Option<nat>, parts: seq<string>, p: nat)
    decreases |parts|
  {
    && p <= |s| && |parts| % 2 == 1
    && if |parts| == 1 then parts[0] == s[p..] && NoMatchIn(m, p, |s|)
       else
         var q := p + |parts[0]|;
         var e := q + |parts[1]|;
         && e <= |s| && q < |s|
         && s[p..q] == parts[0] && NoMatchIn(m, p, q)
         && m(q) == Some(e) && s[q..e] == parts[1]
         && Tiles(s, m, parts[2..], e)
  }

  /** The split loop produces a tiling of the text after the last match. */
  lemma {:induction false} SplitTiles(s: string, m: nat -> Option<nat>, p: nat, q: nat)
    requires IsMatcher(s, m) && p <= q <= |s| && NoMatchIn(m, p, q)
    ensures Tiles(s, m, SplitFrom(s, m, p, q), p)
    decreases |s| - q
  {
    if q < |s| {
      match m(q)
      case None =>
        SplitTiles(s, m, p, q + 1);
      case Some(e) =>
        SplitTiles(s, m, e, e);
        var parts := SplitFrom(s, m, p, q);
        assert parts[2..] == SplitFrom(s, m, e, e);
    }
  }

  /** At most one list of parts tiles a text: the first match is where every tiling must stop. */
  lemma {:induction false} TilesUnique(s: string, m: nat -> Option<nat>, a: seq<string>, b: seq<string>, p: nat)
    requires Tiles(s, m, a, p) && Tiles(s, m, b, p)
    ensures a == b
    decreases |a|
  {
    if |a| > 1 && |b| > 1 {
      var qa := p + |a[0]|;
      var qb := p + |b[0]|;
      assert m(qa).Some? && m(qb).Some?;
      assert !(qa < qb) && !(qb < qa);
      assert a[0] == s[p..qa] == b[0];
      assert a[1] == b[1];
      TilesUnique(s, m, a[2..], b[2..], qa + |a[1]|);
      assert a == a[..2] + a[2..] && b == b[..2] + b[2..];
    }
  }

  /** The parts of a split are exactly the tiling of the whole text. */
  lemma SplitCharacterized(s: string, m: nat -> Option<nat>, parts: seq<string>)
    requires IsMatcher(s, m)
    ensures Tiles(s, m, parts, 0) <==> parts == Split(s, m)
  {
    SplitTiles(s, m, 0, 0);
    if Tiles(s, m, parts, 0) {
      TilesUnique(s, m, parts, Split(s, m), 0);
    }
  }

  /** The parts glued back together. */
  function Concat(parts: seq<string>): string {
    if parts == [] then [] else parts[0] + Concat(parts[1..])
  }

  /** A tiling reassembles the text it tiles. */
  lemma {:induction false} TilesConcat(s: string, m: nat -> Option<nat>, parts: seq<string>, p: nat)
    requires Tiles(s, m, parts, p)
    ensures Concat(parts) == s[p..]
    decreases |parts|
  {
    if |parts| > 1 {
      var q := p + |parts[0]|;
      var e := q + |parts[1]|;
      TilesConcat(s, m, parts[2..], e);
      assert Concat(parts) == parts[0] + (parts[1] + Concat(parts[2..]));
      assert s[p..] == s[p..q] + s[q..e] + s[e..];
    }
  }

  /** Splitting loses nothing: the parts concatenate to the text. */
  lemma SplitConcat(s: string, m: nat -> Option<nat>)
    requires IsMatcher(s, m)
    ensures Concat(Split(s, m)) == s
  {
    SplitTiles(s, m, 0, 0);
    TilesConcat(s, m, Split(s, m), 0);
  }

  /** Where part `k` starts, counted from the start of the first part. */
  function Offset(parts: seq<string>, k: nat): nat
    requires k <= |parts|
  {
    if k == 0 then 0 else |parts[0]| + Offset(parts[1..], k - 1)
  }

  /**
   * Each part sits at its offset in the text; an odd part is the match
   * found there, and no match starts inside an even part.
   */
  lemma {:induction false} PartAt(s: string, m: nat -> Option<nat>, parts: seq<string>, p: nat, k: nat)
    requires Tiles(s, m, parts, p) && k < |parts|
    ensures var i := p + Offset(parts, k);
      && i + |parts[k]| <= |s| && s[i..i + |parts[k]|] == parts[k]
      && (k % 2 == 1 ==> m(i) == Some(i + |parts[k]|))
      && (k % 2 == 0 ==> NoMatchIn(m, i, i + |parts[k]|))
    decreases |parts|
  {
    if k >= 2 {
      var e := p + |parts[0]| + |parts[1]|;
      PartAt(s, m, parts[2..], e, k - 2);
      assert parts[1..][1..] == parts[2..];
      assert Offset(parts, k) == |parts[0]| + |parts[1]| + Offset(parts[2..], k - 2);
    }
  }

  /** Every odd part of a split is a match at its offset; no match starts inside an even part. */
  lemma SplitParts(s: string, m: nat -> Option<nat>, k: nat)
    requires IsMatcher(s, m) && k < |Split(s, m)|
    ensures var parts := Split(s, m); var i := Offset(parts, k);
      && i + |parts[k]| <= |s| && s[i..i + |parts[k]|] == parts[k]
      && (k % 2 == 1 ==> m(i) == Some(i + |parts[k]|))
      && (k % 2 == 0 ==> NoMatchIn(m, i, i + |parts[k]|))
  {
    SplitTiles(s, m, 0, 0);
    PartAt(s, m, Split(s, m), 0, k);
  }
}

=== FILE: response.dfy ===
/**
 * The response parser of `runAnalysis`: once the model's reply `fullText`
 * is in hand, four blocks are cut out of it by their markers and the
 * fields are read from their `<label>: ` lines. Every field that cannot be
 * found falls back to a fixed default, so decoding is total.
 *
 * The regular expressions `<label>: (\d+)` and `<label>: (.*)` are modelled
 * as a literal search for `<label>: ` followed by a greedy digit run or by
 * the rest of the line; this is what they do for labels without regular
 * expression metacharacters, which every locale's labels are.
 */
module Response {
  import opened Wrappers
  import opened Text
  import opened Decimal
  import opened Format

  /** What an assessment reads when its label is missing. */
  const AssessmentFailed: string := "error.assessmentFailed"

  datatype PlagiarismResult = PlagiarismResult(
    score: nat, assessment: string, analysis: string, plagiarizedSegments: seq<string>)

  /** `suggestions` is an optional field: `None` when no suggestion was found. */
  datatype AiResult = AiResult(
    score: nat, assessment: string, analysis: string, suggestions: Option<seq<string>>)

  datatype Report = Report(plagiarismResult: PlagiarismResult, aiResult: AiResult)

  /**
   * `text.split(end)[0].split(start)[1] || ''`: the text after the first
   * start marker, cut at the first end marker of the whole text and at any
   * later start marker. Empty when no start marker precedes the first end
   * marker; a missing end marker lets the section run on.
   */
  function Section(text: string, start: string, end: string): (r: string)
    requires start != [] && end != []
    ensures Absent(r, start)
    ensures Absent(Before(text, end), start) ==> r == []
  {
    SectionOf(Before(text, end), start)
  }

  /** `pre.split(start)[1] || ''`. */
  function SectionOf(pre: string, start: string): (r: string)
    requires start != []
    ensures Absent(r, start)
    ensures Absent(pre, start) ==> r == []
  {
    match Find(pre, start)
    case None => []
    case Some(i) => Before(pre[i + |start|..], start)
  }

  /** A piece cut out of the prefix before `end` sits in the text and lacks `end`. */
  lemma SectionInPlace(text: string, pre: string, start: string, end: string, j: nat, r: string)
    requires end != [] && pre == Before(text, end)
    requires start != [] && j <= |pre| && r == Before(pre[j..], start)
    ensures Occurs(text, r, j) && Absent(r, end)
    ensures j + |r| == |pre| || Occurs(text, start, j + |r|)
  {
    var t := pre[j..|pre|];
    assert pre == text[0..|pre|] && r == t[0..|r|];
    OccursInSlice(pre, j, |pre|, r, 0);
    OccursInSlice(text, 0, |pre|, r, j);
    if r != t {
      OccursInSlice(pre, j, |pre|, start, |r|);
      OccursInSlice(text, 0, |pre|, start, j + |r|);
    }
    AbsentInSlice(pre, j, |pre|, end);
    AbsentInSlice(t, 0, |r|, end);
  }

  /**
   * With the first start marker before the end marker at `i`, the section
   * runs from just after it up to the next start marker, or to the end
   * marker; it sits there in the text.
   */
  lemma SectionAt(text: string, start: string, end: string, i: nat)
    requires start != [] && end != [] && IsFirst(Before(text, end), start, i)
    ensures Section(text, start, end) == Before(Before(text, end)[i + |start|..], start)
    ensures var r := Section(text, start, end);
      && Occurs(text, r, i + |start|) && Absent(r, end)
      && (i + |start| + |r| == |Before(text, end)| || Occurs(text, start, i + |start| + |r|))
  {
    SectionFacts(text, start, end, Before(text, end), i, Before(Before(text, end)[i + |start|..], start));
  }

  lemma SectionFacts(text: string, start: string, end: string, pre: string, i: nat, r: string)
    requires start != [] && end != [] && pre == Before(text, end) && IsFirst(pre, start, i)
    requires r == Before(pre[i + |start|..], start)
    ensures Section(text, start, end) == r
    ensures Occurs(text, r, i + |start|) && Absent(r, end)
    ensures i + |start| + |r| == |pre| || Occurs(text, start, i + |start| + |r|)
  {
    SectionIs(text, start, end, pre, i);
    SectionInPlace(text, pre, start, end, i + |start|, r);
  }

  lemma SectionIs(text: string, start: string, end: string, pre: string, i: nat)
    requires start != [] && end != [] && pre == Before(text, end) && IsFirst(pre, start, i)
    ensures Section(text, start, end) == Before(pre[i + |start|..], start)
  {
    SectionOfAt(pre, start, i);
  }

  lemma SectionOfAt(pre: string, start: string, i: nat)
    requires start != [] && IsFirst(pre, start, i)
    ensures SectionOf(pre, start) == Before(pre[i + |start|..], start)
  {
    FindIsFirst(pre, start, i);
    SectionOfFound(pre, start, i);
  }

  lemma SectionOfFound(pre: string, start: string, i: nat)
    requires start != [] && Find(pre, start) == Some(i)
    ensures SectionOf(pre, start) == Before(pre[i + |start|..], start)
  {
  }

  /** A section never contains the end marker. */
  lemma SectionLacksEnd(text: string, start: string, end: string)
    requires start != [] && end != []
    ensures Absent(Section(text, start, end), end)
  {
    var pre := Before(text, end);
    match Find(pre, start)
    case None =>
    case Some(i) => SectionAt(text, start, end, i);
  }

  /** `key: ` starts at `i` and a digit follows: where `key: (\d+)` can match. */
  predicate ScoreMatchAt(s: string, key: string, i: int) {
    Occurs(s, key + ": ", i) && i + |key| + 2 < |s| && IsDigit(s[i + |key| + 2])
  }

  /** The leftmost place at or after `from` where `key: (\d+)` matches. */
  function FirstScoreMatch(s: string, key: string, from: nat): (r: Option<nat>)
    ensures r.Some? ==> from <= r.value && ScoreMatchAt(s, key, r.value)
    ensures r.Some? ==> forall j | from <= j < r.value :: !ScoreMatchAt(s, key, j)
    ensures r.None? ==> forall j | from <= j :: !ScoreMatchAt(s, key, j)
    decreases |s| - from
  {
    if from >= |s| then None
    else if ScoreMatchAt(s, key, from) then Some(from)
    else FirstScoreMatch(s, key, from + 1)
  }

  /**
   * `parseInt` of the digits captured by the leftmost match of
   * `key: (\d+)`, or 0 without a match.
   */
  function ScoreOf(section: string, key: string): (r: nat)
    ensures (forall j :: !ScoreMatchAt(section, key, j)) ==> r == 0
    ensures forall i | ScoreMatchAt(section, key, i) && (forall j | 0 <= j < i :: !ScoreMatchAt(section, key, j)) ::
      r == Value(DigitRun(section[i + |key| + 2..]))
  {
    match FirstScoreMatch(section, key, 0)
    case None => 0
    case Some(i) => Value(DigitRun(section[i + |key| + 2..]))
  }

  /**
   * The trimmed rest of the line after the first `key: `, or the
   * `error.assessmentFailed` sentinel without one.
   */
  function AssessmentOf(section: string, key: string): (r: string)
    ensures Absent(section, key + ": ") ==> r == AssessmentFailed
    ensures NoLineTerminator(r)
  {
    match After(section, key + ": ")
    case None => AssessmentFailed
    case Some(rest) =>
      TrimKeepsLine(RestOfLine(rest));
      Trim(RestOfLine(rest))
  }

  /** With `key: ` first at `i`, the assessment is the trimmed rest of that line. */
  lemma AssessmentAt(section: string, key: string, i: nat)
    requires IsFirst(section, key + ": ", i)
    ensures AssessmentOf(section, key) == Trim(RestOfLine(section[i + |key| + 2..]))
    ensures Trimmed(AssessmentOf(section, key))
  {
    assert After(section, key + ": ") == Some(section[i + |key| + 2..]);
  }

  /**
   * The trimmed text between the first and second `---`, or to the end of
   * the section; the whole section, untrimmed, when it holds no `---`.
   */
  function AnalysisOf(section: string): (r: string)
    ensures Absent(section, Rule) ==> r == section
    ensures !Absent(section, Rule) ==> Trimmed(r) && Absent(r, Rule)
  {
    match After(section, Rule)
    case None => section
    case Some(rest) =>
      TrimKeepsAbsent(Before(rest, Rule), Rule);
      Trim(Before(rest, Rule))
  }

  /** With the first `---` at `i`, the analysis is the trimmed text up to the next `---`. */
  lemma AnalysisAt(section: string, i: nat)
    requires IsFirst(section, Rule, i)
    ensures AnalysisOf(section) == Trim(Before(section[i + |Rule|..], Rule))
  {
    assert After(section, Rule) == Some(section[i + |Rule|..]);
  }

  /** The analysis is what `split('---')` puts second, trimmed, or the whole section. */
  lemma AnalysisBySplit(section: string)
    ensures var parts := Split(section, Rule);
      AnalysisOf(section) == if |parts| > 1 then Trim(parts[1]) else section
  {
    SplitSecond(section, Rule);
    match Find(section, Rule)
    case None =>
    case Some(i) => AnalysisAt(section, i);
  }

  /** `.map(s => s.trim()).filter(Boolean)`: trimmed pieces, empty ones dropped. */
  function Clean(xs: seq<string>): (r: seq<string>)
    ensures |r| <= |xs|
    ensures forall k | 0 <= k < |r| :: r[k] != [] && Trimmed(r[k])
  {
    if xs == [] then []
    else
      var t := Trim(xs[0]);
      (if t == [] then [] else [t]) + Clean(xs[1..])
  }

  /** Cleaning keeps the order: it distributes over concatenation. */
  lemma {:induction false} CleanAppend(a: seq<string>, b: seq<string>)
    ensures Clean(a + b) == Clean(a) + Clean(b)
    decreases |a|
  {
    if a != [] {
      var t := Trim(a[0]);
      var head: seq<string> := if t == [] then [] else [t];
      assert (a + b)[0] == a[0];
      assert (a + b)[1..] == a[1..] + b;
      CleanAppend(a[1..], b);
      assert Clean(a + b) == head + Clean(a[1..] + b);
      assert Clean(a) == head + Clean(a[1..]);
      assert head + (Clean(a[1..]) + Clean(b)) == (head + Clean(a[1..])) + Clean(b);
    } else {
      assert a + b == b;
    }
  }

  /** Items already trimmed and non-empty pass through cleaning unchanged. */
  lemma {:induction false} CleanOfClean(xs: seq<string>)
    requires forall k | 0 <= k < |xs| :: xs[k] != [] && Trimmed(xs[k])
    ensures Clean(xs) == xs
    decreases |xs|
  {
    if xs != [] {
      TrimOfTrimmed(xs[0]);
      CleanOfClean(xs[1..]);
      assert xs == [xs[0]] + xs[1..];
    }
  }

  /** A cleaned item lacks line terminators and `|||` when every piece does. */
  lemma {:induction false} CleanKeeps(xs: seq<string>)
    requires forall j | 0 <= j < |xs| :: NoLineTerminator(xs[j]) && Absent(xs[j], ItemSeparator)
    ensures forall k | 0 <= k < |Clean(xs)| :: NoLineTerminator(Clean(xs)[k]) && Absent(Clean(xs)[k], ItemSeparator)
    decreases |xs|
  {
    if xs != [] {
      var t := Trim(xs[0]);
      TrimKeepsLine(xs[0]);
      TrimKeepsAbsent(xs[0], ItemSeparator);
      CleanKeeps(xs[1..]);
      var head: seq<string> := if t == [] then [] else [t];
      assert Clean(xs) == head + Clean(xs[1..]);
      forall k | 0 <= k < |Clean(xs)|
        ensures NoLineTerminator(Clean(xs)[k]) && Absent(Clean(xs)[k], ItemSeparator)
      {
        if k < |head| {
          assert Clean(xs)[k] == t;
        } else {
          assert Clean(xs)[k] == Clean(xs[1..])[k - |head|];
        }
      }
    }
  }

  /** The items of one list line: split on `|||`, trimmed, empty ones dropped. */
  function ItemsOf(line: string): (r: seq<string>)
    ensures forall k | 0 <= k < |r| :: r[k] != [] && Trimmed(r[k])
  {
    Clean(Split(line, ItemSeparator))
  }

  /** Items read from one line hold no line terminator and no `|||`. */
  lemma ItemsPlain(line: string)
    requires NoLineTerminator(line)
    ensures forall k | 0 <= k < |ItemsOf(line)| :: NoLineTerminator(ItemsOf(line)[k]) && Absent(ItemsOf(line)[k], ItemSeparator)
  {
    var parts := Split(line, ItemSeparator);
    forall j | 0 <= j < |parts| ensures NoLineTerminator(parts[j]) {
      JoinedPieceKeepsLine(parts, ItemSeparator, j);
    }
    CleanKeeps(parts);
  }

  /** A piece of a joined text has no line terminator when the text has none. */
  lemma {:induction false} JoinedPieceKeepsLine(xs: seq<string>, d: string, j: nat)
    requires j < |xs| && NoLineTerminator(Join(xs, d))
    ensures NoLineTerminator(xs[j])
    decreases |xs|
  {
    if |xs| > 1 {
      var u := Join(xs, d);
      assert u == xs[0] + d + Join(xs[1..], d);
      if j == 0 {
        forall k | 0 <= k < |xs[0]| ensures !IsLineTerminator(xs[0][k]) {
          assert xs[0][k] == u[k];
        }
      } else {
        forall k | 0 <= k < |Join(xs[1..], d)| ensures !IsLineTerminator(Join(xs[1..], d)[k]) {
          assert Join(xs[1..], d)[k] == u[|xs[0]| + |d| + k];
        }
        JoinedPieceKeepsLine(xs[1..], d, j - 1);
      }
    }
  }

  /** The items on the line after the first `key: `, or none without one. */
  function ListOf(section: string, key: string): (r: seq<string>)
    ensures Absent(section, key + ": ") ==> r == []
    ensures forall k | 0 <= k < |r| :: r[k] != [] && Trimmed(r[k])
  {
    match After(section, key + ": ")
    case None => []
    case Some(rest) => ItemsOf(RestOfLine(rest))
  }

  /** With `key: ` first at `i`, the list holds the items of the rest of that line. */
  lemma ListAt(section: string, key: string, i: nat)
    requires IsFirst(section, key + ": ", i)
    ensures ListOf(section, key) == ItemsOf(RestOfLine(section[i + |key| + 2..]))
  {
    assert After(section, key + ": ") == Some(section[i + |key| + 2..]);
  }

  /** Every list item is free of line terminators and of `|||`. */
  lemma ListPlain(section: string, key: string)
    ensures forall k | 0 <= k < |ListOf(section, key)| ::
      NoLineTerminator(ListOf(section, key)[k]) && Absent(ListOf(section, key)[k], ItemSeparator)
  {
    match After(section, key + ": ")
    case None =>
    case Some(rest) => ItemsPlain(RestOfLine(rest));
  }

  /** The plagiarism block and the segments block, read with the locale's labels. */
  function PlagiarismResultOf(fullText: string, k: Labels): (r: PlagiarismResult)
    ensures var section := Section(fullText, PlagiarismStart, PlagiarismEnd);
      && r.score == ScoreOf(section, k.scoreKey)
      && r.assessment == AssessmentOf(section, k.assessmentKey)
      && r.analysis == AnalysisOf(section)
    ensures r.plagiarizedSegments == ListOf(Section(fullText, SegmentsStart, SegmentsEnd), k.plagiarizedSegmentsKey)
  {
    var section := Section(fullText, PlagiarismStart, PlagiarismEnd);
    var segments := Section(fullText, SegmentsStart, SegmentsEnd);
    PlagiarismResult(
      ScoreOf(section, k.scoreKey),
      AssessmentOf(section, k.assessmentKey),
      AnalysisOf(section),
      ListOf(segments, k.plagiarizedSegmentsKey))
  }

  /** The AI block and the suggestions block; an empty suggestion list is left out. */
  function AiResultOf(fullText: string, k: Labels): (r: AiResult)
    ensures var section := Section(fullText, AiStart, AiEnd);
      && r.score == ScoreOf(section, k.aiScoreKey)
      && r.assessment == AssessmentOf(section, k.aiAssessmentKey)
      && r.analysis == AnalysisOf(section)
    ensures var items := ListOf(Section(fullText, SuggestionsStart, SuggestionsEnd), k.humanizingSuggestionsKey);
      r.suggestions == if items == [] then None else Some(items)
  {
    var section := Section(fullText, AiStart, AiEnd);
    var items := ListOf(Section(fullText, SuggestionsStart, SuggestionsEnd), k.humanizingSuggestionsKey);
    AiResult(
      ScoreOf(section, k.aiScoreKey),
      AssessmentOf(section, k.aiAssessmentKey),
      AnalysisOf(section),
      if |items| > 0 then Some(items) else None)
  }

  /** The whole reply, decoded: total, with a present suggestion list never empty. */
  function Decode(fullText: string, k: Labels): (r: Report)
    ensures r.aiResult.suggestions != Some([])
    ensures NoLineTerminator(r.plagiarismResult.assessment) && NoLineTerminator(r.aiResult.assessment)
    ensures forall j | 0 <= j < |r.plagiarismResult.plagiarizedSegments| ::
      r.plagiarismResult.plagiarizedSegments[j] != [] && Trimmed(r.plagiarismResult.plagiarizedSegments[j])
  {
    Report(PlagiarismResultOf(fullText, k), AiResultOf(fullText, k))
  }

  /** The result of a reply that holds none of the four blocks. */
  const Defaults: Report :=
    Report(PlagiarismResult(0, AssessmentFailed, [], []), AiResult(0, AssessmentFailed, [], None))

  /** A section that is empty yields every default. */
  lemma EmptySection(key: string)
    ensures ScoreOf([], key) == 0
    ensures AssessmentOf([], key) == AssessmentFailed
    ensures AnalysisOf([]) == []
    ensures ListOf([], key) == []
  {
    assert Absent([], key + ": ");
    assert Absent([], Rule);
  }

  /** A reply without start markers decodes to the defaults, whatever the labels. */
  lemma DecodeWithoutBlocks(fullText: string, k: Labels)
    requires Absent(fullText, PlagiarismStart) && Absent(fullText, SegmentsStart)
    requires Absent(fullText, AiStart) && Absent(fullText, SuggestionsStart)
    ensures Decode(fullText, k) == Defaults
  {
    AbsentInSlice(fullText, 0, |Before(fullText, PlagiarismEnd)|, PlagiarismStart);
    AbsentInSlice(fullText, 0, |Before(fullText, SegmentsEnd)|, SegmentsStart);
    AbsentInSlice(fullText, 0, |Before(fullText, AiEnd)|, AiStart);
    AbsentInSlice(fullText, 0, |Before(fullText, SuggestionsEnd)|, SuggestionsStart);
    assert fullText[..|Before(fullText, PlagiarismEnd)|] == Before(fullText, PlagiarismEnd);
    assert fullText[..|Before(fullText, SegmentsEnd)|] == Before(fullText, SegmentsEnd);
    assert fullText[..|Before(fullText, AiEnd)|] == Before(fullText, AiEnd);
    assert fullText[..|Before(fullText, SuggestionsEnd)|] == Before(fullText, SuggestionsEnd);
    EmptySection(k.scoreKey);
    EmptySection(k.assessmentKey);
    EmptySection(k.plagiarizedSegmentsKey);
    EmptySection(k.aiScoreKey);
    EmptySection(k.aiAssessmentKey);
    EmptySection(k.humanizingSuggestionsKey);
  }
}

=== FILE: roundtrip.dfy ===
/**
 * The prompt template and the response parser agree: a reply written in
 * exactly the template's shape, with values the format can carry, decodes
 * to the values written into it.
 */
module RoundTrip {
  import opened Wrappers
  import opened Text
  import opened Decimal
  import opened Format
  import opened Response
  import opened Locale
  import opened LocaleFacts

  /** A value for an assessment line: one trimmed line, without `[` or `---`. */
  predicate LineValue(s: string) {
    Trimmed(s) && NoLineTerminator(s) && '[' !in s && Absent(s, Rule)
  }

  /** A value for a detailed analysis: trimmed, without `[` or `---`; it may span lines. */
  predicate BodyValue(s: string) {
    Trimmed(s) && '[' !in s && Absent(s, Rule)
  }

  /**
   * A value for a list item: non-empty, trimmed, on one line, without `[`
   * or `|||`, and not ending in `|` (which would run into the separator).
   */
  predicate ItemValue(s: string) {
    s != [] && Trimmed(s) && NoLineTerminator(s) && '[' !in s && Absent(s, ItemSeparator) && s[|s| - 1] != '|'
  }

  predicate ItemValues(xs: seq<string>) {
    forall j | 0 <= j < |xs| :: ItemValue(xs[j])
  }

  /** A report the format can carry, with a present suggestion list non-empty. */
  predicate Encodable(r: Report) {
    && LineValue(r.plagiarismResult.assessment) && BodyValue(r.plagiarismResult.analysis)
    && ItemValues(r.plagiarismResult.plagiarizedSegments)
    && LineValue(r.aiResult.assessment) && BodyValue(r.aiResult.analysis)
    && (match r.aiResult.suggestions
        case None => true
        case Some(xs) => xs != [] && ItemValues(xs))
  }

  /** Free text around the blocks that cannot be mistaken for a marker. */
  predicate Quiet(g: Gaps) {
    '[' !in g.lead && '[' !in g.afterPlagiarism && '[' !in g.afterSegments && '[' !in g.afterAi && '[' !in g.trail
  }

  function SuggestionList(o: Option<seq<string>>): seq<string> {
    match o
    case None => []
    case Some(xs) => xs
  }

  /** The template's fields filled with a report's values; scores in decimal. */
  function FieldsOf(r: Report): Fields {
    Fields(
      ToDecimal(r.plagiarismResult.score), r.plagiarismResult.assessment, r.plagiarismResult.analysis,
      r.plagiarismResult.plagiarizedSegments,
      ToDecimal(r.aiResult.score), r.aiResult.assessment, r.aiResult.analysis,
      SuggestionList(r.aiResult.suggestions))
  }

  /** A reply in the template's shape carrying the report `r`. */
  function Encode(k: Labels, r: Report, g: Gaps): string {
    Flatten(Skeleton(k, FieldsOf(r), g))
  }

  // ---------------------------------------------------------------------
  // Inside a scored block

  /** A plain label does not start with a line terminator. */
  lemma LabelLead(x: string)
    requires PlainLabel(x)
    ensures !IsLineTerminator(x[0]) && ':' !in x
  {
  }

  /** The score line is the first place `key: ` is followed by a digit. */
  lemma ScoreFromBlock(sk: string, n: nat, rest: string)
    requires PlainLabel(sk)
    ensures ScoreOf("\n" + sk + ": " + ToDecimal(n) + "\n" + rest, sk) == n
  {
    var ds := ToDecimal(n);
    var b := "\n" + sk + ": " + ds + "\n" + rest;
    LabelLead(sk);
    assert b == "\n" + (sk + ": ") + (ds + "\n" + rest);
    assert b[1..1 + |sk + ": "|] == sk + ": ";
    assert b[|sk| + 3] == ds[0];
    assert ScoreMatchAt(b, sk, 1);
    CharOfOccurrence(b, sk + ": ", 0, 0);
    assert !ScoreMatchAt(b, sk, 0);
    assert b[|sk| + 3..] == ds + ("\n" + rest);
    DigitRunOf(ds, "\n" + rest);
    ValueOfDecimal(n);
  }

  /**
   * The assessment label does not occur on the score line: labels hold no
   * colon, so an occurrence would end at the score label's colon and make
   * the assessment label a suffix of the score label.
   */
  lemma NotOnScoreLine(sk: string, ak: string, ds: string)
    requires PlainLabel(sk) && PlainLabel(ak) && Absent(sk, ak) && AllDigits(ds)
    ensures Absent(sk + ": " + ds, ak + ": ")
  {
    var u := sk + ": " + ds;
    var p := ak + ": ";
    forall j | 0 <= j <= |u| ensures !Occurs(u, p, j) {
      CharOfOccurrence(u, p, j, |ak|);
      var c := j + |ak|;
      if c < |sk| {
        assert u[c] == sk[c];
      } else if c == |sk| {
        EndsAtColon(sk, ak, ds, j);
      } else if |sk| + 1 < c < |u| {
        DigitAt(ds, c - |sk| - 2);
        assert u[c] == ds[c - |sk| - 2];
      }
    }
  }

  lemma EndsAtColon(sk: string, ak: string, ds: string, j: int)
    ensures Occurs(sk + ": " + ds, ak + ": ", j) && j + |ak| == |sk| ==> Occurs(sk, ak, j)
  {
    var u := sk + ": " + ds;
    if Occurs(u, ak + ": ", j) && j + |ak| == |sk| {
      assert u[j..j + |ak|] == (ak + ": ")[..|ak|] == ak;
      assert sk[j..j + |ak|] == u[j..j + |ak|];
    }
  }

  /** A scored block read as its first line, then the rest. */
  lemma ScoredShape(sk: string, ak: string, ds: string, a: string, body: string)
    ensures ScoredBody(sk, ak, ds, a, body) ==
      ("\n" + sk + ": " + ds) + "\n" + ((ak + ": ") + (a + "\n" + (Rule + "\n" + body + "\n")))
  {
  }

  /** The assessment label is first found at the start of the second line. */
  lemma FindAssessment(sk: string, ak: string, ds: string, a: string, body: string)
    requires PlainLabel(sk) && PlainLabel(ak) && Absent(sk, ak) && AllDigits(ds)
    ensures Find(ScoredBody(sk, ak, ds, a, body), ak + ": ") == Some(|sk| + |ds| + 4)
  {
    var p := ak + ": ";
    var line := sk + ": " + ds;
    var rest := a + "\n" + (Rule + "\n" + body + "\n");
    ScoredShape(sk, ak, ds, a, body);
    NotOnScoreLine(sk, ak, ds);
    AbsentAcrossBarrier("", '\n', line, p);
    assert "" + ['\n'] + line == "\n" + sk + ": " + ds;
    OccursInPrefix(p, rest, p, 0);
    FindAfterLine("\n" + sk + ": " + ds, p + rest, p);
  }

  /** A trimmed one-line value right after the first `key: ` is what the assessment reads. */
  lemma AssessmentOfLine(b: string, key: string, i: nat, a: string, tail: string)
    requires IsFirst(b, key + ": ", i) && b[i + |key| + 2..] == a + "\n" + tail
    requires Trimmed(a) && NoLineTerminator(a)
    ensures AssessmentOf(b, key) == a
  {
    AssessmentAt(b, key, i);
    RestOfLineBeforeBreak(a, tail);
    TrimOfTrimmed(a);
  }

  /** The assessment is read back from the line after the score line. */
  lemma AssessmentFromBlock(sk: string, ak: string, ds: string, a: string, body: string)
    requires PlainLabel(sk) && PlainLabel(ak) && Absent(sk, ak) && AllDigits(ds) && LineValue(a)
    ensures AssessmentOf(ScoredBody(sk, ak, ds, a, body), ak) == a
  {
    var b := ScoredBody(sk, ak, ds, a, body);
    var i := |sk| + |ds| + 4;
    FindAssessment(sk, ak, ds, a, body);
    ScoredShape(sk, ak, ds, a, body);
    AssessmentOfLine(b, ak, i, a, Rule + "\n" + body + "\n");
  }

  /** Decimal digits hold no `---`. */
  lemma DigitsNoRule(ds: string)
    requires AllDigits(ds)
    ensures Absent(ds, Rule)
  {
    forall i | 0 <= i < |ds| ensures ds[i] != '-' {
      DigitAt(ds, i);
    }
    AbsentWithoutFirstChar(ds, Rule);
  }

  /** The summary lines hold no `---` before the rule itself. */
  lemma SummaryNoRule(sk: string, ak: string, ds: string, a: string)
    requires PlainLabel(sk) && PlainLabel(ak) && AllDigits(ds) && Absent(a, Rule)
    ensures Absent("\n" + sk + ": " + ds + "\n" + ak + ": " + a, Rule)
  {
    var dash := '-';
    assert Uniform(Rule, dash);
    PlainLabelNoRule(sk);
    PlainLabelNoRule(ak);
    DigitsNoRule(ds);
    var s1 := "\n" + sk;
    AbsentConcatUniform("\n", sk, Rule, dash);
    var s2 := s1 + ": ";
    AbsentConcatUniform(s1, ": ", Rule, dash);
    var s3 := s2 + ds;
    AbsentConcatUniform(s2, ds, Rule, dash);
    var s4 := s3 + "\n";
    AbsentConcatUniform(s3, "\n", Rule, dash);
    var s5 := s4 + ak;
    AbsentConcatUniform(s4, ak, Rule, dash);
    var s6 := s5 + ": ";
    AbsentConcatUniform(s5, ": ", Rule, dash);
    AbsentConcatUniform(s6, a, Rule, dash);
  }

  /** A trimmed text on lines of its own right after the first `---` is what the analysis reads. */
  lemma AnalysisOfRule(b: string, i: nat, body: string)
    requires IsFirst(b, Rule, i) && b[i + |Rule|..] == "\n" + body + "\n"
    requires Trimmed(body) && Absent(body, Rule)
    ensures AnalysisOf(b) == body
  {
    var t := b[i + |Rule|..];
    AnalysisAt(b, i);
    var dash := '-';
    AbsentConcatUniform("\n", body, Rule, dash);
    AbsentConcatUniform("\n" + body, "\n", Rule, dash);
    assert Before(t, Rule) == t;
    TrimPadded("\n", body, "\n");
    assert Trim(t) == body;
  }

  /** The first `---` of a scored block is its rule line. */
  lemma FindRule(sk: string, ak: string, ds: string, a: string, body: string)
    requires PlainLabel(sk) && PlainLabel(ak) && AllDigits(ds) && Absent(a, Rule)
    ensures Find(ScoredBody(sk, ak, ds, a, body), Rule) == Some(|sk| + |ds| + |ak| + |a| + 7)
  {
    var summary := "\n" + sk + ": " + ds + "\n" + ak + ": " + a;
    var padded := "\n" + body + "\n";
    assert ScoredBody(sk, ak, ds, a, body) == summary + "\n" + (Rule + padded);
    SummaryNoRule(sk, ak, ds, a);
    OccursInPrefix(Rule, padded, Rule, 0);
    FindAfterLine(summary, Rule + padded, Rule);
  }

  /** The detailed analysis is read back from between the rule and the end of the block. */
  lemma AnalysisFromBlock(sk: string, ak: string, ds: string, a: string, body: string)
    requires PlainLabel(sk) && PlainLabel(ak) && AllDigits(ds) && LineValue(a) && BodyValue(body)
    ensures AnalysisOf(ScoredBody(sk, ak, ds, a, body)) == body
  {
    var b := ScoredBody(sk, ak, ds, a, body);
    var i := |sk| + |ds| + |ak| + |a| + 7;
    FindRule(sk, ak, ds, a, body);
    assert b[i + |Rule|..] == "\n" + body + "\n";
    AnalysisOfRule(b, i, body);
  }

  // ---------------------------------------------------------------------
  // Inside a list block

  /** Items joined on the line right after the first `key: ` are what the list reads. */
  lemma ListOfLine(b: string, key: string, i: nat, items: seq<string>)
    requires IsFirst(b, key + ": ", i) && RestOfLine(b[i + |key| + 2..]) == Join(items, ItemSeparator)
    requires ItemValues(items)
    ensures ListOf(b, key) == items
  {
    ListAt(b, key, i);
    ItemsOfJoin(items);
  }

  /**
   * Why a list item may not end in `|`: such an item runs into the `|||`
   * after it, and the parser cuts the first three bars, so `a|` and `b`
   * come back as `a` and `|b`.
   */
  lemma TrailingBarItemAltered()
    ensures Join(["a|", "b"], ItemSeparator) == "a||||b"
    ensures ItemsOf(Join(["a|", "b"], ItemSeparator)) == ["a", "|b"]
  {
    BarJoin();
    BarSplit();
    BarClean();
  }

  lemma BarJoin()
    ensures Join(["a|", "b"], ItemSeparator) == "a||||b"
  {
    assert ItemSeparator == "|||";
    assert ["a|", "b"][1..] == ["b"];
    assert Join(["b"], ItemSeparator) == "b";
  }

  lemma BarClean()
    ensures Clean(["a", "|b"]) == ["a", "|b"]
  {
    assert !IsWhitespace('a') && !IsWhitespace('b') && !IsWhitespace('|');
    TrimOfTrimmed("a");
    TrimOfTrimmed("|b");
    var tail: seq<string> := ["|b"];
    assert Clean(tail) == ["|b"] + Clean(tail[1..]);
    assert Clean(["a", "|b"]) == ["a"] + Clean(tail);
  }

  lemma BarSplit()
    ensures Split("a||||b", ItemSeparator) == ["a", "|b"]
  {
    var line := "a||||b";
    assert ItemSeparator == "|||";
    assert !Occurs(line, ItemSeparator, 0) by {
      assert line[0..3][0] == 'a';
    }
    assert Occurs(line, ItemSeparator, 1) by {
      assert line[1..4] == ['|', '|', '|'];
    }
    FindIsFirst(line, ItemSeparator, 1);
    assert line[..1] == "a" && line[4..] == "|b";
    assert Find("|b", ItemSeparator) == None;
  }

  /** Joining items with `|||` and reading them back gives the items. */
  lemma ItemsOfJoin(items: seq<string>)
    requires ItemValues(items)
    ensures ItemsOf(Join(items, ItemSeparator)) == items
  {
    var joined := Join(items, ItemSeparator);
    if items == [] {
      assert Split(joined, ItemSeparator) == [""];
      TrimOfTrimmed("");
    } else {
      SplitJoin(items, ItemSeparator, '|');
      CleanOfClean(items);
    }
  }

  /** The items of a list block are read back in order. */
  lemma ListFromBlock(key: string, items: seq<string>)
    requires PlainLabel(key) && ItemValues(items)
    ensures ListOf(ListBody(key, items), key) == items
  {
    var p := key + ": ";
    var b := ListBody(key, items);
    LabelLead(key);
    assert b == "\n" + p + (Join(items, ItemSeparator) + "\n");
    assert b[1..1 + |p|] == p;
    CharOfOccurrence(b, p, 0, 0);
    assert IsFirst(b, p, 1);
    var joined := Join(items, ItemSeparator);
    assert b[1 + |key| + 2..] == joined + "\n" + "";
    JoinOneLine(items, ItemSeparator);
    RestOfLineBeforeBreak(joined, "");
    ListOfLine(b, key, 1, items);
  }

  // ---------------------------------------------------------------------
  // Cutting out the blocks

  /** The first `k` pieces of delimited pieces are delimited. */
  lemma DelimitedPrefix(ps: seq<Piece>, k: nat)
    requires Delimited(ps) && k <= |ps|
    ensures Delimited(ps[..k])
  {
    assert forall j | 0 <= j < k :: ps[..k][j] == ps[j];
  }

  /** The text of the first `k` pieces is a prefix of the whole text. */
  lemma PrefixText(ps: seq<Piece>, k: nat)
    requires k <= |ps|
    ensures Flatten(ps[..k]) <= Flatten(ps)
  {
    assert ps[..k] + ps[k..] == ps;
    FlattenAppend(ps[..k], ps[k..]);
  }

  /** The text of the pieces before a marker is the text before that marker. */
  lemma TextBeforeMarker(ps: seq<Piece>, m: string, k: nat)
    requires Delimited(ps) && Marker(m) && k < |ps| && ps[k] == Mark(m) && Mark(m) !in ps[..k]
    ensures Before(Flatten(ps), m) == Flatten(ps[..k])
  {
    var a := Flatten(ps[..k]);
    MarkerFound(ps, m, k);
    BeforeAt(Flatten(ps), m, |a|);
    PrefixText(ps, k);
  }

  /** Within the pieces up to a block's end marker, its start marker is found where it stands. */
  lemma StartBeforeEnd(ps: seq<Piece>, s: nat, start: string)
    requires Delimited(ps) && Marker(start)
    requires s + 2 <= |ps| && ps[s] == Mark(start) && Mark(start) !in ps[..s]
    ensures IsFirst(Flatten(ps[..s + 2]), start, |Flatten(ps[..s])|)
  {
    var qs := ps[..s + 2];
    DelimitedPrefix(ps, s + 2);
    assert qs[..s] == ps[..s];
    MarkerFound(qs, start, s);
  }

  /** Right after a block's start marker comes its free piece. */
  lemma BodyAfterStart(ps: seq<Piece>, s: nat, start: string, b: string)
    requires s + 2 <= |ps| && ps[s] == Mark(start) && ps[s + 1] == Free(b)
    ensures Flatten(ps[..s + 2]) == Flatten(ps[..s]) + start + b
  {
    var qs := ps[..s + 2];
    FlattenPrefix(qs, s + 1);
    assert qs[..s + 2] == qs;
    assert qs[..s + 1] == ps[..s + 1];
    FlattenPrefix(ps, s);
  }

  /** A section whose text before the end marker is `x`, the start marker, then `b`. */
  lemma SectionOfParts(text: string, start: string, end: string, x: string, b: string)
    requires start != [] && end != [] && Before(text, end) == x + start + b
    requires IsFirst(x + start + b, start, |x|) && Absent(b, start)
    ensures Section(text, start, end) == b
  {
    SectionAt(text, start, end, |x|);
    assert (x + start + b)[|x| + |start|..] == b;
  }

  /**
   * A block whose start marker comes first and whose end marker comes right
   * after its one free piece is cut out exactly.
   */
  lemma SectionOfPieces(ps: seq<Piece>, s: nat, start: string, end: string, b: string)
    requires Delimited(ps) && Marker(start) && Marker(end)
    requires s + 2 < |ps| && ps[s] == Mark(start) && ps[s + 1] == Free(b) && ps[s + 2] == Mark(end)
    requires Mark(start) !in ps[..s] && Mark(end) !in ps[..s + 2]
    ensures Section(Flatten(ps), start, end) == b
  {
    TextBeforeMarker(ps, end, s + 2);
    StartBeforeEnd(ps, s, start);
    BodyAfterStart(ps, s, start, b);
    assert '[' !in b;
    AbsentWithoutFirstChar(b, start);
    SectionOfParts(Flatten(ps), start, end, Flatten(ps[..s]), b);
  }

  // ---------------------------------------------------------------------
  // The whole reply

  /** A plain label holds no `[`. */
  lemma PlainLabelNoBracket(x: string)
    requires PlainLabel(x)
    ensures '[' !in x
  {
    forall i | 0 <= i < |x| ensures x[i] != '[' {
      assert !IsRegexMeta(x[i]);
    }
  }

  /** Decimal digits hold no `[`. */
  lemma DigitsNoBracket(ds: string)
    requires AllDigits(ds)
    ensures '[' !in ds
  {
    forall i | 0 <= i < |ds| ensures ds[i] != '[' {
      DigitAt(ds, i);
    }
  }

  /** A scored block built from bracket-free parts is bracket-free. */
  lemma ScoredBodyQuiet(sk: string, ak: string, n: nat, a: string, body: string)
    requires PlainLabel(sk) && PlainLabel(ak) && '[' !in a && '[' !in body
    ensures '[' !in ScoredBody(sk, ak, ToDecimal(n), a, body)
  {
    PlainLabelNoBracket(sk);
    PlainLabelNoBracket(ak);
    DigitsNoBracket(ToDecimal(n));
  }

  /** A list block built from bracket-free items is bracket-free. */
  lemma ListBodyQuiet(key: string, items: seq<string>)
    requires PlainLabel(key) && ItemValues(items)
    ensures '[' !in ListBody(key, items)
  {
    PlainLabelNoBracket(key);
    JoinAvoids(items, ItemSeparator, '[');
  }

  /** The reply written for a report the format can carry is delimited by its markers alone. */
  lemma EncodeDelimited(k: Labels, r: Report, g: Gaps)
    requires Distinguishable(k) && Encodable(r) && Quiet(g)
    ensures Delimited(Skeleton(k, FieldsOf(r), g))
  {
    var p, a := r.plagiarismResult, r.aiResult;
    MarkersWellFormed();
    ScoredBodyQuiet(k.scoreKey, k.assessmentKey, p.score, p.assessment, p.analysis);
    ListBodyQuiet(k.plagiarizedSegmentsKey, p.plagiarizedSegments);
    ScoredBodyQuiet(k.aiScoreKey, k.aiAssessmentKey, a.score, a.assessment, a.analysis);
    ListBodyQuiet(k.humanizingSuggestionsKey, SuggestionList(a.suggestions));
  }

  /** The eight markers in template order: each block's start, then its end. */
  const Markers: seq<string> :=
    [PlagiarismStart, PlagiarismEnd, SegmentsStart, SegmentsEnd, AiStart, AiEnd, SuggestionsStart, SuggestionsEnd]

  /** Seventeen pieces, free text at the even places and the markers in order at the odd ones. */
  predicate Layout(ps: seq<Piece>) {
    |ps| == 17 && forall i | 0 <= i < 17 :: if i % 2 == 0 then ps[i].Free? else ps[i] == Mark(Markers[i / 2])
  }

  lemma SkeletonLayout(k: Labels, f: Fields, g: Gaps)
    ensures Layout(Skeleton(k, f, g))
  {
  }

  lemma MarkerDiffers(a: nat, b: nat)
    requires a < b < 8
    ensures Markers[a] != Markers[b]
  {
    MarkersDistinct();
  }

  /** Before block `j` of a layout, neither of its markers appears; its end marker not even at its start. */
  lemma MarkersBefore(ps: seq<Piece>, j: nat)
    requires Layout(ps) && j < 4
    ensures Mark(Markers[2 * j]) !in ps[..4 * j + 1] && Mark(Markers[2 * j + 1]) !in ps[..4 * j + 3]
  {
    var s := 4 * j + 1;
    var start, end := Markers[2 * j], Markers[2 * j + 1];
    forall i | 0 <= i < s + 2 ensures ps[i] != Mark(end) && (i < s ==> ps[i] != Mark(start)) {
      if i % 2 == 1 {
        var h := i / 2;
        assert h <= 2 * j && (i < s ==> h < 2 * j);
        MarkerDiffers(h, 2 * j + 1);
        if h < 2 * j {
          MarkerDiffers(h, 2 * j);
        }
      }
    }
    assert forall i | 0 <= i < s :: ps[..s][i] == ps[i];
    assert forall i | 0 <= i < s + 2 :: ps[..s + 2][i] == ps[i];
  }

  /** Block `j` of a delimited layout is cut out exactly. */
  lemma BlockSection(ps: seq<Piece>, j: nat)
    requires Delimited(ps) && Layout(ps) && j < 4
    ensures Section(Flatten(ps), Markers[2 * j], Markers[2 * j + 1]) == ps[4 * j + 2].text
  {
    var s := 4 * j + 1;
    MarkersWellFormed();
    MarkersBefore(ps, j);
    SectionOfPieces(ps, s, Markers[2 * j], Markers[2 * j + 1], ps[s + 1].text);
  }

  /** The free pieces of a skeleton that hold the four blocks. */
  lemma SkeletonBlocks(k: Labels, f: Fields, g: Gaps)
    ensures var ps := Skeleton(k, f, g);
      && ps[2].text == ScoredBody(k.scoreKey, k.assessmentKey, f.score, f.assessment, f.analysis)
      && ps[6].text == ListBody(k.plagiarizedSegmentsKey, f.segments)
      && ps[10].text == ScoredBody(k.aiScoreKey, k.aiAssessmentKey, f.aiScore, f.aiAssessment, f.aiAnalysis)
      && ps[14].text == ListBody(k.humanizingSuggestionsKey, f.suggestions)
  {
  }

  /** Each block of a delimited skeleton is cut out exactly. */
  lemma SkeletonSections(k: Labels, f: Fields, g: Gaps)
    requires Delimited(Skeleton(k, f, g))
    ensures var text := Flatten(Skeleton(k, f, g));
      && Section(text, PlagiarismStart, PlagiarismEnd) == ScoredBody(k.scoreKey, k.assessmentKey, f.score, f.assessment, f.analysis)
      && Section(text, SegmentsStart, SegmentsEnd) == ListBody(k.plagiarizedSegmentsKey, f.segments)
      && Section(text, AiStart, AiEnd) == ScoredBody(k.aiScoreKey, k.aiAssessmentKey, f.aiScore, f.aiAssessment, f.aiAnalysis)
      && Section(text, SuggestionsStart, SuggestionsEnd) == ListBody(k.humanizingSuggestionsKey, f.suggestions)
  {
    var ps := Skeleton(k, f, g);
    SkeletonLayout(k, f, g);
    SkeletonBlocks(k, f, g);
    BlockSection(ps, 0);
    BlockSection(ps, 1);
    BlockSection(ps, 2);
    BlockSection(ps, 3);
  }

  /** The score is read back from a scored block. */
  lemma ScoreFromScored(sk: string, ak: string, n: nat, a: string, body: string)
    requires PlainLabel(sk)
    ensures ScoreOf(ScoredBody(sk, ak, ToDecimal(n), a, body), sk) == n
  {
    var ds := ToDecimal(n);
    var rest := ak + ": " + a + "\n" + Rule + "\n" + body + "\n";
    assert ScoredBody(sk, ak, ds, a, body) == "\n" + sk + ": " + ds + "\n" + rest;
    ScoreFromBlock(sk, n, rest);
  }

  /** Score, assessment and analysis are read back from a scored block. */
  lemma ScoredFromBlock(sk: string, ak: string, n: nat, a: string, body: string)
    requires PlainLabel(sk) && PlainLabel(ak) && Apart(sk, ak) && LineValue(a) && BodyValue(body)
    ensures var b := ScoredBody(sk, ak, ToDecimal(n), a, body);
      ScoreOf(b, sk) == n && AssessmentOf(b, ak) == a && AnalysisOf(b) == body
  {
    ScoreFromScored(sk, ak, n, a, body);
    AssessmentFromBlock(sk, ak, ToDecimal(n), a, body);
    AnalysisFromBlock(sk, ak, ToDecimal(n), a, body);
  }

  /** The plagiarism result is read back from its two blocks. */
  lemma PlagiarismFromSections(text: string, k: Labels, p: PlagiarismResult)
    requires Distinguishable(k) && LineValue(p.assessment) && BodyValue(p.analysis) && ItemValues(p.plagiarizedSegments)
    requires Section(text, PlagiarismStart, PlagiarismEnd) == ScoredBody(k.scoreKey, k.assessmentKey, ToDecimal(p.score), p.assessment, p.analysis)
    requires Section(text, SegmentsStart, SegmentsEnd) == ListBody(k.plagiarizedSegmentsKey, p.plagiarizedSegments)
    ensures PlagiarismResultOf(text, k) == p
  {
    ScoredFromBlock(k.scoreKey, k.assessmentKey, p.score, p.assessment, p.analysis);
    ListFromBlock(k.plagiarizedSegmentsKey, p.plagiarizedSegments);
  }

  /** The AI result is read back from its two blocks; no suggestions read back as none. */
  lemma AiFromSections(text: string, k: Labels, a: AiResult)
    requires Distinguishable(k) && LineValue(a.assessment) && BodyValue(a.analysis)
    requires match a.suggestions case None => true case Some(xs) => xs != [] && ItemValues(xs)
    requires Section(text, AiStart, AiEnd) == ScoredBody(k.aiScoreKey, k.aiAssessmentKey, ToDecimal(a.score), a.assessment, a.analysis)
    requires Section(text, SuggestionsStart, SuggestionsEnd) == ListBody(k.humanizingSuggestionsKey, SuggestionList(a.suggestions))
    ensures AiResultOf(text, k) == a
  {
    ScoredFromBlock(k.aiScoreKey, k.aiAssessmentKey, a.score, a.assessment, a.analysis);
    ListFromBlock(k.humanizingSuggestionsKey, SuggestionList(a.suggestions));
  }

  /**
   * Round trip: a reply written in the template's shape, with distinguishable
   * labels, values the format can carry and free text without `[` around the
   * blocks, decodes to the report written into it.
   */
  lemma DecodeEncode(k: Labels, r: Report, g: Gaps)
    requires Distinguishable(k) && Encodable(r) && Quiet(g)
    ensures Decode(Encode(k, r, g), k) == r
  {
    var f := FieldsOf(r);
    var ps := Skeleton(k, f, g);
    EncodeDelimited(k, r, g);
    SkeletonSections(k, f, g);
    PlagiarismFromSections(Flatten(ps), k, r.plagiarismResult);
    AiFromSections(Flatten(ps), k, r.aiResult);
  }

  /**
   * For every locale: a reply in the template's shape, written with that
   * locale's labels, decodes with those labels to the report written into it.
   */
  lemma LocaleRoundTrip(l: Language, r: Report, g: Gaps)
    requires Encodable(r) && Quiet(g)
    ensures Decode(Encode(Ai(l).labels, r, g), Ai(l).labels) == r
  {
    LabelsDistinguishable(l);
    DecodeEncode(Ai(l).labels, r, g);
  }
}

=== FILE: service.dfy ===
/**
 * The parts of the analysis service around the network call: the API key
 * guard, the system instruction and request contents sent to the model,
 * the decoding of its reply, and the classification of failures.
 */
module Service {
  import opened Wrappers
  import opened Text
  import opened Format
  import opened Response

  /** What `validateApiKey` does with a key: refuse it outright, or probe the service with it. */
  datatype KeyCheck = Refused | Probe(key: string)

  /** `validateApiKey`: an empty key is refused without building a client. */
  function ValidateApiKey(key: string): (r: KeyCheck)
    ensures r == Refused <==> key == []
    ensures r.Probe? ==> r.key == key
  {
    if key == [] then Refused else Probe(key)
  }

  /** The answer `validateApiKey` resolves to, given whether the probe request succeeded. */
  function KeyAccepted(key: string, probeSucceeded: bool): (ok: bool)
    ensures ok <==> key != [] && probeSucceeded
  {
    match ValidateApiKey(key)
    case Refused => false
    case Probe(_) => probeSucceeded
  }

  /** The text fields of the model configuration that reach the request. */
  datatype ModelConfig = ModelConfig(persona: string, context: string, memory: string)

  /** The localized titles of the three configuration fields. */
  datatype BehaviorLabels = BehaviorLabels(persona: string, context: string, memory: string)

  /** The three headed sections, from the first `#` to the start of the memory text. */
  function Sections(t: BehaviorLabels, c: ModelConfig): string {
    "# " + UpperString(t.persona) + "\n" + c.persona + "\n\n"
    + "# " + UpperString(t.context) + "\n" + c.context + "\n\n"
    + "# " + UpperString(t.memory) + "\n"
  }

  /**
   * The system instruction: three `# TITLE` headers, persona, context and
   * memory in that order, each followed on the next line by its field;
   * trimming only drops the template's leading line break and the white
   * space at the end of the memory text.
   */
  function SystemInstruction(t: BehaviorLabels, c: ModelConfig): (r: string)
    ensures Trimmed(r)
    ensures !AllWhitespace(c.memory) ==> r == Sections(t, c) + TrimEnd(c.memory)
    ensures AllWhitespace(c.memory) ==> r == TrimEnd(Sections(t, c))
  {
    var body := Sections(t, c);
    TrimFramed("\n", body, c.memory, "\n  ");
    Trim("\n" + body + c.memory + "\n  ")
  }

  /** The request contents: the locale's prompt, a line break, then the user's text. */
  function Contents(prompt: string, text: string): (r: string)
    ensures |r| == |prompt| + 1 + |text|
    ensures r[..|prompt|] == prompt && r[|prompt|] == '\n' && r[|prompt| + 1..] == text
  {
    prompt + "\n" + text
  }

  /** The prefix of the error keys the application throws. */
  const ErrorPrefix: string := "error."
  const InvalidKeyError: string := ErrorPrefix + "invalidApiKey"
  const ApiFailError: string := ErrorPrefix + "apiFail"

  /** The messages the service reads as a rejected API key. */
  const KeyNotValid: string := "API key not valid"
  const KeyIsInvalid: string := "API key is invalid"

  /**
   * The message `runAnalysis` rethrows for a failure: the invalid-key
   * error when an `Error`'s message mentions an invalid key, the generic
   * failure otherwise.
   */
  function ClassifyFailure(e: Caught): (r: string)
    ensures r == InvalidKeyError || r == ApiFailError
    ensures r == InvalidKeyError <==> e.ErrorObject? && (Contains(e.message, KeyNotValid) || Contains(e.message, KeyIsInvalid))
  {
    match e
    case OtherValue => ApiFailError
    case ErrorObject(m) =>
      FindContains(m, KeyNotValid);
      FindContains(m, KeyIsInvalid);
      if Find(m, KeyNotValid).Some? || Find(m, KeyIsInvalid).Some? then InvalidKeyError else ApiFailError
  }

  /**
   * What `split` throws when `response.text` is undefined, as it is for a
   * reply without a text part: a `TypeError`, caught like any other failure.
   */
  const MissingText: Caught := ErrorObject("Cannot read " + "properties of " + "undefined " + "(reading 'split')")

  /** A message without a capital `A` cannot mention an API key. */
  lemma NoKeyPhrase(m: string)
    requires 'A' !in m
    ensures ClassifyFailure(ErrorObject(m)) == ApiFailError
  {
    assert KeyNotValid[0] == 'A' && KeyIsInvalid[0] == 'A';
    AbsentWithoutFirstChar(m, KeyNotValid);
    AbsentWithoutFirstChar(m, KeyIsInvalid);
  }

  /** The `TypeError` of a reply without text mentions no API key, so it is a generic failure. */
  lemma MissingTextIsApiFail()
    ensures ClassifyFailure(MissingText) == ApiFailError
  {
    assert 'A' !in "Cannot read " && 'A' !in "properties of " && 'A' !in "undefined " && 'A' !in "(reading 'split')";
    NoKeyPhrase(MissingText.message);
  }

  /**
   * What the service call yields: a decoded report, or the message it
   * throws. The reply is the text of the response (`None` when it has
   * none) or the failure of the call itself.
   */
  function RunAnalysis(reply: Result<Option<string>, Caught>, k: Labels): (r: Result<Report, string>)
    ensures r.Success? <==> reply.Success? && reply.value.Some?
    ensures r.Success? ==> r.value == Decode(reply.value.value, k)
    ensures r.Failure? ==> r.error == InvalidKeyError || r.error == ApiFailError
    ensures reply.Failure? ==> r == Failure(ClassifyFailure(reply.error))
    ensures reply == Success(None) ==> r == Failure(ApiFailError)
  {
    match reply
    case Success(Some(fullText)) => Success(Decode(fullText, k))
    case Success(None) =>
      MissingTextIsApiFail();
      Failure(ClassifyFailure(MissingText))
    case Failure(e) => Failure(ClassifyFailure(e))
  }
}

=== FILE: text.dfy ===
/**
 * String primitives with JavaScript semantics: searching, `split`/`join`,
 * `trim`, the regular-expression `.` (anything but a line terminator),
 * `String.prototype.replace` with a string pattern, and letter case.
 * Strings are sequences of characters; every pattern used by the model is a
 * non-empty literal.
 */
module Text {
  import opened Wrappers

  /** `p` occurs in `s` starting at index `i`. */
  predicate Occurs(s: string, p: string, i: int) {
    0 <= i && i + |p| <= |s| && s[i..i + |p|] == p
  }

  /** `p` occurs nowhere in `s`. */
  predicate Absent(s: string, p: string) {
    forall i | 0 <= i <= |s| :: !Occurs(s, p, i)
  }

  /** `i` is the leftmost occurrence of `p` in `s`. */
  predicate IsFirst(s: string, p: string, i: int) {
    Occurs(s, p, i) && forall j | 0 <= j < i :: !Occurs(s, p, j)
  }

  predicate StartsWith(s: string, p: string) {
    Occurs(s, p, 0)
  }

  predicate EndsWith(s: string, p: string) {
    |p| <= |s| && s[|s| - |p|..] == p
  }

  /** Leftmost occurrence of `p` at or after index `k`. */
  function FindFrom(s: string, p: string, k: nat): (r: Option<nat>)
    ensures r.Some? ==> k <= r.value && Occurs(s, p, r.value)
    ensures r.Some? ==> forall j | k <= j < r.value :: !Occurs(s, p, j)
    ensures r.None? ==> forall j | k <= j <= |s| :: !Occurs(s, p, j)
    decreases |s| - k
  {
    if k + |p| > |s| then None
    else if s[k..k + |p|] == p then Some(k)
    else FindFrom(s, p, k + 1)
  }

  /** `s.indexOf(p)`, with `None` for -1. */
  function Find(s: string, p: string): (r: Option<nat>)
    ensures r.Some? ==> IsFirst(s, p, r.value)
    ensures r.None? ==> Absent(s, p)
  {
    FindFrom(s, p, 0)
  }

  lemma FindIsFirst(s: string, p: string, i: nat)
    requires IsFirst(s, p, i)
    ensures Find(s, p) == Some(i)
  {
  }

  /** The leftmost occurrence is unique, and it is what `Find` returns. */
  lemma FindUnique(s: string, p: string)
    ensures forall i | IsFirst(s, p, i) :: Find(s, p) == Some(i)
  {
    forall i | IsFirst(s, p, i) ensures Find(s, p) == Some(i) {
      FindIsFirst(s, p, i);
    }
  }

  lemma FindAbsent(s: string, p: string)
    requires Absent(s, p)
    ensures Find(s, p) == None
  {
  }

  lemma OccursInPrefix(s: string, t: string, p: string, j: int)
    requires Occurs(s, p, j)
    ensures Occurs(s + t, p, j)
  {
    assert (s + t)[j..j + |p|] == s[j..j + |p|];
  }

  /** Text found in a string is still found once more text follows it. */
  lemma ContainsInPrefix(s: string, t: string, p: string)
    requires Contains(s, p)
    ensures Contains(s + t, p)
  {
    var i :| 0 <= i <= |s| && Occurs(s, p, i);
    OccursInPrefix(s, t, p, i);
  }

  lemma OccursInSuffix(s: string, t: string, p: string, j: int)
    requires Occurs(t, p, j)
    ensures Occurs(s + t, p, |s| + j)
  {
    assert (s + t)[|s| + j..|s| + j + |p|] == t[j..j + |p|];
  }

  /** An occurrence in `s + t` lies in `s`, lies in `t`, or covers the last character of `s`. */
  lemma OccursInConcat(s: string, t: string, p: string, j: int)
    ensures Occurs(s + t, p, j) && j + |p| <= |s| ==> Occurs(s, p, j)
    ensures Occurs(s + t, p, j) && |s| <= j ==> Occurs(t, p, j - |s|)
    ensures Occurs(s + t, p, j) && j < |s| < j + |p| ==> p[|s| - 1 - j] == s[|s| - 1] && p[|s| - j] == t[0]
  {
    var u := s + t;
    if Occurs(u, p, j) {
      assert u[j..j + |p|] == p;
      if j + |p| <= |s| {
        assert s[j..j + |p|] == u[j..j + |p|];
      } else if |s| <= j {
        assert t[j - |s|..j - |s| + |p|] == u[j..j + |p|];
      } else {
        assert p[|s| - 1 - j] == u[|s| - 1];
        assert p[|s| - j] == u[|s|];
      }
    }
  }

  /** The characters of an occurrence are those of the pattern. */
  lemma CharOfOccurrence(s: string, p: string, i: int, k: int)
    ensures Occurs(s, p, i) && 0 <= k < |p| ==> s[i + k] == p[k] && s[i + k] in p
  {
    if Occurs(s, p, i) && 0 <= k < |p| {
      assert s[i..i + |p|][k] == s[i + k];
    }
  }

  /** `p` cannot occur in a string that lacks its first character. */
  lemma AbsentWithoutFirstChar(s: string, p: string)
    requires p != [] && p[0] !in s
    ensures Absent(s, p)
  {
    forall i | 0 <= i <= |s| ensures !Occurs(s, p, i) {
      CharOfOccurrence(s, p, i, 0);
    }
  }

  /** A character that `p` does not contain splits the search into its two sides. */
  lemma AbsentAcrossBarrier(s: string, c: char, t: string, p: string)
    requires c !in p && Absent(s, p) && Absent(t, p)
    ensures Absent(s + [c] + t, p)
  {
    forall i | 0 <= i <= |s + [c] + t| ensures !Occurs(s + [c] + t, p, i) {
      OccursInConcat(s + [c], t, p, i);
      OccursInConcat(s, [c], p, i);
      assert (s + [c])[|s|] == c;
    }
  }

  /** `s.includes(t)`. */
  ghost predicate Contains(s: string, t: string) {
    exists i | 0 <= i <= |s| :: Occurs(s, t, i)
  }

  /** `Find` succeeds exactly when the pattern occurs, as `includes` reports. */
  lemma FindContains(s: string, p: string)
    ensures Find(s, p).Some? <==> Contains(s, p)
  {
    if Find(s, p).Some? {
      assert Occurs(s, p, Find(s, p).value);
    }
  }

  /** Two adjacent occurrences make one occurrence of the concatenation. */
  lemma OccursAdjacent(s: string, a: string, b: string, i: int)
    requires Occurs(s, a, i) && Occurs(s, b, i + |a|)
    ensures Occurs(s, a + b, i)
  {
    assert s[i..i + |a| + |b|] == s[i..i + |a|] + s[i + |a|..i + |a| + |b|];
  }

  /** An occurrence of `a + b` starts with an occurrence of `a`. */
  lemma OccursLeft(s: string, a: string, b: string, i: int)
    requires Occurs(s, a + b, i)
    ensures Occurs(s, a, i)
  {
    assert s[i..i + |a|] == s[i..i + |a| + |b|][..|a|];
  }

  /**
   * A pattern is absent when its first three characters never appear
   * together: a check that can be carried out character by character.
   */
  lemma AbsentByLead(s: string, p: string)
    requires |p| >= 3
    requires forall i | 0 <= i < |s| - 2 :: !(s[i] == p[0] && s[i + 1] == p[1] && s[i + 2] == p[2])
    ensures Absent(s, p)
  {
    forall i | 0 <= i <= |s| ensures !Occurs(s, p, i) {
      CharOfOccurrence(s, p, i, 0);
      CharOfOccurrence(s, p, i, 1);
      CharOfOccurrence(s, p, i, 2);
    }
  }

  /** `s.startsWith(p)` makes index 0 the first occurrence. */
  lemma FindAtStart(s: string, p: string)
    requires StartsWith(s, p)
    ensures Find(s, p) == Some(0)
  {
    FindIsFirst(s, p, 0);
  }

  /** Searching past a prefix in which `p` can start nowhere. */
  lemma FindShift(s: string, t: string, p: string)
    requires forall j | 0 <= j < |s| :: !Occurs(s + t, p, j)
    ensures Find(s + t, p) == (match Find(t, p) case None => None case Some(k) => Some(|s| + k))
  {
    match Find(t, p)
    case None =>
      forall j | 0 <= j <= |s + t| ensures !Occurs(s + t, p, j) {
        if |s| <= j && Occurs(s + t, p, j) {
          OccursInConcat(s, t, p, j);
        }
      }
      FindAbsent(s + t, p);
    case Some(k) =>
      OccursInSuffix(s, t, p, k);
      forall j | 0 <= j < |s| + k ensures !Occurs(s + t, p, j) {
        if |s| <= j && Occurs(s + t, p, j) {
          OccursInConcat(s, t, p, j);
        }
      }
      FindIsFirst(s + t, p, |s| + k);
  }

  /** A pattern whose first character is not in `lead` is first found right after it. */
  lemma FindAfterLead(lead: string, p: string, tail: string)
    requires p != [] && p[0] !in lead
    ensures Find(lead + p + tail, p) == Some(|lead|)
  {
    var u := lead + (p + tail);
    assert lead + p + tail == u;
    forall j | 0 <= j < |lead| ensures !Occurs(u, p, j) {
      CharOfOccurrence(u, p, j, 0);
    }
    FindAtStart(p + tail, p);
    FindShift(lead, p + tail, p);
  }

  /**
   * A pattern without a line break is found line by line: either in the
   * first line, or in the rest of the text.
   */
  lemma FindAcrossLineBreak(s: string, t: string, p: string)
    requires p != [] && '\n' !in p
    ensures Find(s + "\n" + t, p) ==
      (match Find(s, p) case Some(k) => Some(k)
       case None => (match Find(t, p) case None => None case Some(k) => Some(|s| + 1 + k)))
  {
    var u := s + "\n" + t;
    assert u == s + ("\n" + t);
    match Find(s, p)
    case Some(k) =>
      OccursInPrefix(s, "\n" + t, p, k);
      forall j | 0 <= j < k ensures !Occurs(u, p, j) {
        if Occurs(u, p, j) {
          OccursInConcat(s, "\n" + t, p, j);
        }
      }
      FindIsFirst(u, p, k);
    case None =>
      assert u[|s|] == '\n';
      forall j | 0 <= j < |s| + 1 ensures !Occurs(u, p, j) {
        OccursInConcat(s, "\n" + t, p, j);
        CharOfOccurrence(u, p, j, |s| - j);
      }
      assert u == (s + "\n") + t;
      FindShift(s + "\n", t, p);
  }

  /** A pattern absent from a line and starting the next line is first found there. */
  lemma FindAfterLine(s: string, t: string, p: string)
    requires p != [] && '\n' !in p && Absent(s, p) && StartsWith(t, p)
    ensures Find(s + "\n" + t, p) == Some(|s| + 1)
  {
    FindAbsent(s, p);
    FindAtStart(t, p);
    FindAcrossLineBreak(s, t, p);
  }

  /** The text before the first occurrence of `p`, or all of `s`: `s.split(p)[0]`. */
  function Before(s: string, p: string): (r: string)
    requires p != []
    ensures |r| <= |s| && r == s[..|r|]
    ensures Absent(r, p)
    ensures Absent(s, p) ==> r == s
    ensures r == s || IsFirst(s, p, |r|)
  {
    match Find(s, p)
    case None => s
    case Some(i) =>
      assert forall j | 0 <= j <= i :: Occurs(s[..i], p, j) ==> Occurs(s, p, j) by {
        forall j | 0 <= j <= i && Occurs(s[..i], p, j) ensures Occurs(s, p, j) {
          assert s == s[..i] + s[i..];
          OccursInPrefix(s[..i], s[i..], p, j);
        }
      }
      s[..i]
  }

  /** The text after the first occurrence of `p`, if there is one. */
  function After(s: string, p: string): (r: Option<string>)
    ensures r.None? <==> Absent(s, p)
    ensures forall i | IsFirst(s, p, i) :: r == Some(s[i + |p|..])
  {
    FindUnique(s, p);
    match Find(s, p)
    case None => None
    case Some(i) => Some(s[i + |p|..])
  }

  /** The whole text comes back exactly when `p` does not occur in it. */
  lemma BeforeWhole(s: string, p: string)
    requires p != []
    ensures Before(s, p) == s <==> Absent(s, p)
  {
  }

  /** With `p` first at `i`, the text before it is the prefix of length `i`. */
  lemma BeforeAt(s: string, p: string, i: nat)
    requires p != [] && IsFirst(s, p, i)
    ensures Before(s, p) == s[..i]
  {
    FindIsFirst(s, p, i);
  }

  /** `xs.join(d)`. */
  function Join(xs: seq<string>, d: string): string {
    if |xs| == 0 then ""
    else if |xs| == 1 then xs[0]
    else xs[0] + d + Join(xs[1..], d)
  }

  /** A character in neither the pieces nor the separator is not in the joined text. */
  lemma {:induction false} JoinAvoids(xs: seq<string>, d: string, c: char)
    requires c !in d && forall k | 0 <= k < |xs| :: c !in xs[k]
    ensures c !in Join(xs, d)
    decreases |xs|
  {
    if |xs| > 1 {
      JoinAvoids(xs[1..], d, c);
    }
  }

  /** Joining one more piece appends the separator and that piece. */
  lemma {:induction false} JoinSnoc(xs: seq<string>, x: string, d: string)
    requires xs != []
    ensures Join(xs + [x], d) == Join(xs, d) + d + x
    decreases |xs|
  {
    if |xs| > 1 {
      assert (xs + [x])[1..] == xs[1..] + [x];
      JoinSnoc(xs[1..], x, d);
    }
  }

  /** Pieces and separator without line terminators join into one line. */
  lemma {:induction false} JoinOneLine(xs: seq<string>, d: string)
    requires NoLineTerminator(d) && forall k | 0 <= k < |xs| :: NoLineTerminator(xs[k])
    ensures NoLineTerminator(Join(xs, d))
    decreases |xs|
  {
    if |xs| > 1 {
      JoinOneLine(xs[1..], d);
      var u := Join(xs, d);
      var rest := Join(xs[1..], d);
      assert u == xs[0] + d + rest;
      forall k | 0 <= k < |u| ensures !IsLineTerminator(u[k]) {
        if k < |xs[0]| {
          assert u[k] == xs[0][k];
        } else if k < |xs[0]| + |d| {
          assert u[k] == d[k - |xs[0]|];
        } else {
          assert u[k] == rest[k - |xs[0]| - |d|];
        }
      }
    }
  }

  /** `s.split(d)` for a non-empty separator: every piece, in order. */
  function Split(s: string, d: string): (r: seq<string>)
    requires d != []
    ensures |r| >= 1
    ensures Join(r, d) == s
    ensures forall k | 0 <= k < |r| :: Absent(r[k], d)
    decreases |s|
  {
    match Find(s, d)
    case None => [s]
    case Some(i) =>
      var rest := Split(s[i + |d|..], d);
      assert s == Before(s, d) + d + s[i + |d|..];
      [s[..i]] + rest
  }

  /**
   * Gluing two texts that lack a uniform pattern such as `---` creates no
   * occurrence when the glue point is not flanked by its character on both
   * sides.
   */
  lemma AbsentConcatUniform(a: string, b: string, d: string, c: char)
    requires Uniform(d, c) && Absent(a, d) && Absent(b, d)
    requires a == [] || b == [] || a[|a| - 1] != c || b[0] != c
    ensures Absent(a + b, d)
  {
    var u := a + b;
    forall j | 0 <= j <= |u| ensures !Occurs(u, d, j) {
      OccursInConcat(a, b, d, j);
    }
  }

  /** The first piece of a split is the text before the first separator. */
  lemma SplitHead(s: string, d: string)
    requires d != []
    ensures Split(s, d)[0] == Before(s, d)
  {
  }

  /**
   * There is a second piece exactly when the separator occurs; it is the
   * text between the first and second separator, or to the end.
   */
  lemma SplitSecond(s: string, d: string)
    requires d != []
    ensures |Split(s, d)| > 1 <==> !Absent(s, d)
    ensures forall i | IsFirst(s, d, i) :: Split(s, d)[1] == Before(s[i + |d|..], d)
  {
    match Find(s, d)
    case None =>
    case Some(i) =>
      SplitHead(s[i + |d|..], d);
  }

  /** Every character of `d` is `c` (as in `|||` and `---`). */
  predicate Uniform(d: string, c: char) {
    forall k | 0 <= k < |d| :: d[k] == c
  }

  /**
   * Splitting undoes joining, provided no piece contains the separator and
   * no piece but the last ends with the separator's character.
   */
  lemma {:induction false} SplitJoin(xs: seq<string>, d: string, c: char)
    requires d != [] && Uniform(d, c) && |xs| >= 1
    requires forall k | 0 <= k < |xs| :: Absent(xs[k], d)
    requires forall k | 0 <= k < |xs| - 1 :: xs[k] == [] || xs[k][|xs[k]| - 1] != c
    ensures Split(Join(xs, d), d) == xs
    decreases |xs|
  {
    if |xs| == 1 {
      FindAbsent(xs[0], d);
    } else {
      var x := xs[0];
      var rest := Join(xs[1..], d);
      var u := x + d + rest;
      assert u == x + (d + rest);
      OccursInSuffix(x, d + rest, d, 0);
      forall j | 0 <= j < |x| ensures !Occurs(u, d, j) {
        OccursInConcat(x, d + rest, d, j);
        CharOfOccurrence(u, d, j, |x| - 1 - j);
        assert u[|x| - 1] == x[|x| - 1];
      }
      FindIsFirst(u, d, |x|);
      assert u[|x| + |d|..] == rest;
      SplitJoin(xs[1..], d, c);
    }
  }

  /** An occurrence in a slice is an occurrence in the whole text. */
  lemma OccursInSlice(s: string, a: int, b: int, p: string, i: int)
    ensures 0 <= a <= b <= |s| && Occurs(s[a..b], p, i) ==> Occurs(s, p, a + i)
  {
    if 0 <= a <= b <= |s| && Occurs(s[a..b], p, i) {
      forall k | 0 <= k < |p| ensures s[a + i + k] == p[k] {
        assert s[a..b][i..i + |p|][k] == p[k];
      }
      assert s[a + i..a + i + |p|] == p;
    }
  }

  /** A pattern absent from a text is absent from every slice of it. */
  lemma AbsentInSlice(s: string, a: int, b: int, p: string)
    requires 0 <= a <= b <= |s| && Absent(s, p)
    ensures Absent(s[a..b], p)
  {
    forall i | 0 <= i <= b - a ensures !Occurs(s[a..b], p, i) {
      OccursInSlice(s, a, b, p, i);
    }
  }

  /** JavaScript line terminators: what the regular-expression `.` refuses to match. */
  predicate IsLineTerminator(c: char) {
    c == '\n' || c == '\r' || c == '\U{2028}' || c == '\U{2029}'
  }

  /** JavaScript white space and line terminators: what `trim` removes and `\s` matches. */
  predicate IsWhitespace(c: char) {
    || IsLineTerminator(c)
    || c == '\t' || c == '\U{000B}' || c == '\U{000C}' || c == ' '
    || c == '\U{00A0}' || c == '\U{FEFF}' || c == '\U{1680}'
    || ('\U{2000}' <= c <= '\U{200A}')
    || c == '\U{202F}' || c == '\U{205F}' || c == '\U{3000}'
  }

  predicate AllWhitespace(s: string) {
    forall i | 0 <= i < |s| :: IsWhitespace(s[i])
  }

  predicate NoLineTerminator(s: string) {
    forall i | 0 <= i < |s| :: !IsLineTerminator(s[i])
  }

  /** Neither end of `s` is white space. */
  predicate Trimmed(s: string) {
    s == [] || (!IsWhitespace(s[0]) && !IsWhitespace(s[|s| - 1]))
  }

  function TrimStart(s: string): (r: string)
    ensures |r| <= |s| && r == s[|s| - |r|..]
    ensures AllWhitespace(s[..|s| - |r|])
    ensures r == [] || !IsWhitespace(r[0])
  {
    if |s| > 0 && IsWhitespace(s[0]) then
      var r := TrimStart(s[1..]);
      assert s[..|s| - |r|] == [s[0]] + s[1..][..|s| - 1 - |r|];
      r
    else s
  }

  function TrimEnd(s: string): (r: string)
    ensures |r| <= |s| && r == s[..|r|]
    ensures AllWhitespace(s[|r|..])
    ensures r == [] || !IsWhitespace(r[|r| - 1])
  {
    if |s| > 0 && IsWhitespace(s[|s| - 1]) then
      var r := TrimEnd(s[..|s| - 1]);
      assert s[|r|..] == s[..|s| - 1][|r|..] + [s[|s| - 1]];
      r
    else s
  }

  /** `s` is `r` with white space added on both sides, `a` characters of it in front. */
  predicate PaddedAt(s: string, r: string, a: int) {
    0 <= a <= |s| - |r| && s[a..a + |r|] == r && AllWhitespace(s[..a]) && AllWhitespace(s[a + |r|..])
  }

  /**
   * A suffix `t` of `s` after blanks, and a prefix `r` of `t` before blanks,
   * put `r` padded inside `s`; when `t` starts and `r` ends with no blank,
   * `r` is trimmed.
   */
  lemma PaddedOfParts(s: string, t: string, r: string)
    requires |t| <= |s| && t == s[|s| - |t|..] && AllWhitespace(s[..|s| - |t|])
    requires |r| <= |t| && r == t[..|r|] && AllWhitespace(t[|r|..])
    requires (t == [] || !IsWhitespace(t[0])) && (r == [] || !IsWhitespace(r[|r| - 1]))
    ensures PaddedAt(s, r, |s| - |t|) && Trimmed(r)
  {
    var a := |s| - |t|;
    assert s[a..a + |r|] == t[..|r|];
    assert s[a + |r|..] == t[|r|..];
    assert r != [] ==> r[0] == t[0];
  }

  /** `s.trim()`: the text without its surrounding white space. */
  function Trim(s: string): (r: string)
    ensures Trimmed(r)
    ensures PaddedAt(s, r, |s| - |TrimStart(s)|)
  {
    var t := TrimStart(s);
    var r := TrimEnd(t);
    PaddedOfParts(s, t, r);
    r
  }

  /** `!s.trim()`: the trimmed text is empty exactly when the text is all white space. */
  lemma TrimBlank(s: string)
    ensures Trim(s) == [] <==> AllWhitespace(s)
  {
    var a := |s| - |TrimStart(s)|;
    var r := Trim(s);
    if r == [] {
      assert s == s[..a] + s[a..];
      forall k | 0 <= k < |s| ensures IsWhitespace(s[k]) {
        assert s[k] == s[..a][k];
      }
    } else {
      assert s[a] == r[0];
    }
  }

  lemma WhitespaceAt(s: string, k: int)
    ensures AllWhitespace(s) && 0 <= k < |s| ==> IsWhitespace(s[k])
  {
  }

  lemma NoLineTerminatorAt(s: string, k: int)
    ensures NoLineTerminator(s) && 0 <= k < |s| ==> !IsLineTerminator(s[k])
  {
  }

  /** What `trim` keeps inherits the absence of a pattern from its input. */
  lemma TrimKeepsAbsent(s: string, p: string)
    ensures Absent(s, p) ==> Absent(Trim(s), p)
  {
    if Absent(s, p) {
      var a := |s| - |TrimStart(s)|;
      AbsentInSlice(s, a, a + |Trim(s)|, p);
    }
  }

  /** What `trim` keeps inherits the absence of line terminators from its input. */
  lemma TrimKeepsLine(s: string)
    ensures NoLineTerminator(s) ==> NoLineTerminator(Trim(s))
  {
    var r := Trim(s);
    var a := |s| - |TrimStart(s)|;
    if NoLineTerminator(s) {
      forall k | 0 <= k < |r| ensures !IsLineTerminator(r[k]) {
        assert r[k] == s[a..a + |r|][k];
        NoLineTerminatorAt(s, a + k);
      }
    }
  }

  /** Trimming removes exactly the padding around a trimmed text. */
  lemma TrimPadded(a: string, x: string, b: string)
    requires AllWhitespace(a) && Trimmed(x) && AllWhitespace(b)
    ensures Trim(a + x + b) == x
  {
    assert a + x + b == a + (x + b);
    if x == [] {
      var w := a + b;
      assert AllWhitespace(w) by {
        forall k | 0 <= k < |w| ensures IsWhitespace(w[k]) {
          if k < |a| { assert w[k] == a[k]; } else { assert w[k] == b[k - |a|]; }
        }
      }
      assert a + x + b == w + [];
      TrimStartPadded(w, []);
    } else {
      TrimStartPadded(a, x + b);
      TrimEndPadded(x, b);
    }
  }

  lemma BlankBefore(s: string, a: int, k: int)
    ensures 0 <= k < a <= |s| && AllWhitespace(s[..a]) ==> IsWhitespace(s[k])
  {
    if 0 <= k < a <= |s| && AllWhitespace(s[..a]) {
      assert s[..a][k] == s[k];
    }
  }

  lemma BlankAfter(s: string, e: int, k: int)
    ensures 0 <= e <= k < |s| && AllWhitespace(s[e..]) ==> IsWhitespace(s[k])
  {
    if 0 <= e <= k < |s| && AllWhitespace(s[e..]) {
      assert s[e..][k - e] == s[k];
    }
  }

  /** A text has one trimmed core: any two trimmed texts it pads are the same. */
  lemma TrimUnique(s: string, r1: string, a1: int, r2: string, a2: int)
    requires Trimmed(r1) && PaddedAt(s, r1, a1) && Trimmed(r2) && PaddedAt(s, r2, a2)
    ensures r1 == r2
  {
    if r1 != [] && r2 != [] {
      var e1, e2 := a1 + |r1|, a2 + |r2|;
      assert s[a1] == r1[0] && s[a2] == r2[0];
      assert s[e1 - 1] == r1[|r1| - 1] && s[e2 - 1] == r2[|r2| - 1];
      BlankBefore(s, a2, a1);
      BlankBefore(s, a1, a2);
      BlankAfter(s, e1, e2 - 1);
      BlankAfter(s, e2, e1 - 1);
    } else if r1 != [] {
      assert s[a1] == r1[0];
      BlankBefore(s, a2, a1);
      BlankAfter(s, a2, a1);
    } else if r2 != [] {
      assert s[a2] == r2[0];
      BlankBefore(s, a1, a2);
      BlankAfter(s, a1, a2);
    }
  }

  /** Padding stays padding when more white space is appended. */
  lemma PaddedExtend(x: string, b: string, r: string, a: int)
    requires PaddedAt(x, r, a) && AllWhitespace(b)
    ensures PaddedAt(x + b, r, a)
  {
    var s := x + b;
    assert s[a..a + |r|] == x[a..a + |r|];
    assert s[..a] == x[..a];
    assert s[a + |r|..] == x[a + |r|..] + b;
  }

  /** White space appended to a text does not change its trimmed core. */
  lemma TrimAppendBlank(x: string, b: string)
    requires AllWhitespace(b)
    ensures Trim(x + b) == Trim(x)
  {
    var s := x + b;
    PaddedExtend(x, b, Trim(x), |x| - |TrimStart(x)|);
    TrimUnique(s, Trim(s), |s| - |TrimStart(s)|, Trim(x), |x| - |TrimStart(x)|);
  }

  lemma TrimOfTrimmed(x: string)
    requires Trimmed(x)
    ensures Trim(x) == x
  {
    TrimPadded("", x, "");
    assert "" + x + "" == x;
  }

  /** Leading white space is all `TrimStart` removes. */
  lemma {:induction false} TrimStartPadded(a: string, t: string)
    requires AllWhitespace(a) && (t == [] || !IsWhitespace(t[0]))
    ensures TrimStart(a + t) == t
    decreases |a|
  {
    if a != [] {
      assert (a + t)[1..] == a[1..] + t;
      TrimStartPadded(a[1..], t);
    }
  }

  /** Trailing white space is all `TrimEnd` removes, whatever comes before it. */
  lemma {:induction false} TrimEndPadded(t: string, b: string)
    requires AllWhitespace(b)
    ensures TrimEnd(t + b) == TrimEnd(t)
    decreases |b|
  {
    if b != [] {
      assert (t + b)[|t + b| - 1] == b[|b| - 1];
      assert IsWhitespace(b[|b| - 1]);
      assert (t + b)[..|t + b| - 1] == t + b[..|b| - 1];
      assert AllWhitespace(b[..|b| - 1]);
      TrimEndPadded(t, b[..|b| - 1]);
    } else {
      assert t + b == t;
    }
  }

  /** Trimming the end of `x + y` stays inside `y` when `y` holds anything but white space. */
  lemma {:induction false} TrimEndInside(x: string, y: string)
    requires !AllWhitespace(y)
    ensures TrimEnd(x + y) == x + TrimEnd(y)
    decreases |y|
  {
    var n := |y| - 1;
    assert (x + y)[|x + y| - 1] == y[n];
    if IsWhitespace(y[n]) {
      assert (x + y)[..|x + y| - 1] == x + y[..n];
      assert !AllWhitespace(y[..n]);
      TrimEndInside(x, y[..n]);
    }
  }

  /** Trimming text that starts with a non-blank `x` after blanks `a` and ends in blanks `b`. */
  lemma TrimFramed(a: string, x: string, y: string, b: string)
    requires AllWhitespace(a) && AllWhitespace(b) && x != [] && !IsWhitespace(x[0])
    ensures Trim(a + x + y + b) == TrimEnd(x + y)
    ensures !AllWhitespace(y) ==> Trim(a + x + y + b) == x + TrimEnd(y)
    ensures AllWhitespace(y) ==> Trim(a + x + y + b) == TrimEnd(x)
  {
    assert a + x + y + b == a + (x + y + b);
    TrimStartPadded(a, x + y + b);
    TrimEndPadded(x + y, b);
    if !AllWhitespace(y) {
      TrimEndInside(x, y);
    } else {
      TrimEndPadded(x, y);
    }
  }

  /** What `(.*)` captures: the text up to the first line terminator. */
  function RestOfLine(s: string): (r: string)
    ensures r <= s
    ensures NoLineTerminator(r)
    ensures r == s || IsLineTerminator(s[|r|])
  {
    if |s| == 0 || IsLineTerminator(s[0]) then [] else [s[0]] + RestOfLine(s[1..])
  }

  lemma RestOfLineBeforeBreak(x: string, t: string)
    requires NoLineTerminator(x)
    ensures RestOfLine(x + "\n" + t) == x
  {
    var s := x + "\n" + t;
    var r := RestOfLine(s);
    assert s[|x|] == '\n';
    NoLineTerminatorAt(x, |r|);
    NoLineTerminatorAt(r, |x|);
    assert |r| == |x|;
    assert s[..|x|] == x;
  }

  /**
   * `toLowerCase` on one character, for the ASCII and Latin-1 letters (the
   * letters of the three locales); every other character is left alone.
   */
  function Lower(c: char): char {
    if 'A' <= c <= 'Z' || ('\U{00C0}' <= c <= '\U{00DE}' && c != '\U{00D7}') then
      (c as int + 32) as char
    else c
  }

  /** `toUpperCase` on one character, over the same letters as `Lower`. */
  function Upper(c: char): char {
    if 'a' <= c <= 'z' || ('\U{00E0}' <= c <= '\U{00FE}' && c != '\U{00F7}') then
      (c as int - 32) as char
    else c
  }

  predicate IsUpperLetter(c: char) {
    'A' <= c <= 'Z' || ('\U{00C0}' <= c <= '\U{00DE}' && c != '\U{00D7}')
  }

  predicate IsLowerLetter(c: char) {
    'a' <= c <= 'z' || ('\U{00E0}' <= c <= '\U{00FE}' && c != '\U{00F7}')
  }

  /** The two mappings are inverse bijections between the upper- and lower-case letters. */
  lemma CasePairing(c: char)
    ensures IsUpperLetter(c) <==> IsLowerLetter(Lower(c)) && Lower(c) != c
    ensures IsLowerLetter(c) <==> IsUpperLetter(Upper(c)) && Upper(c) != c
    ensures IsUpperLetter(c) ==> Upper(Lower(c)) == c
    ensures IsLowerLetter(c) ==> Lower(Upper(c)) == c
    ensures !IsUpperLetter(c) ==> Lower(c) == c
    ensures !IsLowerLetter(c) ==> Upper(c) == c
  {
  }

  function LowerString(s: string): (r: string)
    ensures |r| == |s|
    ensures forall i | 0 <= i < |s| :: r[i] == Lower(s[i])
  {
    if s == [] then [] else [Lower(s[0])] + LowerString(s[1..])
  }

  function UpperString(s: string): (r: string)
    ensures |r| == |s|
    ensures forall i | 0 <= i < |s| :: r[i] == Upper(s[i])
  {
    if s == [] then [] else [Upper(s[0])] + UpperString(s[1..])
  }

  /** Equality ignoring case, as `a.toLowerCase() === b.toLowerCase()`. */
  predicate SameIgnoringCase(a: string, b: string) {
    LowerString(a) == LowerString(b)
  }

  /**
   * The replacement text `String.prototype.replace` inserts for a string
   * pattern: `$$` is a dollar sign, `$&` the matched text, `` $` `` the text
   * before the match and `$'` the text after it; any other `$` (including
   * `$1`, since a string pattern has no groups) stands for itself.
   */
  function Expand(rep: string, matched: string, before: string, after: string): string
    decreases |rep|
  {
    if |rep| == 0 then ""
    else if rep[0] == '$' && |rep| >= 2 && (rep[1] == '$' || rep[1] == '&' || rep[1] == '`' || rep[1] == '\'') then
      var piece := if rep[1] == '$' then "$" else if rep[1] == '&' then matched else if rep[1] == '`' then before else after;
      piece + Expand(rep[2..], matched, before, after)
    else [rep[0]] + Expand(rep[1..], matched, before, after)
  }

  /** A replacement without `$` is inserted verbatim. */
  lemma {:induction false} ExpandPlain(rep: string, matched: string, before: string, after: string)
    requires '$' !in rep
    ensures Expand(rep, matched, before, after) == rep
    decreases |rep|
  {
    if |rep| > 0 {
      assert rep[0] in rep;
      assert forall k | 0 <= k < |rep[1..]| :: rep[1..][k] == rep[k + 1];
      ExpandPlain(rep[1..], matched, before, after);
      assert rep == [rep[0]] + rep[1..];
    }
  }

  /** `s.replace(p, rep)` for a string pattern: only the first occurrence is replaced. */
  function ReplaceFirst(s: string, p: string, rep: string): string {
    match Find(s, p)
    case None => s
    case Some(i) => s[..i] + Expand(rep, p, s[..i], s[i + |p|..]) + s[i + |p|..]
  }

  /**
   * With a `$`-free replacement, `replace` cuts out the first occurrence and
   * puts the replacement in its place; without an occurrence the text is
   * unchanged.
   */
  lemma ReplaceFirstPlain(s: string, p: string, rep: string)
    requires '$' !in rep
    ensures Absent(s, p) ==> ReplaceFirst(s, p, rep) == s
    ensures forall i | IsFirst(s, p, i) :: ReplaceFirst(s, p, rep) == s[..i] + rep + s[i + |p|..]
  {
    if Find(s, p).Some? {
      var i := Find(s, p).value;
      ExpandPlain(rep, p, s[..i], s[i + |p|..]);
    }
  }
}

=== FILE: wordcount.dfy ===
/**
 * `countWords`: the number of pieces that `text.trim().split(/\s+/)`
 * leaves once empty pieces are dropped, shown to be the number of
 * maximal runs of non-white-space characters.
 */
module WordCount {
  import opened Text

  /** Where the word starting at `i` ends: the first white space at or after `i`, or the end. */
  function WordEnd(s: string, i: nat): (q: nat)
    requires i <= |s|
    ensures i <= q <= |s| && (q < |s| ==> IsWhitespace(s[q]))
    ensures forall k | i <= k < q :: !IsWhitespace(s[k])
    decreases |s| - i
  {
    if i == |s| || IsWhitespace(s[i]) then i else WordEnd(s, i + 1)
  }

  /** Where the white-space run starting at `i` ends: what a greedy `\s+` consumes. */
  function BlankEnd(s: string, i: nat): (e: nat)
    requires i <= |s|
    ensures i <= e <= |s| && (e < |s| ==> !IsWhitespace(s[e]))
    ensures forall k | i <= k < e :: IsWhitespace(s[k])
    decreases |s| - i
  {
    if i == |s| || !IsWhitespace(s[i]) then i else BlankEnd(s, i + 1)
  }

  /**
   * The pieces `split(/\s+/)` returns from position `p` on: the text up to
   * the next white space, then the pieces after the run it starts.
   */
  function SplitFrom(s: string, p: nat): (r: seq<string>)
    requires p <= |s|
    ensures |r| >= 1
    decreases |s| - p
  {
    var q := WordEnd(s, p);
    if q == |s| then [s[p..]] else [s[p..q]] + SplitFrom(s, BlankEnd(s, q))
  }

  function SplitBlanks(s: string): seq<string> {
    SplitFrom(s, 0)
  }

  /** `filter(Boolean)` on strings: the empty ones are dropped. */
  function NonEmpty(xs: seq<string>): (r: seq<string>)
    ensures |r| <= |xs|
    ensures forall k | 0 <= k < |r| :: r[k] != []
  {
    if xs == [] then []
    else if xs[0] == [] then NonEmpty(xs[1..])
    else [xs[0]] + NonEmpty(xs[1..])
  }

  /**
   * The number of words: maximal runs of characters that are not white
   * space, counted left to right; `inWord` says whether the text before
   * `s` ended inside a word.
   */
  function Runs(s: string, inWord: bool): nat
    decreases |s|
  {
    if s == [] then 0
    else if IsWhitespace(s[0]) then Runs(s[1..], false)
    else (if inWord then 0 else 1) + Runs(s[1..], true)
  }

  /** Whether, after reading `s` in state `inWord`, the reader is inside a word. */
  function EndsInWord(s: string, inWord: bool): bool {
    if s == [] then inWord else !IsWhitespace(s[|s| - 1])
  }

  /** Counting runs over a concatenation: the second part is read in the state the first left. */
  lemma {:induction false} RunsConcat(x: string, y: string, inWord: bool)
    ensures Runs(x + y, inWord) == Runs(x, inWord) + Runs(y, EndsInWord(x, inWord))
    decreases |x|
  {
    if x == [] {
      assert x + y == y;
    } else {
      assert (x + y)[0] == x[0];
      assert (x + y)[1..] == x[1..] + y;
      var next := !IsWhitespace(x[0]);
      RunsConcat(x[1..], y, next);
      assert EndsInWord(x[1..], next) == EndsInWord(x, inWord);
    }
  }

  /** White space holds no word and leaves the reader outside one. */
  lemma {:induction false} RunsBlank(w: string, inWord: bool)
    requires AllWhitespace(w)
    ensures Runs(w, inWord) == 0
    ensures w != [] ==> !EndsInWord(w, inWord)
    decreases |w|
  {
    if w != [] {
      RunsBlank(w[1..], false);
    }
  }

  /** A non-empty word is one run, unless the reader was already inside a word. */
  lemma {:induction false} RunsWord(w: string, inWord: bool)
    requires w != [] && forall k | 0 <= k < |w| :: !IsWhitespace(w[k])
    ensures Runs(w, inWord) == (if inWord then 0 else 1)
    ensures EndsInWord(w, inWord)
    decreases |w|
  {
    if |w| > 1 {
      RunsWord(w[1..], true);
    }
  }

  /** A word, a run of white space, then the rest: one run more than the rest. */
  lemma RunsStep(w: string, blank: string, rest: string)
    requires w != [] && forall k | 0 <= k < |w| :: !IsWhitespace(w[k])
    requires blank != [] && AllWhitespace(blank)
    ensures Runs(w + blank + rest, false) == 1 + Runs(rest, false)
  {
    RunsConcat(w, blank + rest, false);
    RunsWord(w, false);
    RunsConcat(blank, rest, true);
    RunsBlank(blank, true);
    assert w + blank + rest == w + (blank + rest);
  }

  /** One step of the split: the word up to `q`, then the pieces after the run of white space at `q`. */
  lemma SplitStep(t: string, p: nat)
    requires p < |t| && WordEnd(t, p) < |t|
    ensures var q := WordEnd(t, p);
      NonEmpty(SplitFrom(t, p)) == (if p < q then [t[p..q]] else []) + NonEmpty(SplitFrom(t, BlankEnd(t, q)))
  {
  }

  /**
   * From a word's first character to the end of a text that ends in a word,
   * the non-empty pieces of the split are as many as the runs.
   */
  lemma {:induction false} PiecesAreRuns(t: string, p: nat)
    requires p < |t| && !IsWhitespace(t[p]) && !IsWhitespace(t[|t| - 1])
    ensures |NonEmpty(SplitFrom(t, p))| == Runs(t[p..], false)
    decreases |t| - p
  {
    var q := WordEnd(t, p);
    if q == |t| {
      LastWord(t, p);
    } else {
      var e := BlankEnd(t, q);
      PiecesAreRuns(t, e);
      SplitStep(t, p);
      StepRuns(t, p, q, e);
    }
  }

  /** A word that runs to the end of the text is one piece and one run. */
  lemma LastWord(t: string, p: nat)
    requires p < |t| && WordEnd(t, p) == |t|
    ensures |NonEmpty(SplitFrom(t, p))| == 1 && Runs(t[p..], false) == 1
  {
    var w := t[p..];
    forall k | 0 <= k < |w| ensures !IsWhitespace(w[k]) {
      assert w[k] == t[p + k];
    }
    RunsWord(w, false);
  }

  /** A word, then the run of white space after it: one run more than what follows. */
  lemma StepRuns(t: string, p: nat, q: nat, e: nat)
    requires p < |t| && !IsWhitespace(t[p]) && q == WordEnd(t, p) < |t| && e == BlankEnd(t, q)
    ensures Runs(t[p..], false) == 1 + Runs(t[e..], false)
  {
    var w, blank := t[p..q], t[q..e];
    forall k | 0 <= k < |w| ensures !IsWhitespace(w[k]) {
      assert w[k] == t[p + k];
    }
    forall k | 0 <= k < |blank| ensures IsWhitespace(blank[k]) {
      assert blank[k] == t[q + k];
    }
    assert t[p..] == w + blank + t[e..];
    RunsStep(w, blank, t[e..]);
  }

  /** Runs are not changed by white space around the text. */
  lemma RunsPadded(a: string, x: string, b: string)
    requires AllWhitespace(a) && AllWhitespace(b)
    ensures Runs(a + x + b, false) == Runs(x, false)
  {
    RunsConcat(a + x, b, false);
    RunsBlank(b, EndsInWord(a + x, false));
    RunsConcat(a, x, false);
    RunsBlank(a, false);
  }

  /** The runs of a text are the runs of its trimmed core. */
  lemma RunsOfTrim(s: string)
    ensures Runs(s, false) == Runs(Trim(s), false)
  {
    var r := Trim(s);
    var a := |s| - |TrimStart(s)|;
    assert s == s[..a] + r + s[a + |r|..];
    RunsPadded(s[..a], r, s[a + |r|..]);
  }

  /** `countWords`: 0 for empty text, otherwise the non-empty pieces of the trimmed text split at white space. */
  function CountWords(text: string): (n: nat)
    ensures n == Runs(text, false)
  {
    RunsOfTrim(text);
    TrimCounted(Trim(text));
    if text == [] then 0 else |NonEmpty(SplitBlanks(Trim(text)))|
  }

  /** For trimmed text, the split leaves one non-empty piece per run. */
  lemma TrimCounted(t: string)
    requires Trimmed(t)
    ensures |NonEmpty(SplitBlanks(t))| == Runs(t, false)
  {
    if t == [] {
      assert SplitBlanks(t) == [[]];
    } else {
      PiecesAreRuns(t, 0);
      assert t[0..] == t;
    }
  }

  /** A character that is not white space starts or continues a run. */
  lemma {:induction false} SomeRun(s: string, k: nat)
    requires k < |s| && !IsWhitespace(s[k])
    ensures Runs(s, false) >= 1
    decreases k
  {
    if k > 0 && IsWhitespace(s[0]) {
      SomeRun(s[1..], k - 1);
    }
  }

  /** No words exactly when the text is white space only. */
  lemma NoWords(s: string)
    ensures CountWords(s) == 0 <==> AllWhitespace(s)
  {
    if AllWhitespace(s) {
      RunsBlank(s, false);
    } else {
      var k :| 0 <= k < |s| && !IsWhitespace(s[k]);
      SomeRun(s, k);
    }
  }

  /** Extra white space around the text does not change the count. */
  lemma CountIgnoresPadding(a: string, x: string, b: string)
    requires AllWhitespace(a) && AllWhitespace(b)
    ensures CountWords(a + x + b) == CountWords(x)
  {
    RunsPadded(a, x, b);
  }

  /** Any non-empty run of white space between words counts the same as any other. */
  lemma CountIgnoresSpacing(x: string, w1: string, w2: string, y: string)
    requires w1 != [] && w2 != [] && AllWhitespace(w1) && AllWhitespace(w2)
    ensures CountWords(x + w1 + y) == CountWords(x + w2 + y)
  {
    var b := EndsInWord(x, false);
    RunsConcat(x, w1 + y, false);
    RunsConcat(w1, y, b);
    RunsBlank(w1, b);
    RunsConcat(x, w2 + y, false);
    RunsConcat(w2, y, b);
    RunsBlank(w2, b);
    assert x + w1 + y == x + (w1 + y);
    assert x + w2 + y == x + (w2 + y);
  }
}

=== FILE: wrappers.dfy ===
/** Failure-carrying datatypes shared by the whole model. */
module Wrappers {

  /** A value that may be missing, as `undefined` or `null` are in the original program. */
  datatype Option<+T> = None | Some(value: T)

  /** The outcome of an operation that either returns a value or throws. */
  datatype Result<+T, +E> = Success(value: T) | Failure(error: E)

  /** What a `catch` clause receives: an `Error` with its message, or any other thrown value. */
  datatype Caught = ErrorObject(message: string) | OtherValue
}
